=== FILE: README.md ===
# gerberex core, modelled in Dafny

pcb-tools-extension (`gerberex`) panelizes printed-circuit-board
manufacturing data. It reads Gerber (RS-274X) artwork, Excellon drill files
and DXF outlines into in-memory statement lists and transforms them: it
offsets and rotates them, converts their units, and rewrites standard
apertures as aperture macros. It then composes many files into one panel
file. That step renumbers apertures above D10, renames clashing macros with
a `_k` suffix, shares equivalent drill tools, and keeps the header of the
first file. It can also stitch DXF lines and arcs into closed outlines. The
aperture-macro expression language has its own optimizer, printer and
postfix evaluator.

This project models that core, one module per source file:

- `common.dfy` (module `Common`): points, `Option`/`Result`, units and the
  25.4 factor, the tolerance test, file settings, and the first-free
  `name_k` search.
- `am_expression.dfy` (`AmExpression`): expression trees, `optimize`,
  `to_inch`/`to_metric`, `to_gerber`, `to_instructions`, and `eval_macro`
  as a stack machine with a loop.
- `dxf_path.dfy` (`DxfPaths`): the `DxfPath` class over an abstract segment
  type, the splice and merge operations, and `generate_closed_paths`.
- `excellon.dfy` (`Excellon`): statement clean-up, the coordinate and unit
  printers with their read-back, `DrillRout`, the `CoordinateCtx` class,
  the `generate_hits` state machine, and the `ExcellonFileEx` class.
- `rs274x.dfy` (`Rs274x`): the `GerberFile` class with `offset`, `rotate`
  and `_generalize_aperture`.
- `dxf.dfy` (`Dxf`): entity filtering, unit conversion, polyline indices,
  `_dots`, the block printers, and the `DxfStatements` and `DxfFile` classes.
- `composition.dfy` (`Composition`): the `GerberComposition` and
  `DrillComposition` classes and the order in which `dump` emits.

Code that mutates objects step by step is modelled as classes and methods
with loops. Each method is proved against a specification function. Pure
code is modelled as functions and lemmas. Calls into the drawing library
are function-typed parameters: rotation `R`, number formatting, statement
unit conversion, and `ExcellonTool.equivalent`.

## Model

| member | source | states |
|---|---|---|
| Common.EqualPointSymmetric | tests/test_utility.py:41-62 | Tolerance equality of points is symmetric. |
| Common.EqualWithinTolerance | tests/test_utility.py:27-62 | The tolerance is inclusive and per axis: 10.0001 and 10.01 are equal within 0.1 and 0.01, not within 0.001 or 0; the test's points behave likewise. |
| Common.FirstFree | gerberex/composition.py:107-116 | The name found is not taken, is the name itself when that is free, and is the first of name, name_1, name_2, … that is free. |
| Common.FreshName | gerberex/composition.py:107-116 | The suffix loop returns a name that is not taken, the original when free, and exactly the first free candidate. |
| AmExpression.OptimizeLeaf | gerberex/am_expression.py:48-66 | optimize returns a constant or a variable unchanged. |
| AmExpression.OptimizeFoldsConstants | gerberex/am_expression.py:90-97 | Two constant operands fold into one constant holding l op r (division by a non-zero constant). |
| AmExpression.OptimizeKeepsMixedOperands | gerberex/am_expression.py:98-121 | A constant other than 0 or 1 next to a variable leaves the operator and operands as they were, on either side. |
| AmExpression.OptimizeFolds | gerberex/am_expression.py:86-97 | After optimize no operator node has two constant operands. |
| AmExpression.OptimizeNodeSound | gerberex/am_expression.py:98-119 | Each identity rule (x+0, 0+x, x-0, 0-c, x*1, 1*x, x/1, 0/x) keeps the value wherever the original has one. |
| AmExpression.OptimizeSound | gerberex/am_expression.py:86-121 | optimize preserves the value of an expression under every variable assignment for which it is defined. |
| AmExpression.ConvertedValue | gerberex/am_expression.py:25-31 | to_inch divides the value by 25.4 and to_metric multiplies it by 25.4. |
| AmExpression.ToInchToMetric | gerberex/am_expression.py:25-31 | Converting to inch and back, or the other way, gives back the value. |
| AmExpression.OptimizeConvertedConstant | gerberex/am_expression.py:25-31 | A converted constant optimizes to the converted number. |
| AmExpression.ToGerberBalanced | gerberex/am_expression.py:123-124 | The printed form of any expression is correctly parenthesized when numbers print without parentheses. |
| AmExpression.AsWrittenLooseIffVariable | gerberex/am_expression.py:71-72 | As written, the instruction stream has loose items exactly when the expression contains a variable. |
| AmExpression.AsWrittenAgreesWithoutVariables | gerberex/am_expression.py:126-135 | Without variables, the as-written stream equals the corrected encoding. |
| AmExpression.AsWrittenVariableCounterexample | gerberex/am_expression.py:71-72 | `$1` alone yields two loose items as written and one LOAD once corrected. |
| AmExpression.EvalMacro | gerberex/am_expression.py:137-184 | The evaluator loop succeeds exactly when the stack machine does, and returns the primitives it emits. |
| AmExpression.InstructionsRebuildExpression | gerberex/am_expression.py:126-135 | Running the postfix instructions of an expression pushes exactly that expression, left operand first. |
| AmExpression.StoreRoundTrip | gerberex/am_expression.py:159-160 | `$n = e`, encoded and evaluated, emits the single primitive (-n, [e]) and leaves the stack empty. |
| AmExpression.StepStackDepth | gerberex/am_expression.py:152-184 | A binary opcode shrinks the stack by one, PUSH and LOAD grow it by one, and PRIM emits the stack and empties it. |
| DxfPaths.IsEqualToNeedsSameLength | gerberex/dxf_path.py:28-32 | Paths of different lengths are never equal. |
| DxfPaths.IsEqualToReflexive | gerberex/dxf_path.py:28-45 | A path equals itself when every segment equals itself. |
| DxfPaths.Reversed | gerberex/dxf_path.py:53-58 | Reversal keeps the count, and segment k of the result is segment n-1-k, reversed. |
| DxfPaths.ReversedTwice | gerberex/dxf_path.py:53-58 | Reversing twice restores the path when segment reversal is an involution. |
| DxfPaths.ReversedSwapsEnds | gerberex/dxf_path.py:15-26 | The reversed path starts where the path ended and ends where it started, and is closed exactly when the path is. |
| DxfPaths.TailBreak | gerberex/dxf_path.py:82-84 | The first overlap scan stops at the first unequal pair, or at min(len)-1 when every pair is equal. |
| DxfPaths.HeadBreak | gerberex/dxf_path.py:85-87 | The second overlap scan: the same, from the path's head and the element's tail. |
| DxfPaths.TailBreakPairsEqual | gerberex/dxf_path.py:82-84 | Every pair the first scan walks past is equal with no tolerance. |
| DxfPaths.HeadBreakPairsEqual | gerberex/dxf_path.py:85-87 | Every pair the second scan walks past is equal with no tolerance. |
| DxfPaths.SpliceCutsOnlyOverlaps | gerberex/dxf_path.py:78-97 | Every segment cut from either side was found equal to its counterpart at the junction; everything else is kept in order. |
| DxfPaths.SpliceWithoutOverlap | gerberex/dxf_path.py:78-125 | When no junction doubles back, appending gives path + element and inserting gives element + path, both as written and corrected. |
| DxfPaths.SpliceAsWrittenBreaksChain | gerberex/dxf_path.py:91-96 | For 0-1-2-3 spliced with 3-2-1-5, as written the result is 0-1, 2-3, 1-5 (a broken chain); corrected it is 0-1-5. |
| DxfPaths.MergeClosedUnchanged | gerberex/dxf_path.py:60-62 | merge leaves both paths alone when either is closed. |
| DxfPaths.MergeFailureKeepsPath | gerberex/dxf_path.py:60-76 | A failed merge keeps the path, and keeps the element as it was or reversed. |
| DxfPaths.MergeOrder | gerberex/dxf_path.py:63-74 | The tolerance defaults to the path's own; when end meets start the element is spliced at the end unreversed, and when only start meets end it is spliced in front unreversed; merged exactly when that splice succeeds. |
| DxfPaths.DxfPath.constructor | gerberex/dxf_path.py:11-13 | A new path holds the one statement and the tolerance. |
| DxfPaths.DxfPath.ToInch | gerberex/dxf_path.py:47-48 | Only the tolerance is converted to inch. |
| DxfPaths.DxfPath.ToMetric | gerberex/dxf_path.py:50-51 | Only the tolerance is converted to metric. |
| DxfPaths.DxfPath.Reverse | gerberex/dxf_path.py:53-58 | The loop leaves the statement list equal to Reversed of the old list. |
| DxfPaths.DxfPath.ScanTail | gerberex/dxf_path.py:82-84 | The loop with break returns TailBreak. |
| DxfPaths.DxfPath.ScanHead | gerberex/dxf_path.py:85-87 | The loop with break returns HeadBreak. |
| DxfPaths.DxfPath.SpliceIn | gerberex/dxf_path.py:78-125 | _append_at_end / _insert_on_top: merged exactly when Splice succeeds; the new list is its result, otherwise the old one (corrected, see ## Findings). |
| DxfPaths.DxfPath.Merge | gerberex/dxf_path.py:60-76 | The merged flag and the new path and element are those of MergeSpec, whose splice is the corrected one (corrected, see ## Findings). |
| DxfPaths.DedupedProperties | gerberex/dxf_path.py:176-187 | Kept segments come from the input, are pairwise unequal within tolerance, and all but possibly the first are lines or arcs. |
| DxfPaths.Dedupe | gerberex/dxf_path.py:176-187 | The nested for/else loop computes Deduped. |
| DxfPaths.GenerateClosedPaths | gerberex/dxf_path.py:173-204 | The pass loop terminates; every returned path is valid and closed, and there are at most as many as unique segments; merges use the corrected splice (corrected, see ## Findings). |
| DxfPaths.MergePass | gerberex/dxf_path.py:190-201 | One pass keeps every path valid and distinct, and carries over distinct paths of its own list, never more than it had; merges use the corrected splice (corrected, see ## Findings). |
| Excellon.CorrectStatementsClean | gerberex/excellon.py:39-56 | After clean-up no unknown statement starting with G02, G03, X, Y, A or I is left, and a list with no unknown statements is returned unchanged. |
| Excellon.CircularModeRoundTrip | gerberex/excellon.py:321-335 | A printed circular-mode statement reads back as itself; as written, counter-clockwise reads back as clockwise. |
| Excellon.CoordinateRoundTrip | gerberex/excellon.py:344-389 | A printed coordinate (X, Y, then A, else I and J) reads back as the coordinate, minus the centre offset the printer drops. |
| Excellon.ArcRoundTrip | gerberex/excellon.py:382-389 | The A field, or else the I and J fields, read back onto a coordinate that has only X and Y. |
| Excellon.UnitRoundTrip | gerberex/excellon.py:310-319 | A unit statement reads back as its units, zero suppression and format, in both the short INCH,LZ form and the long form. |
| Excellon.LongUnitRoundTrip | gerberex/excellon.py:316-318 | The long form (INCH or METRIC, then LZ or TZ, then the format written as zeros) reads back as its units, zero suppression and format. |
| Excellon.MakeRout | gerberex/excellon.py:264-267 | The DrillRout constructor forces the first node to G00 and keeps the rest. |
| Excellon.OffsetNodes | gerberex/excellon.py:292-294 | Every node moves by (dx, dy); radius and centre offset stay. |
| Excellon.OffsetNodesInverse | gerberex/excellon.py:292-294 | Offsetting back by (-dx, -dy) restores the nodes. |
| Excellon.RotateHitInverse | gerberex/excellon.py:223-300 | Rotating a hit, slot or rout by -a after a restores it when R(-a) undoes R(a); rout centre offsets turn about the origin. |
| Excellon.ConvertHitRoundTrip | gerberex/excellon.py:217-290 | Converting any hit to inch and back, or the other way, restores it. |
| Excellon.LaterNodesOk | gerberex/excellon.py:269-274 | The later nodes print exactly when each has a mode. |
| Excellon.RoutPrintable | gerberex/excellon.py:258-274 | A rout made by the constructor prints exactly when every node after the first has a mode. |
| Excellon.CoordinateCtx.constructor | gerberex/excellon.py:60-65 | The context starts at (0, 0) with no radius and no centre offset. |
| Excellon.CoordinateCtx.Update | gerberex/excellon.py:67-81 | update: absolute notation replaces supplied coordinates and incremental adds them; radius and offset change only when supplied. |
| Excellon.CoordinateCtx.MakeNode | gerberex/excellon.py:83-92 | node: an arc takes the explicit offset, or else the remembered radius and offset; other moves carry neither. |
| Excellon.GenerateHits | gerberex/excellon.py:58-163 | The loop succeeds exactly when the state machine does, and yields its hits. |
| Excellon.RoutsWellFormed | gerberex/excellon.py:108-111 | Every rout yielded is non-empty, starts with G00 and has a tool. |
| Excellon.StepYields | gerberex/excellon.py:113-163 | A rout only on drill mode or retract while routing down with nodes and a tool (nodes cleared either way); a hit only for a coordinate with x or y in drill status; a slot only for a slot. |
| Excellon.StepStatus | gerberex/excellon.py:113-143 | Drill mode sets DRILL, route mode moves DRILL to ROUT_UP, a plunge moves only ROUT_UP to ROUT_DOWN, a retract sets ROUT_UP, nothing else changes the status. |
| Excellon.StepPosition | gerberex/excellon.py:145-156 | One statement moves each axis as the values it supplies dictate. |
| Excellon.RunPosition | gerberex/excellon.py:67-77 | After a run, an axis holds the last value supplied (absolute) or the sum of all values supplied (incremental). |
| Excellon.ExcellonFileEx.constructor | gerberex/excellon.py:173-174 | The file holds the given statements, tools, hits and settings. |
| Excellon.ExcellonFileEx.FromFile | gerberex/excellon.py:37-167 | from_file succeeds exactly when clean-up and hit extraction do, and holds their results. |
| Excellon.ExcellonFileEx.Rotate | gerberex/excellon.py:176-180 | A whole number of turns changes nothing; otherwise every hit is rotated and nothing else changes. |
| Excellon.ExcellonFileEx.ConvertUnits | gerberex/excellon.py:182-200 | Only a file in the other units converts statements, tools and hits and flips the flag; a second call changes nothing. |
| Excellon.ExcellonFileEx.ToInch | gerberex/excellon.py:182-190 | A metric file becomes inch with every statement (through the library conversion), every tool diameter and every hit converted; an inch file is unchanged. |
| Excellon.ExcellonFileEx.ToMetric | gerberex/excellon.py:192-200 | An inch file becomes metric with every statement, tool diameter and hit converted; a metric file is unchanged. |
| Excellon.ConvertFileRoundTrip | gerberex/excellon.py:182-200 | Tools and hits converted to inch and back to metric, or the other way, come back unchanged. |
| Rs274x.OffsetCoord | gerberex/rs274x.py:31-37 | Present x and y move by dx and dy; absent ones stay absent; I and J stay. |
| Rs274x.OffsetCoordInverse | gerberex/rs274x.py:31-37 | Offsetting back restores the coordinate. |
| Rs274x.PenTracksLastFull | gerberex/rs274x.py:47-65 | Loop invariant: the pen holds the last full position and its rotation, or the origin twice when there was none. |
| Rs274x.ArcCentreRotated | gerberex/rs274x.py:54-65 | An arc's new I/J is R(prev + IJ) - R(prev), with prev the last full position before it; coordinates missing x or y and other statements are unchanged. |
| Rs274x.RotateAllInverse | gerberex/rs274x.py:43-65 | Rotating by an angle and then by its opposite restores every statement, arcs included, when R and the macro rotation are undone by the opposite angle. |
| Rs274x.ScanMeaning | gerberex/rs274x.py:79-91 | The scan finds whether a standard aperture exists, the last one, every macro name, and an insertion point after the last macro before the first standard aperture. |
| Rs274x.ScanFindsApertures | gerberex/rs274x.py:89-91 | need holds exactly when some statement is an R, O or P aperture, and lastAperture is the last such statement. |
| Rs274x.ScanInsertPoint | gerberex/rs274x.py:85-88 | The insertion point follows a macro or is 0, no standard aperture comes before it, and every later macro comes after some standard aperture. |
| Rs274x.ScanNeed | gerberex/rs274x.py:89-91 | A change is needed exactly when some aperture has shape R, O or P. |
| Rs274x.ScanMacroNames | gerberex/rs274x.py:85-86 | The scan collects exactly the names of the file's macros. |
| Rs274x.GeneralizedLayout | gerberex/rs274x.py:93-116 | The statements before the insertion point stay, the four macros follow, and every later statement moves four places on with its shape generalized. |
| Rs274x.GeneralizeOne | gerberex/rs274x.py:103-116 | R goes to the rectangle macro, P to the polygon macro, O to landscape when x > y else portrait; the D code stays and other statements are unchanged. |
| Rs274x.NoStandardApertureLeft | gerberex/rs274x.py:67-116 | After generalizing, no aperture has shape R, O or P. |
| Rs274x.StandardAperturesRenamed | gerberex/rs274x.py:103-116 | Each standard aperture keeps its D code, moves four places on, and names one of the inserted macros, which precede it. |
| Rs274x.ChosenNamesLong | gerberex/rs274x.py:96-100 | The chosen macro names are at least four letters, so never R, O or P. |
| Rs274x.RewriteRange | gerberex/rs274x.py:103-116 | Exactly the statements in the range are generalized. |
| Rs274x.GeneralizedAssembly | gerberex/rs274x.py:93-116 | Inserting the macros and then rewriting the range gives the generalized list. |
| Rs274x.GerberFile.constructor | gerberex/rs274x.py:28-29 | The file holds the given statements and settings. |
| Rs274x.GerberFile.Offset | gerberex/rs274x.py:31-39 | Coordinates are offset and other statements go through their own offset, one for one. |
| Rs274x.GerberFile.GeneralizeAperture | gerberex/rs274x.py:67-116 | The list becomes Generalized under names that are each the base name or its first free `_k` form among the file's macros. |
| Rs274x.GerberFile.ScanStatements | gerberex/rs274x.py:79-91 | The scanning loop returns ScanAll. |
| Rs274x.GerberFile.InsertMacros | gerberex/rs274x.py:93-102 | The naming loop picks first-free names and inserts the four macros at the insertion point. |
| Rs274x.GerberFile.Insert | gerberex/rs274x.py:101 | list.insert: the statement lands at the index, the statements before it stay, the ones after move one place on; settings are unchanged. |
| Rs274x.GerberFile.RewriteShapes | gerberex/rs274x.py:103-116 | The rewriting loop leaves RewriteRange of the old list. |
| Rs274x.GerberFile.Rotate | gerberex/rs274x.py:43-65 | A whole number of turns changes nothing; otherwise the apertures are generalized and the rotation loop is applied. |
| Rs274x.GerberFile.RotateStatements | gerberex/rs274x.py:47-65 | The loop leaves RotateAll from the origin pen. |
| Rs274x.GerberFile.RotateOne | gerberex/rs274x.py:52-65 | One pass of the loop body is RotateStmt on the pen (last_x, last_y) and the rotated pen (last_rx, last_ry). |
| Rs274x.GerberFile.ConvertUnits | gerberex/composition.py:57-61 | Only a file in the other units converts its statements and flips its units. |
| Dxf.StatementOf | gerberex/dxf.py:267-275 | An entity becomes a statement exactly when it is LWPOLYLINE, LINE, CIRCLE or ARC, and then of the matching kind. |
| Dxf.FilterEntitiesAppend | gerberex/dxf.py:267-275 | Filtering distributes over concatenation, so order is kept. |
| Dxf.FilterEntitiesKeeps | gerberex/dxf.py:267-275 | Every kept statement wraps an input entity of its type, and every entity of the four types is kept. |
| Dxf.StatementRoundTrip | gerberex/dxf.py:69-182 | With the corrected line conversion, any statement converted to inch and back (or the other way) is restored, kind included. |
| Dxf.VerticesRoundTrip | gerberex/dxf.py:245-255 | Polyline vertices and bulges survive a round trip. |
| Dxf.LineToMetricAsWrittenLosesY | gerberex/dxf.py:75-79 | As written, a line's y coordinates are divided by 25.4 again on to_metric, so (0, 25.4) converted to inch and back becomes (0, 1/25.4). |
| Dxf.PtSeqVisits | gerberex/dxf.py:201-205 | Vertices 1..n-1 are visited once each, vertex 0 only when the polyline is closed: n-1 or n segments. |
| Dxf.SegmentsShape | gerberex/dxf.py:207-241 | Segment k ends at its vertex and its kind follows the sign of the bulge of the vertex it leaves; only arcs carry a centre offset. |
| Dxf.SegmentCodeCases | gerberex/dxf.py:211-228 | The code is 01 for bulge 0, 03 for a positive bulge, 02 for a negative one. |
| Dxf.DotsFromMeaning | gerberex/dxf.py:92-97 | Dot k exists exactly when d + k·pitch is below the bound, and lies k steps from the first. |
| Dxf.Dots | gerberex/dxf.py:81-97 | The loop fails on a zero length and otherwise yields DotsFrom the start with a pitch-sized step. |
| Dxf.DotCount | gerberex/dxf.py:81-97 | The dots are the k ≥ 0 with k·pitch < length + width/2, dot k lying k steps from the start. |
| Dxf.StatementGerberCases | gerberex/dxf.py:35-243 | A statement prints text exactly when it is a line (non-zero length when the pitch is positive), or a circle, arc or non-empty polyline without a pitch. |
| Dxf.CollectMeaning | gerberex/dxf.py:298 | The join succeeds exactly when every part is text, in order; otherwise the first exception, or a TypeError for a part that gave nothing. |
| Dxf.FillSelectionMeaning | gerberex/dxf.py:284-290 | Fill mode selects exactly the circles and closed polylines, in order. |
| Dxf.BlockGerberBrackets | gerberex/dxf.py:281-298 | The output opens with `D<dcode>*`; in fill mode it continues with G36* and ends with G37*. |
| Dxf.BlockGerberWithoutPitch | gerberex/dxf.py:281-298 | In line mode the block prints exactly when every polyline has a vertex; in fill mode, every closed polyline. |
| Dxf.BlockGerberMouseBites | gerberex/dxf.py:291-298 | In mouse-bite mode with a positive pitch the block prints exactly when it holds only non-degenerate lines. |
| Dxf.LinesOf | gerberex/dxf.py:304-306 | The lines of a block are exactly its line statements. |
| Dxf.BlockExcellonOnlyLines | gerberex/dxf.py:300-307 | Only lines matter; outside mouse-bite mode there is no output; with pitch 0 any line makes the join fail. |
| Dxf.LinesOfIdempotent | gerberex/dxf.py:304-306 | Selecting lines twice equals selecting once. |
| Dxf.DxfStatements.constructor | gerberex/dxf.py:258-275 | The block keeps units and D code, defaults to line mode, has pitch 1 and width 0, and holds the filtered entities. |
| Dxf.DxfStatements.ToInch | gerberex/dxf.py:309-314 | Only a metric block converts its pitch and statements and becomes inch; an inch block is unchanged. |
| Dxf.DxfStatements.ToMetric | gerberex/dxf.py:316-321 | Only an inch block converts and becomes metric, with the corrected line conversion. |
| Dxf.DxfStatements.ToMetricAsWritten | gerberex/dxf.py:316-321 | As written, an inch block becomes metric with its pitch converted and its lines' y coordinates divided instead of multiplied. |
| Dxf.DxfFile.constructor | gerberex/dxf.py:377-396 | $INSUNITS 1 gives inch 2.5, any other value metric 3.4; the aperture is circle D10 of diameter 0; the block holds the filtered entities. |
| Dxf.DxfFile.SetDcode | gerberex/dxf.py:402-405 | The aperture and the block take the new D code; nothing else changes. |
| Dxf.DxfFile.SetWidth | gerberex/dxf.py:411-414 | The aperture's diameter and the block's width take the value. |
| Dxf.DxfFile.SetDrawMode | gerberex/dxf.py:420-423 | The file and its block take the new draw mode. |
| Dxf.DxfFile.SetPitch | gerberex/dxf.py:429-431 | The pitch lives in the block only. |
| Dxf.DxfFile.Write | gerberex/dxf.py:433-451 | write succeeds exactly when the notation is absolute and the block prints in the chosen format (Gerber text, or Excellon drills that are not None); it emits header, aperture, block text and M02, or header, tool 1 of the aperture's diameter, second header, T01, the block's drills and M30. |
| Dxf.DxfFile.Offset | gerberex/dxf.py:470-471 | offset always fails. |
| Dxf.DxfFile.ToInchAsWritten | gerberex/dxf.py:454-460 | As written, a metric file converts its settings, aperture and block as ConvertContent does, except that the pitch is converted twice; an inch file is unchanged. |
| Dxf.DxfFile.ToMetricAsWritten | gerberex/dxf.py:462-468 | As written, an inch file converts as ConvertContent does, except that the pitch is multiplied by 25.4 twice and lines convert their y coordinates with `inch`; a metric file is unchanged. |
| Dxf.DxfFile.ToInch | gerberex/dxf.py:454-460 | A metric file converts its aperture's diameter and its block, the pitch once, which is ConvertContent to inch; an inch file is unchanged. |
| Dxf.DxfFile.ToMetric | gerberex/dxf.py:462-468 | An inch file converts its aperture and block, the pitch once, which is ConvertContent to metric; a metric file is unchanged. |
| Dxf.ConvertContentTwice | gerberex/dxf.py:454-468 | Only the last conversion counts: to_inch then to_metric gives a metric file back, and a second conversion to the same units changes nothing. |
| Dxf.PitchConvertedTwice | gerberex/dxf.py:459 | A 25.4 mm pitch converted twice becomes 1/25.4 inch instead of 1. |
| Composition.ApertureShape | gerberex/composition.py:72-73 | A standard shape (C, R, O, P) is kept; a macro name follows its renaming; any other shape is a KeyError. |
| Composition.PolygonApertureRejected | gerberex/composition.py:72-73 | As written, a P aperture without a macro named P fails with KeyError; corrected it stays P. |
| Composition.ShapesAgreeButPolygon | gerberex/composition.py:72-73 | As written and corrected agree on every shape but P. |
| Composition.GerberRunKeeps | gerberex/composition.py:63-86 | Merging a file keeps the image consistent (distinct macro names, aperture k is D(k+10), every selection resolves) and loses nothing registered or drawn. |
| Composition.GerberRunRoutes | gerberex/composition.py:63-86 | The file's comments, other parameters and drawings (LP included) are appended in file order; drawings differ only in the D codes they select; EOF and deprecated statements vanish. |
| Composition.GerberRunKeys | gerberex/composition.py:66-76 | The per-merge maps cover exactly the macro names and D codes the file defined. |
| Composition.GerberRunSucceeds | gerberex/composition.py:72-85 | A merge succeeds exactly when every aperture's shape (a standard one, P included, or a macro defined before it) and every selection's D code was defined before it (corrected, see ## Findings). |
| Composition.GerberDump | gerberex/composition.py:37-47 | dump emits params, macros, apertures and drawings, then EOF last. |
| Composition.DefinedBeforeUse | gerberex/composition.py:37-47 | In the dump of a consistent image every macro precedes the apertures that use it, and every aperture precedes the selections of it. |
| Composition.GerberComposition.constructor | gerberex/composition.py:22-27 | A new image holds the settings and comments and nothing else. |
| Composition.GerberComposition.RegisterApertureMacro | gerberex/composition.py:107-116 | The macro is appended under the first free name; nothing else changes. |
| Composition.GerberComposition.RegisterAperture | gerberex/composition.py:118-121 | The k-th aperture gets D(k+10) and is appended; nothing else changes. |
| Composition.GerberComposition.MergeGerber | gerberex/composition.py:52-90 | An image with settings converts every statement of a file in other units (one in its units is untouched); the merge loop over the converted statements ends in GerberRun's state (corrected, see ## Findings); settings and parameters are adopted only by an image without settings; a failed merge keeps the statements merged before the failing one and adopts nothing. |
| Composition.GerberComposition.MergeStatements | gerberex/composition.py:63-86 | The statement loop fails exactly when GerberRun fails, with its error; otherwise it ends in GerberRun's state and maps (corrected, see ## Findings); a failed merge leaves the image of the statements before the failing one (StoppedAt). |
| Composition.GerberComposition.MergeStatement | gerberex/composition.py:64-86 | One statement does what GerberStep says, with a polygon aperture kept (corrected, see ## Findings); a step that fails changes nothing. |
| Composition.GerberComposition.MergeDxf | gerberex/composition.py:92-104 | An image with settings converts the file as ConvertContent does, pitch once (corrected, see ## Findings); the file's aperture gets the next D code, shared with its block; the block becomes a drawing; settings and the DXF header are adopted only when there were none. |
| Composition.GerberComposition.Merge | gerberex/composition.py:29-35 | A Gerber file merges as MergeGerber states (converted statements, GerberRun's state and error, the partial image after a failure, settings and parameters adopted only by an image without settings); a DXF file as MergeDxf states (converted content, next D code, one more aperture and drawing, settings and the DXF header adopted only when absent); an Excellon file is refused as unsupported and changes nothing. |
| Composition.ConvertGerber | gerberex/composition.py:57-61 | A Gerber file in other units has every statement converted by the library's to_inch or to_metric; one in the target units keeps its statements. |
| Composition.ConvertDxf | gerberex/composition.py:93-97 | A DXF file is converted as ConvertContent says, pitch once (corrected, see ## Findings); its draw mode and D code are kept. |
| Composition.SplitHeaderMeaning | gerberex/composition.py:173-185 | The first header is everything before the first tool definition or selection; the second, everything after up to the first selection, without tool definitions. |
| Composition.FirstEquivalent | gerberex/composition.py:212-214 | The index of the first equivalent existing tool, or none when no tool is equivalent. |
| Composition.MaxNumber | gerberex/composition.py:217-220 | The reduce gives 0 or the largest tool number, which bounds all numbers. |
| Composition.RegisterKeeps | gerberex/composition.py:211-223 | Registering keeps numbers positive and distinct and every tool, and returns an equivalent existing tool or a new one numbered above all others. |
| Composition.RegisterAllKeeps | gerberex/composition.py:187-189 | The tool map's keys are exactly the file's tool numbers, and each maps to a shared tool. |
| Composition.RepointMeaning | gerberex/composition.py:191-193 | Re-pointing succeeds exactly when every hit's tool number is mapped, and then gives the same hits in order, each with its shared tool. |
| Composition.HitsOf | gerberex/composition.py:150-152 | A tool's section holds only hits of the composition that use that tool. |
| Composition.BlocksOf | gerberex/composition.py:153-155 | A tool's section holds only DXF blocks registered under its number. |
| Composition.DrillDump | gerberex/composition.py:140-156 | dump emits first header, tool definitions, second header, the tool sections, and ends with end of program; slots and routs are written in their own form (corrected, see ## Findings). |
| Composition.SlotBreaksDump | gerberex/composition.py:152 | As written, dumping a merged slot fails (a slot has no single position); corrected, it is written in its tool's section. |
| Composition.EveryHitDumpedOnce | gerberex/composition.py:140-156 | With distinct tool numbers and every hit's tool listed, the dump writes every hit exactly once. |
| Composition.DrillComposition.constructor | gerberex/composition.py:124-130 | A new drill file holds the settings and comments and nothing else. |
| Composition.DrillComposition.RegisterTool | gerberex/composition.py:211-223 | The two loops give Register: the first equivalent tool unchanged, or a copy numbered max+1 appended. |
| Composition.DrillComposition.TakeHeader | gerberex/composition.py:173-185 | The header loop appends SplitHeader's two parts. |
| Composition.DrillComposition.RegisterFileTools | gerberex/composition.py:187-189 | The loop gives RegisterAll's tools and map. |
| Composition.DrillComposition.AppendHits | gerberex/composition.py:191-193 | The loop appends the re-pointed hits, or fails as Repoint does, keeping the hits re-pointed before the failing one (HitsStoppedAt). |
| Composition.DrillComposition.MergeExcellon | gerberex/composition.py:162-193 | The first file lends its settings; a later file in other units has its statements, tool diameters and hits converted, one in the same units is untouched; the header is split only while empty; the converted tools are registered and the converted hits re-pointed and appended; after a failure the hits before the failing one stay appended. |
| Composition.ConvertExcellon | gerberex/composition.py:165-171 | An Excellon file in other units has its statements, tools and hits converted; one in the target units is untouched. |
| Composition.DrillComposition.AddBlock | gerberex/composition.py:208-209 | A tool of the block's width is registered and the block stored under its number. |
| Composition.DrillComposition.MergeDxf | gerberex/composition.py:195-209 | Settings adopted, or the file converted as ConvertContent does, pitch once (corrected, see ## Findings); the DXF headers taken only while empty; the block drilled with a registered tool of the converted width. |
| Composition.DrillComposition.Merge | gerberex/composition.py:132-138 | An Excellon file merges as MergeExcellon states (settings adopted or the file converted; headers split only while empty; registered tools; re-pointed hits, or Repoint's error with the hits before the failing one kept); a DXF file as MergeDxf states (settings adopted or the content converted, DXF headers taken only while empty, registered tool, stored block); a Gerber file is refused as unsupported and changes nothing. |

## Left out

- Trigonometry and square roots (`rotate` in gerberex/utility.py:8-13, arc end points, bulge-to-centre, line length): rotation is a function parameter `R`; the other geometry and the line length are parameters.
- Number formatting and parsing (`write_gerber_value`, `parse_gerber_value`, `'%.6g'`) are function parameters. The round-trip lemmas assume the parser inverts the formatter.
- File I/O: the bodies of `dump` and `write` are reduced to the ordered list of items they emit, and `read`/`loads` format detection in gerberex/common.py is not part of this model.
- dxfgrabber, `ExcellonParser` and `detect_excellon_format` are not part of this model. Entities and parsed statements are inputs.
- `ExcellonTool.equivalent` is an arbitrary predicate passed in.
- The pcb-tools statement and primitive conversions (`to_inch`/`to_metric` of Gerber and Excellon statements, macro rotation, the offset of non-coordinate Gerber statements) are function parameters.
- `GerberFile.from_gerber_file` and gerberex/statements.py wrap library classes and are not part of this model. Statements are already in their extended form.
- `Rs274x.GerberFile.Offset`: rendering primitives are not modelled, so their offset is left out.
- The non-path branches of `_append_at_end`/`_insert_on_top` (gerberex/dxf_path.py:99-104, 127-132) are not modelled. `generate_closed_paths` passes only paths, so they are never reached; one contains the `appen` typo.
- `DxfPaths.GenerateClosedPaths`: its ensures states termination, closedness and the count bound. It does not state that each output path is a concatenation of input segments.
- `DxfPaths.DxfPath.SpliceIn` (and through it `DxfPaths.DxfPath.Merge`, `DxfPaths.MergePass` and `DxfPaths.GenerateClosedPaths`) cuts both overlaps as slices, the corrected `DxfPaths.Splice`. The source deletes one element at each end (gerberex/dxf_path.py:93, 95, 121, 123), so on an overlap of two or more segments the path class does not compute what the source computes; that behaviour is stated only by `DxfPaths.SpliceAsWritten`.
- `DxfPaths.MergePass`: its ensures states that the pass keeps every path valid and distinct and returns at most as many paths, all from its own list. It does not state which paths were merged into which, nor that the paths it drops were merged into a later one.
- The composition classes run the corrected definitions listed under ## Findings: `Composition.ApertureShape` (a polygon aperture is kept), `Composition.DrillDump` (slots and routs are dumped), `Dxf.DxfFile.ToInch`/`ToMetric` (pitch converted once, lines with `metric`). The source's own behaviour for those inputs is stated only by the as-written members.
- Header statements of the DXF file (`DxfHeaderStatement`, `DxfHeader2Statement`) and the Excellon tool definitions are abstract items; their texts are not modelled.
- The `DxfStatements.units` property refers to an undefined `_units` global and would raise NameError. Nothing in the core reads it, so the model has only the field.
- Polyline points and bulges are one list of vertices, so the two lists cannot differ in length.
- Mouse-bite output is modelled for a non-negative pitch only. The dot loop needs a positive pitch to terminate.
- Aliasing: statements that the source shares between a composition and the file it merged (and mutates in place afterwards) are values here, so later mutation of a merged file does not show in the composition. Likewise a hit's tool is the file's tool object in the source, so `to_inch`/`to_metric` (gerberex/excellon.py:187) change the diameter a hit sees; here each hit keeps its old tool value (`Excellon.ConvertHit` keeps `tool`). Only the tool number is read from a hit afterwards, so nothing observable differs.
- `Dxf.DxfFile.Write`: the header items and the tool definition are abstract; their text belongs to the drawing library and is not modelled. The block text and the closing codes are stated.
- `Dxf.DxfFile.constructor`: takes the value of the `$INSUNITS` header variable as an integer, so the variable is assumed present. A DXF header without it (an R12 drawing, say) makes gerberex/dxf.py:383 raise KeyError, which the model does not express.
- Floating-point rounding: all arithmetic is on reals, so 25.4 conversions round-trip exactly.

## Findings

| source | as written | input that shows it | evidently intended | confidence | as-written member | corrected member |
|---|---|---|---|---|---|---|
| gerberex/am_expression.py:72, 127-130 | a variable's `to_instructions` returns a bare tuple instead of a list of one instruction; iterating over it, as an operator does with each operand (`for i in ...: yield i`), yields the opcode and the number as two loose items | `$1`, or any expression with a variable (AmExpression.AsWrittenVariableCounterexample, AmExpression.AsWrittenLooseIffVariable) | a list holding one LOAD instruction, like the constant case; then evaluation rebuilds the expression (AmExpression.InstructionsRebuildExpression) | high, not executed | AmExpression.ToInstructionsAsWritten | AmExpression.ToInstructions |
| gerberex/dxf_path.py:91-96 | `del self.statements[-i]` and `del mergee[-j]` remove one element where the other side removes a slice | path 0-1-2-3 with element 3-2-1-5 (DxfPaths.SpliceAsWrittenBreaksChain) | both overlaps cut as slices from both sides, so only matched segments go (DxfPaths.SpliceCutsOnlyOverlaps) | medium, not executed | DxfPaths.SpliceAsWritten | DxfPaths.Splice |
| gerberex/excellon.py:335 | `CircularCCWModeStmt.to_excellon` prints G02 | any counter-clockwise mode statement reads back as clockwise (Excellon.CircularModeRoundTrip) | G03, so both modes read back as themselves (Excellon.CircularModeRoundTrip) | high, not executed | Excellon.CircularModeToExcellonAsWritten | Excellon.CircularModeToExcellon |
| gerberex/dxf.py:77,79 | line `to_metric` converts y with `inch` | a line from (0, 25.4) converted to inch and back has y = 1/25.4 (Dxf.LineToMetricAsWrittenLosesY) | `metric` for both coordinates, so every statement round-trips (Dxf.StatementRoundTrip) | high, not executed | Dxf.LineToMetricAsWritten | Dxf.LineToMetric |
| gerberex/dxf.py:459,467 | `DxfFile.to_inch`/`to_metric` convert the pitch after `DxfStatements` (dxf.py:312, 319) already did | a metric file with pitch 25.4 ends with pitch 1/25.4 inch (Dxf.PitchConvertedTwice) | the pitch converted once | high, not executed | Dxf.DxfFile.ToInchAsWritten | Dxf.DxfFile.ToInch |
| gerberex/composition.py:72 | only C, R and O count as standard shapes, so a polygon aperture is looked up as a macro | an aperture with shape P and no macro named P fails with KeyError (Composition.PolygonApertureRejected) | P kept as a standard shape | medium, not executed | Composition.ApertureShapeAsWritten | Composition.ApertureShape |
| gerberex/composition.py:152 | every hit is written from `h.position`, which slots and routs do not have | one tool with one merged slot fails to dump (Composition.SlotBreaksDump) | each hit written in its own form, every hit exactly once (Composition.EveryHitDumpedOnce) | medium, not executed | Composition.DrillDumpAsWritten | Composition.DrillDump |

=== FILE: am_expression.dfy ===
/**
 * Aperture-macro arithmetic expressions: constants, variables ($n) and the
 * four binary operators, with the optimizer (constant folding and identity
 * simplification), unit wrapping, the Gerber printer, the postfix
 * instruction encoding and the stack evaluator that rebuilds expressions
 * from postfix instructions.
 */
module AmExpression {
  import opened Common

  /** ADD '+', SUB '-', MUL 'X', DIV '/'. */
  datatype Op = ADD | SUB | MUL | DIV

  datatype Expr =
    | Constant(value: real)
    | Variable(number: int)
    | Operator(op: Op, lvalue: Expr, rvalue: Expr)

  function OpSymbol(op: Op): string
  {
    match op
    case ADD => "+"
    case SUB => "-"
    case MUL => "X"
    case DIV => "/"
  }

  /**
   * The source tests `e.value == c`, and `value` is the number only for a
   * constant (for any other expression it is the expression object, which
   * never equals a number). So only a constant can "be" 0 or 1.
   */
  predicate IsConstant(e: Expr, c: real)
  {
    e.Constant? && e.value == c
  }

  /** Floating-point arithmetic of the folder; dividing by zero raises. */
  function Apply(op: Op, l: real, r: real): Option<real>
  {
    match op
    case ADD => Some(l + r)
    case SUB => Some(l - r)
    case MUL => Some(l * r)
    case DIV => if r == 0.0 then None else Some(l / r)
  }

  /** The value of an expression under an assignment of the macro variables. */
  function Eval(e: Expr, env: int -> real): Option<real>
  {
    match e
    case Constant(v) => Some(v)
    case Variable(n) => Some(env(n))
    case Operator(op, l, r) =>
      match (Eval(l, env), Eval(r, env))
      case (Some(a), Some(b)) => Apply(op, a, b)
      case _ => None
  }

  // ---------------------------------------------------------------------
  // optimize
  // ---------------------------------------------------------------------

  /**
   * One operator node whose operands are already optimized: fold two
   * constants, otherwise apply the identity rules in the source's order.
   * None stands for the ZeroDivisionError of folding c / 0.
   */
  function OptimizeNode(op: Op, l: Expr, r: Expr): Option<Expr>
  {
    if l.Constant? && r.Constant? then
      match Apply(op, l.value, r.value)
      case Some(v) => Some(Constant(v))
      case None => None
    else
      match op
      case ADD =>
        if IsConstant(r, 0.0) then Some(l)
        else if IsConstant(l, 0.0) then Some(r)
        else Some(Operator(op, l, r))
      case SUB =>
        if IsConstant(r, 0.0) then Some(l)
        else if IsConstant(l, 0.0) && r.Constant? then Some(Constant(-r.value))
        else Some(Operator(op, l, r))
      case MUL =>
        // the x*0 rule of the source compares expression objects with 0
        // and never fires, so it is absent here
        if IsConstant(r, 1.0) then Some(l)
        else if IsConstant(l, 1.0) then Some(r)
        else Some(Operator(op, l, r))
      case DIV =>
        if IsConstant(r, 1.0) then Some(l)
        else if IsConstant(l, 0.0) then Some(Constant(0.0))
        else Some(Operator(op, l, r))
  }

  /** optimize: constants and variables are returned as they are. */
  function Optimize(e: Expr): Option<Expr>
  {
    match e
    case Constant(_) => Some(e)
    case Variable(_) => Some(e)
    case Operator(op, l, r) =>
      match Optimize(l)
      case None => None
      case Some(ol) =>
        match Optimize(r)
        case None => None
        case Some(or) => OptimizeNode(op, ol, or)
  }

  /** Constants and variables are already optimal. */
  lemma OptimizeLeaf(e: Expr)
    requires !e.Operator?
    ensures Optimize(e) == Some(e)
  {
  }

  /** Two constant operands fold into one constant holding l op r. */
  lemma {:induction false} OptimizeFoldsConstants(op: Op, a: real, b: real)
    requires op != DIV || b != 0.0
    ensures Optimize(Operator(op, Constant(a), Constant(b))) ==
            Some(Constant(match op case ADD => a + b case SUB => a - b case MUL => a * b case DIV => a / b))
  {
    assert Optimize(Constant(a)) == Some(Constant(a));
    assert Optimize(Constant(b)) == Some(Constant(b));
  }

  /**
   * A constant that is neither 0 nor 1 next to a variable leaves the
   * operator as it is, whichever side the constant is on.
   */
  lemma OptimizeKeepsMixedOperands(op: Op, c: real, n: int, constantFirst: bool)
    requires c != 0.0 && c != 1.0
    ensures var e := if constantFirst then Operator(op, Constant(c), Variable(n))
                     else Operator(op, Variable(n), Constant(c));
            Optimize(e) == Some(e)
  {
  }

  /** No operator node is left with two constant operands. */
  ghost predicate Folded(e: Expr)
  {
    match e
    case Constant(_) => true
    case Variable(_) => true
    case Operator(_, l, r) => !(l.Constant? && r.Constant?) && Folded(l) && Folded(r)
  }

  lemma {:induction false} OptimizeFolds(e: Expr)
    ensures Optimize(e).Some? ==> Folded(Optimize(e).value)
  {
    match e
    case Constant(_) =>
    case Variable(_) =>
    case Operator(op, l, r) =>
      OptimizeFolds(l);
      OptimizeFolds(r);
  }

  /** One node: the identity rules keep the value wherever it is defined. */
  lemma {:induction false} OptimizeNodeSound(op: Op, l: Expr, r: Expr, env: int -> real)
    requires OptimizeNode(op, l, r).Some?
    requires Eval(Operator(op, l, r), env).Some?
    ensures Eval(OptimizeNode(op, l, r).value, env) == Eval(Operator(op, l, r), env)
  {
  }

  /**
   * Optimizing never changes the value of an expression under any variable
   * assignment for which it has one (0/x -> 0 relies on x != 0, which a
   * defined value guarantees).
   */
  lemma {:induction false} OptimizeSound(e: Expr, env: int -> real)
    requires Optimize(e).Some?
    requires Eval(e, env).Some?
    ensures Eval(Optimize(e).value, env) == Eval(e, env)
  {
    match e
    case Constant(_) =>
    case Variable(_) =>
    case Operator(op, l, r) =>
      OptimizeSound(l, env);
      OptimizeSound(r, env);
      var ol, or := Optimize(l).value, Optimize(r).value;
      assert Eval(Operator(op, ol, or), env) == Eval(e, env);
      OptimizeNodeSound(op, ol, or, env);
  }

  // ---------------------------------------------------------------------
  // to_inch / to_metric
  // ---------------------------------------------------------------------

  /** to_inch: divide by MILLIMETERS_PER_INCH. */
  function ToInch(e: Expr): Expr
  {
    Operator(DIV, e, Constant(MILLIMETERS_PER_INCH))
  }

  /** to_metric: multiply by MILLIMETERS_PER_INCH. */
  function ToMetric(e: Expr): Expr
  {
    Operator(MUL, e, Constant(MILLIMETERS_PER_INCH))
  }

  /** to_inch and to_metric scale the value of the expression. */
  lemma {:induction false} ConvertedValue(e: Expr, env: int -> real)
    ensures Eval(ToInch(e), env) ==
            (if Eval(e, env).Some? then Some(ToInchValue(Eval(e, env).value)) else None)
    ensures Eval(ToMetric(e), env) ==
            (if Eval(e, env).Some? then Some(ToMetricValue(Eval(e, env).value)) else None)
  {
    var c := Constant(MILLIMETERS_PER_INCH);
    assert Eval(c, env) == Some(MILLIMETERS_PER_INCH);
  }

  /** Converting to inch and back to metric gives back the same value. */
  lemma {:induction false} ToInchToMetric(e: Expr, env: int -> real)
    ensures Eval(ToMetric(ToInch(e)), env) == Eval(e, env)
    ensures Eval(ToInch(ToMetric(e)), env) == Eval(e, env)
  {
    ConvertedValue(e, env);
    ConvertedValue(ToInch(e), env);
    ConvertedValue(ToMetric(e), env);
    if Eval(e, env).Some? {
      MetricInchRoundTrip(Eval(e, env).value);
    }
  }

  /** A constant converted and optimized is the converted number. */
  lemma OptimizeConvertedConstant(c: real)
    ensures Optimize(ToInch(Constant(c))) == Some(Constant(ToInchValue(c)))
    ensures Optimize(ToMetric(Constant(c))) == Some(Constant(ToMetricValue(c)))
  {
  }

  // ---------------------------------------------------------------------
  // to_gerber
  // ---------------------------------------------------------------------

  /**
   * to_gerber; `fmt` is the '%.6g'/'%.6f' number formatting of constants,
   * which is not modelled.
   */
  function ToGerber(e: Expr, fmt: real -> string): string
  {
    match e
    case Constant(v) => fmt(v)
    case Variable(n) => "$" + IntToString(n)
    case Operator(op, l, r) =>
      "(" + ToGerber(l, fmt) + ")" + OpSymbol(op) + "(" + ToGerber(r, fmt) + ")"
  }

  /** Parenthesis depth after reading s: opened minus closed. */
  function Depth(s: string): int
  {
    if s == [] then 0
    else Depth(s[..|s| - 1]) + (if s[|s| - 1] == '(' then 1 else if s[|s| - 1] == ')' then -1 else 0)
  }

  /** Every prefix closes no more than it opened, and s closes everything. */
  ghost predicate Balanced(s: string)
  {
    Depth(s) == 0 && forall k :: 0 <= k <= |s| ==> Depth(s[..k]) >= 0
  }

  predicate NoParens(s: string)
  {
    forall k :: 0 <= k < |s| ==> s[k] != '(' && s[k] != ')'
  }

  lemma {:induction false} DepthConcat(a: string, b: string)
    ensures Depth(a + b) == Depth(a) + Depth(b)
    decreases |b|
  {
    if b == [] {
      assert a + b == a;
    } else {
      assert (a + b)[..|a + b| - 1] == a + b[..|b| - 1];
      DepthConcat(a, b[..|b| - 1]);
    }
  }

  lemma {:induction false} DepthNoParens(s: string)
    requires NoParens(s)
    ensures forall k :: 0 <= k <= |s| ==> Depth(s[..k]) == 0
    decreases |s|
  {
    if s != [] {
      var t := s[..|s| - 1];
      assert NoParens(t);
      DepthNoParens(t);
      forall k | 0 <= k <= |s| ensures Depth(s[..k]) == 0 {
        if k < |s| { assert s[..k] == t[..k]; } else { assert s[..k][..k - 1] == t; }
      }
    }
  }

  lemma DigitsHaveNoParens(n: nat)
    ensures NoParens(NatToString(n))
  {
  }

  /** A prefix of x + y is a prefix of x, or all of x followed by a prefix of y. */
  lemma {:induction false} PrefixOfConcat(x: string, y: string, k: int)
    requires 0 <= k <= |x + y|
    ensures k <= |x| ==> (x + y)[..k] == x[..k]
    ensures k > |x| ==> (x + y)[..k] == x + y[..k - |x|]
  {
  }

  /** Appending a string whose prefixes never go below -d keeps prefixes non-negative. */
  lemma {:induction false} ConcatPrefixesNonNegative(x: string, y: string)
    requires forall k :: 0 <= k <= |x| ==> Depth(x[..k]) >= 0
    requires forall k :: 0 <= k <= |y| ==> Depth(x) + Depth(y[..k]) >= 0
    ensures forall k :: 0 <= k <= |x + y| ==> Depth((x + y)[..k]) >= 0
  {
    forall k | 0 <= k <= |x + y| ensures Depth((x + y)[..k]) >= 0 {
      PrefixOfConcat(x, y, k);
      if k > |x| {
        DepthConcat(x, y[..k - |x|]);
      }
    }
  }

  lemma {:induction false} WrapBalanced(s: string)
    requires Balanced(s)
    ensures Balanced("(" + s + ")")
  {
    var open: string := "(";
    assert Depth(open) == 1 by { assert open[..0] == []; }
    assert forall k :: 0 <= k <= |open| ==> Depth(open[..k]) >= 0 by {
      assert open[..0] == [];
      assert open[..1] == open;
    }
    forall k | 0 <= k <= |s| ensures Depth(open) + Depth(s[..k]) >= 0 { }
    ConcatPrefixesNonNegative(open, s);
    DepthConcat(open, s);
    var close: string := ")";
    assert Depth(close) == -1 by { assert close[..0] == []; }
    forall k | 0 <= k <= |close| ensures Depth(open + s) + Depth(close[..k]) >= 0 {
      if k == 0 { assert close[..0] == []; } else { assert close[..1] == close; }
    }
    ConcatPrefixesNonNegative(open + s, close);
    DepthConcat(open + s, close);
  }

  lemma {:induction false} JoinBalanced(x: string, y: string)
    requires Balanced(x) && Balanced(y)
    ensures Balanced(x + y)
  {
    ConcatPrefixesNonNegative(x, y);
    DepthConcat(x, y);
  }

  lemma {:induction false} NoParensBalanced(s: string)
    requires NoParens(s)
    ensures Balanced(s)
  {
    DepthNoParens(s);
    assert s[..|s|] == s;
  }

  /**
   * The printed form of an expression is correctly parenthesized, provided
   * the number formatter prints no parentheses.
   */
  lemma {:induction false} ToGerberBalanced(e: Expr, fmt: real -> string)
    requires forall v :: NoParens(fmt(v))
    ensures Balanced(ToGerber(e, fmt))
  {
    match e
    case Constant(v) =>
      NoParensBalanced(fmt(v));
    case Variable(n) =>
      var s := ToGerber(e, fmt);
      DigitsHaveNoParens(if n < 0 then -n else n);
      assert NoParens(s);
      NoParensBalanced(s);
    case Operator(op, l, r) =>
      ToGerberBalanced(l, fmt);
      ToGerberBalanced(r, fmt);
      var pl := "(" + ToGerber(l, fmt) + ")";
      var pr := "(" + ToGerber(r, fmt) + ")";
      WrapBalanced(ToGerber(l, fmt));
      WrapBalanced(ToGerber(r, fmt));
      NoParensBalanced(OpSymbol(op));
      JoinBalanced(pl, OpSymbol(op));
      JoinBalanced(pl + OpSymbol(op), pr);
      assert ToGerber(e, fmt) == pl + OpSymbol(op) + pr;
  }

  // ---------------------------------------------------------------------
  // to_instructions and eval_macro
  // ---------------------------------------------------------------------

  /**
   * The macro instruction set: PUSH a number, LOAD a variable, STORE into a
   * variable, one of the four arithmetic opcodes, PRIM (emit a primitive).
   */
  datatype Instruction =
    | Push(value: real)
    | Load(number: int)
    | Store(number: int)
    | Arith(op: Op)
    | Prim(code: int)

  /**
   * What iterating the result of to_instructions yields as the source is
   * written: a whole (opcode, argument) pair, or, for a variable, whose
   * to_instructions returns the bare tuple (LOAD, n) instead of a list of
   * one tuple, the opcode and the number as two separate items.
   */
  datatype Item = Whole(instruction: Instruction) | LooseLoadCode | LooseNumber(n: int)

  /** to_instructions as written (gerberex/am_expression.py:72 returns a bare tuple). */
  function ToInstructionsAsWritten(e: Expr): seq<Item>
  {
    match e
    case Constant(v) => [Whole(Push(v))]
    case Variable(n) => [LooseLoadCode, LooseNumber(n)]
    case Operator(op, l, r) =>
      ToInstructionsAsWritten(l) + ToInstructionsAsWritten(r) + [Whole(Arith(op))]
  }

  /** to_instructions with the variable case returning a list of one instruction. */
  function ToInstructions(e: Expr): seq<Instruction>
  {
    match e
    case Constant(v) => [Push(v)]
    case Variable(n) => [Load(n)]
    case Operator(op, l, r) => ToInstructions(l) + ToInstructions(r) + [Arith(op)]
  }

  predicate HasVariable(e: Expr)
  {
    match e
    case Constant(_) => false
    case Variable(_) => true
    case Operator(_, l, r) => HasVariable(l) || HasVariable(r)
  }

  function Wholes(xs: seq<Instruction>): (r: seq<Item>)
    ensures |r| == |xs| && forall k :: 0 <= k < |xs| ==> r[k] == Whole(xs[k])
  {
    if xs == [] then [] else Wholes(xs[..|xs| - 1]) + [Whole(xs[|xs| - 1])]
  }

  predicate AllWhole(items: seq<Item>)
  {
    forall k :: 0 <= k < |items| ==> items[k].Whole?
  }

  /**
   * As written, the instruction stream of an expression consists of whole
   * instructions exactly when the expression has no variable; a variable
   * leaves loose items in it that the evaluator cannot unpack.
   */
  lemma {:induction false} AsWrittenLooseIffVariable(e: Expr)
    ensures HasVariable(e) <==> !AllWhole(ToInstructionsAsWritten(e))
  {
    match e
    case Constant(v) =>
    case Variable(n) =>
      assert !ToInstructionsAsWritten(e)[0].Whole?;
    case Operator(op, l, r) =>
      AsWrittenLooseIffVariable(l);
      AsWrittenLooseIffVariable(r);
      var al, ar := ToInstructionsAsWritten(l), ToInstructionsAsWritten(r);
      var all := ToInstructionsAsWritten(e);
      assert all == al + ar + [Whole(Arith(op))];
      if !AllWhole(al) {
        var k :| 0 <= k < |al| && !al[k].Whole?;
        assert all[k] == al[k];
      } else if !AllWhole(ar) {
        var k :| 0 <= k < |ar| && !ar[k].Whole?;
        assert all[|al| + k] == ar[k];
      } else {
        forall k | 0 <= k < |all| ensures all[k].Whole? {
          if k < |al| { assert all[k] == al[k]; }
          else if k < |al| + |ar| { assert all[k] == ar[k - |al|]; }
        }
      }
  }

  lemma {:induction false} WholesConcat(xs: seq<Instruction>, ys: seq<Instruction>)
    ensures Wholes(xs + ys) == Wholes(xs) + Wholes(ys)
  {
    assert |Wholes(xs + ys)| == |Wholes(xs) + Wholes(ys)|;
    forall k | 0 <= k < |xs + ys| ensures Wholes(xs + ys)[k] == (Wholes(xs) + Wholes(ys))[k] {
      if k < |xs| { } else { assert (xs + ys)[k] == ys[k - |xs|]; }
    }
  }

  /** Without variables, the stream as written is the corrected encoding. */
  lemma {:induction false} AsWrittenAgreesWithoutVariables(e: Expr)
    requires !HasVariable(e)
    ensures ToInstructionsAsWritten(e) == Wholes(ToInstructions(e))
  {
    match e
    case Constant(v) =>
      assert Wholes([Push(v)]) == [Whole(Push(v))];
    case Operator(op, l, r) =>
      AsWrittenAgreesWithoutVariables(l);
      AsWrittenAgreesWithoutVariables(r);
      WholesConcat(ToInstructions(l), ToInstructions(r));
      WholesConcat(ToInstructions(l) + ToInstructions(r), [Arith(op)]);
      assert Wholes([Arith(op)]) == [Whole(Arith(op))];
  }

  /** The smallest witness: `$1` alone already yields two loose items. */
  lemma AsWrittenVariableCounterexample()
    ensures ToInstructionsAsWritten(Variable(1)) == [LooseLoadCode, LooseNumber(1)]
    ensures ToInstructions(Variable(1)) == [Load(1)]
  {
  }

  /** One emitted primitive: (code, operands); STORE n emits (-n, [expr]). */
  datatype Primitive = Primitive(code: int, operands: seq<Expr>)

  /** The evaluator's state: the operand stack and what has been emitted. */
  datatype Machine = Machine(stack: seq<Expr>, out: seq<Primitive>)

  /** One instruction of eval_macro; None is a pop from an empty stack. */
  function Step(m: Machine, i: Instruction): Option<Machine>
  {
    var s := m.stack;
    match i
    case Push(v) => Some(Machine(s + [Constant(v)], m.out))
    case Load(n) => Some(Machine(s + [Variable(n)], m.out))
    case Store(n) =>
      if |s| == 0 then None
      else Some(Machine(s[..|s| - 1], m.out + [Primitive(-n, [s[|s| - 1]])]))
    case Arith(op) =>
      if |s| < 2 then None
      else Some(Machine(s[..|s| - 2] + [Operator(op, s[|s| - 2], s[|s| - 1])], m.out))
    case Prim(n) => Some(Machine([], m.out + [Primitive(n, s)]))
  }

  function Exec(m: Machine, instrs: seq<Instruction>): Option<Machine>
    decreases |instrs|
  {
    if instrs == [] then Some(m)
    else match Step(m, instrs[0])
      case None => None
      case Some(m') => Exec(m', instrs[1..])
  }

  /**
   * eval_macro: run the instructions on an empty stack and return the
   * emitted primitives; None when an instruction pops an empty stack.
   */
  method EvalMacro(instrs: seq<Instruction>) returns (r: Option<seq<Primitive>>)
    ensures r.Some? <==> Exec(Machine([], []), instrs).Some?
    ensures r.Some? ==> r.value == Exec(Machine([], []), instrs).value.out
  {
    var stack: seq<Expr> := [];
    var out: seq<Primitive> := [];
    var i := 0;
    while i < |instrs|
      invariant 0 <= i <= |instrs|
      invariant Exec(Machine([], []), instrs) == Exec(Machine(stack, out), instrs[i..])
    {
      match instrs[i] {
        case Push(v) =>
          stack := stack + [Constant(v)];
        case Load(n) =>
          stack := stack + [Variable(n)];
        case Store(n) =>
          if |stack| == 0 { return None; }
          out := out + [Primitive(-n, [stack[|stack| - 1]])];
          stack := stack[..|stack| - 1];
        case Arith(op) =>
          if |stack| < 2 { return None; }
          var op1 := stack[|stack| - 1];
          var op2 := stack[|stack| - 2];
          stack := stack[..|stack| - 2] + [Operator(op, op2, op1)];
        case Prim(n) =>
          out := out + [Primitive(n, stack)];
          stack := [];
      }
      i := i + 1;
    }
    return Some(out);
  }

  lemma {:induction false} ExecAppend(m: Machine, xs: seq<Instruction>, ys: seq<Instruction>)
    ensures Exec(m, xs + ys) == (match Exec(m, xs) case None => None case Some(m') => Exec(m', ys))
    decreases |xs|
  {
    if xs == [] {
      assert xs + ys == ys;
    } else {
      assert (xs + ys)[0] == xs[0];
      assert (xs + ys)[1..] == xs[1..] + ys;
      match Step(m, xs[0])
      case None =>
      case Some(m') => ExecAppend(m', xs[1..], ys);
    }
  }

  /**
   * Evaluating the postfix instructions of an expression pushes exactly
   * that expression: the left operand is the one pushed first.
   */
  lemma {:induction false} InstructionsRebuildExpression(e: Expr, m: Machine)
    ensures Exec(m, ToInstructions(e)) == Some(Machine(m.stack + [e], m.out))
  {
    match e
    case Constant(v) =>
    case Variable(n) =>
    case Operator(op, l, r) =>
      var ml := Machine(m.stack + [l], m.out);
      var mlr := Machine(m.stack + [l, r], m.out);
      InstructionsRebuildExpression(l, m);
      InstructionsRebuildExpression(r, ml);
      assert ml.stack + [r] == m.stack + [l, r];
      ExecAppend(m, ToInstructions(l), ToInstructions(r));
      ExecAppend(m, ToInstructions(l) + ToInstructions(r), [Arith(op)]);
      assert Step(mlr, Arith(op)) == Some(Machine(m.stack + [e], m.out)) by {
        var s := mlr.stack;
        assert s[..|s| - 2] == m.stack;
      }
  }

  /** `$n = e` encoded and evaluated gives back the single STORE (-n, [e]). */
  lemma StoreRoundTrip(e: Expr, n: int)
    ensures Exec(Machine([], []), ToInstructions(e) + [Store(n)]) ==
            Some(Machine([], [Primitive(-n, [e])]))
  {
    InstructionsRebuildExpression(e, Machine([], []));
    ExecAppend(Machine([], []), ToInstructions(e), [Store(n)]);
    var m := Machine([e], []);
    assert [e][..0] == [];
    assert m.out + [Primitive(-n, [e])] == [Primitive(-n, [e])];
    assert Step(m, Store(n)) == Some(Machine([], [Primitive(-n, [e])]));
    assert Exec(m, [Store(n)]) == Exec(Machine([], [Primitive(-n, [e])]), []);
  }

  /** A binary opcode shrinks the stack by one, and a PRIM empties it. */
  lemma StepStackDepth(m: Machine, i: Instruction)
    requires Step(m, i).Some?
    ensures i.Arith? ==> |Step(m, i).value.stack| == |m.stack| - 1
    ensures i.Push? || i.Load? ==> |Step(m, i).value.stack| == |m.stack| + 1
    ensures i.Prim? ==> Step(m, i).value.stack == [] && Step(m, i).value.out == m.out + [Primitive(i.code, m.stack)]
  {
  }
}

=== FILE: common.dfy ===
/**
 * Shared vocabulary of the panelization core: points, optional values and
 * errors, units and their conversion factor, the tolerance test used for
 * every geometric comparison, file settings, and the "first free name"
 * search that both macro registries use.
 */
module Common {

  datatype Option<T> = None | Some(value: T)

  /** The outcome of an operation that the source aborts with an exception. */
  datatype Result<T> = Ok(value: T) | Fail(error: string)

  /** A coordinate pair (x, y). */
  datatype Point = Point(x: real, y: real)

  function Add(p: Point, q: Point): Point { Point(p.x + q.x, p.y + q.y) }
  function Sub(p: Point, q: Point): Point { Point(p.x - q.x, p.y - q.y) }

  /**
   * Rotation of a point by an angle in degrees about a centre. The source
   * computes it with cos/sin in floating point; here it is an arbitrary
   * function supplied by the caller, applied as R(angle, center, p).
   */
  type Rotation = (real, Point, Point) -> Point

  datatype Units = Inch | Metric
  datatype ZeroSuppression = Leading | Trailing
  datatype Notation = Absolute | Incremental

  /** The settings record every CAM file carries. */
  datatype Settings = Settings(units: Units, format: (int, int),
                               zeroSuppression: ZeroSuppression, notation: Notation)

  const MILLIMETERS_PER_INCH: real := 25.4

  /** Millimetres to inches and back, as the drawing library defines them. */
  function ToInchValue(v: real): real { v / MILLIMETERS_PER_INCH }
  function ToMetricValue(v: real): real { v * MILLIMETERS_PER_INCH }

  function PointToInch(p: Point): Point { Point(ToInchValue(p.x), ToInchValue(p.y)) }
  function PointToMetric(p: Point): Point { Point(ToMetricValue(p.x), ToMetricValue(p.y)) }

  lemma MetricInchRoundTrip(v: real)
    ensures ToMetricValue(ToInchValue(v)) == v && ToInchValue(ToMetricValue(v)) == v
  {
  }

  /** is_equal_value: the squared difference is within the squared tolerance. */
  predicate IsEqualValue(a: real, b: real, eps: real)
  {
    (a - b) * (a - b) <= eps * eps
  }

  /** is_equal_point: both axes are tolerance-equal. */
  predicate IsEqualPoint(p: Point, q: Point, eps: real)
  {
    IsEqualValue(p.x, q.x, eps) && IsEqualValue(p.y, q.y, eps)
  }

  lemma {:induction false} EqualPointSymmetric(p: Point, q: Point, eps: real)
    ensures IsEqualPoint(p, q, eps) <==> IsEqualPoint(q, p, eps)
  {
    assert (p.x - q.x) * (p.x - q.x) == (q.x - p.x) * (q.x - p.x);
    assert (p.y - q.y) * (p.y - q.y) == (q.y - p.y) * (q.y - p.y);
  }

  /**
   * The tolerance is inclusive and applies to each axis on its own: values
   * 0.0099 apart are equal within 0.01 but neither within 0.001 nor with
   * no tolerance at all.
   */
  lemma EqualWithinTolerance()
    ensures IsEqualValue(10.0001, 10.01, 0.1) && IsEqualValue(10.0001, 10.01, 0.01)
    ensures !IsEqualValue(10.0001, 10.01, 0.001) && !IsEqualValue(10.0001, 10.01, 0.0)
    ensures IsEqualPoint(Point(10.01, 5.001), Point(10.0001, 5.0), 0.01)
    ensures !IsEqualPoint(Point(5.001, 10.01), Point(5.0, 10.0001), 0.001)
  {
  }

  // ---------------------------------------------------------------------
  // Sequence bookkeeping
  // ---------------------------------------------------------------------

  lemma Associative<T>(a: seq<T>, b: seq<T>, c: seq<T>)
    ensures a + b + c == a + (b + c)
  {
  }

  /** Appending after position n leaves the prefix and extends the suffix. */
  lemma SliceAppend<T>(a: seq<T>, b: seq<T>, n: nat)
    requires n <= |a|
    ensures (a + b)[..n] == a[..n] && (a + b)[n..] == a[n..] + b
  {
  }

  /** A full turn: the source tests `angle % 360 == 0`. */
  predicate IsFullTurn(angle: real)
  {
    (angle / 360.0).Floor as real == angle / 360.0
  }

  // ---------------------------------------------------------------------
  // Decimal printing ('%d') and the name_k suffix search
  // ---------------------------------------------------------------------

  function DigitChar(d: nat): char
    requires d < 10
  {
    "0123456789"[d]
  }

  /** '%d' of a natural number. */
  function NatToString(n: nat): (s: string)
    ensures |s| >= 1
    ensures n >= 10 ==> |s| >= 2
    decreases n
  {
    if n < 10 then [DigitChar(n)] else NatToString(n / 10) + [DigitChar(n % 10)]
  }

  /** '%d' of any integer. */
  function IntToString(n: int): string
  {
    if n < 0 then "-" + NatToString(-n) else NatToString(n)
  }

  lemma DigitCharInjective(a: nat, b: nat)
    requires a < 10 && b < 10 && DigitChar(a) == DigitChar(b)
    ensures a == b
  {
  }

  /** Different numbers print differently, so `name_k` names never repeat. */
  lemma {:induction false} NatToStringInjective(a: nat, b: nat)
    requires NatToString(a) == NatToString(b)
    ensures a == b
    decreases a
  {
    var sa, sb := NatToString(a), NatToString(b);
    if a < 10 && b < 10 {
      DigitCharInjective(a, b);
    } else if a >= 10 && b >= 10 {
      assert sa[|sa| - 1] == DigitChar(a % 10);
      assert sb[|sb| - 1] == DigitChar(b % 10);
      DigitCharInjective(a % 10, b % 10);
      assert sa[..|sa| - 1] == NatToString(a / 10);
      assert sb[..|sb| - 1] == NatToString(b / 10);
      NatToStringInjective(a / 10, b / 10);
    }
  }

  /**
   * The k-th name tried by the suffix search: the name itself for k = 0,
   * `name_k` ('%s_%d') afterwards.
   */
  function Candidate(name: string, k: nat): string
  {
    if k == 0 then name else name + "_" + NatToString(k)
  }

  lemma {:induction false} CandidateInjective(name: string, a: nat, b: nat)
    requires Candidate(name, a) == Candidate(name, b)
    ensures a == b
  {
    var ca, cb := Candidate(name, a), Candidate(name, b);
    if a != 0 && b != 0 {
      assert ca[|name| + 1..] == NatToString(a);
      assert cb[|name| + 1..] == NatToString(b);
      NatToStringInjective(a, b);
    }
  }

  /** `c` is the first candidate of `name` that is not in `taken`. */
  ghost predicate IsFirstFree(taken: set<string>, name: string, c: string)
  {
    c !in taken &&
    exists k: nat :: c == Candidate(name, k) &&
      forall k': nat :: k' < k ==> Candidate(name, k') in taken
  }

  /** There is only one first free candidate. */
  lemma FirstFreeUnique(taken: set<string>, name: string, a: string, b: string)
    requires IsFirstFree(taken, name, a) && IsFirstFree(taken, name, b)
    ensures a == b
  {
    var ka: nat :| a == Candidate(name, ka) && forall k': nat :: k' < ka ==> Candidate(name, k') in taken;
    var kb: nat :| b == Candidate(name, kb) && forall k': nat :: k' < kb ==> Candidate(name, k') in taken;
  }

  /** A finite set always leaves some candidate free, so a first free one exists. */
  lemma FirstFreeExists(taken: set<string>, name: string)
    ensures exists c :: IsFirstFree(taken, name, c)
  {
    var k: nat := 0;
    ghost var tried: set<string> := {};
    while Candidate(name, k) in taken
      invariant tried <= taken
      invariant tried == set k': nat | k' < k :: Candidate(name, k')
      invariant forall k': nat :: k' < k ==> Candidate(name, k') in taken
      invariant Candidate(name, k) !in tried
      decreases taken - tried
    {
      tried := tried + {Candidate(name, k)};
      k := k + 1;
      forall k': nat | k' < k
        ensures Candidate(name, k') != Candidate(name, k)
      {
        if Candidate(name, k') == Candidate(name, k) { CandidateInjective(name, k', k); }
      }
    }
    assert IsFirstFree(taken, name, Candidate(name, k));
  }

  /** The name the suffixing loop settles on. */
  ghost function FirstFree(taken: set<string>, name: string): (c: string)
    ensures IsFirstFree(taken, name, c)
    ensures c !in taken && (name !in taken ==> c == name)
  {
    FirstFreeExists(taken, name);
    var c :| IsFirstFree(taken, name, c);
    if name !in taken then
      assert IsFirstFree(taken, name, Candidate(name, 0));
      FirstFreeUnique(taken, name, c, name);
      c
    else c
  }

  /**
   * The suffixing loop of the macro registries: keep `name` when it is free,
   * otherwise try `name_1`, `name_2`, ... and return the first free one.
   */
  method FreshName(taken: set<string>, name: string) returns (r: string)
    ensures r !in taken
    ensures name !in taken ==> r == name
    ensures IsFirstFree(taken, name, r)
    ensures r == FirstFree(taken, name)
  {
    r := name;
    var k: nat := 0;
    ghost var tried: set<string> := {};
    while r in taken
      invariant r == Candidate(name, k)
      invariant tried <= taken
      invariant tried == set k': nat | k' < k :: Candidate(name, k')
      invariant forall k': nat :: k' < k ==> Candidate(name, k') in taken
      invariant r !in tried
      decreases taken - tried
    {
      tried := tried + {r};
      k := k + 1;
      r := Candidate(name, k);
      forall k': nat | k' < k
        ensures Candidate(name, k') != r
      {
        if Candidate(name, k') == r { CandidateInjective(name, k', k); }
      }
    }
    assert IsFirstFree(taken, name, r);
    FirstFreeUnique(taken, name, r, FirstFree(taken, name));
  }
}

=== FILE: composition.dfy ===
/**
 * Panelizing: the Gerber composition merges RS-274X and DXF files into one
 * image (renaming macros, renumbering apertures from D10, re-pointing
 * aperture selections); the drill composition merges Excellon and DXF
 * files into one drill file (sharing equivalent tools, keeping the first
 * file's headers, re-pointing hits at the shared tools).
 */
module Composition {
  import opened Common
  import Rs274x
  import Excellon
  import Dxf

  /** Merged apertures are numbered D10, D11, ... in registration order. */
  const APERTURE_ID_BIAS: int := 10

  const UNSUPPORTED: string := "unsupported file type"

  /** What a composition can be asked to merge. */
  datatype Source =
    | GerberSource(gerber: Rs274x.GerberFile)
    | ExcellonSource(excellon: Excellon.ExcellonFileEx)
    | DxfSource(dxf: Dxf.DxfFile)

  /** The objects a merge of `src` may change. */
  function Footprint(src: Source): set<object>
  {
    match src
    case GerberSource(g) => {g}
    case ExcellonSource(e) => {e}
    case DxfSource(x) => {x, x.statements}
  }

  // =====================================================================
  // Gerber composition
  // =====================================================================

  /** A parameter statement of the composed image: a Gerber one, or a DXF file's header. */
  datatype ParamItem = GerberParam(stmt: Rs274x.GStmt) | DxfHeaderParam

  /** A drawing of the composed image: a Gerber statement, or a whole DXF block. */
  datatype Drawing = GerberDrawing(stmt: Rs274x.GStmt) | DxfDrawing(block: Dxf.DxfStatements)

  /** The shapes an aperture definition may use without a macro, as the merge lists them. */
  const STANDARD_SHAPES_AS_WRITTEN: set<string> := {"C", "R", "O"}

  /** The standard aperture shapes of RS-274X: circle, rectangle, obround, polygon. */
  const STANDARD_SHAPES: set<string> := {"C", "R", "O", "P"}

  /** The shape an aperture definition gets in the merge as written: P is looked up as a macro. */
  function ApertureShapeAsWritten(shape: string, macroMap: map<string, string>): Result<string>
  {
    if shape in STANDARD_SHAPES_AS_WRITTEN then Ok(shape)
    else if shape in macroMap then Ok(macroMap[shape])
    else Fail("KeyError")
  }

  /**
   * The shape an aperture definition gets in the merge: a standard shape
   * is kept, a macro name follows the macro's renaming, anything else is
   * a lookup failure.
   */
  function ApertureShape(shape: string, macroMap: map<string, string>): (r: Result<string>)
    ensures r.Ok? <==> shape in STANDARD_SHAPES || shape in macroMap
    ensures shape in STANDARD_SHAPES ==> r == Ok(shape)
    ensures r.Ok? && shape !in STANDARD_SHAPES ==> r.value in macroMap.Values
    ensures r.Fail? ==> r.error == "KeyError"
  {
    if shape in STANDARD_SHAPES then Ok(shape)
    else if shape in macroMap then Ok(macroMap[shape])
    else Fail("KeyError")
  }

  /**
   * As written, a polygon aperture of a file without a macro named P
   * makes the merge fail; the corrected merge keeps it as a polygon. The
   * two agree on every other shape.
   */
  lemma PolygonApertureRejected()
    ensures ApertureShapeAsWritten("P", map[]) == Fail("KeyError")
    ensures ApertureShape("P", map[]) == Ok("P")
  {
  }

  lemma ShapesAgreeButPolygon(shape: string, macroMap: map<string, string>)
    requires shape != "P"
    ensures ApertureShapeAsWritten(shape, macroMap) == ApertureShape(shape, macroMap)
  {
  }

  /** The parts of a Gerber composition that merging statements changes. */
  datatype GerberState = GerberState(comments: seq<string>, macros: seq<Rs274x.GStmt>,
                                     apertures: seq<Rs274x.GStmt>, drawings: seq<Drawing>)

  /** What one file's merge keeps on the side: its parameters, its macro and aperture renamings. */
  datatype MergeMaps = MergeMaps(params: seq<Rs274x.GStmt>, macroMap: map<string, string>,
                                 apertureMap: map<int, int>)

  const NO_MAPS: MergeMaps := MergeMaps([], map[], map[])

  /**
   * One statement of a merged Gerber file: comments are collected; a
   * macro is registered under the first free name; an aperture is
   * registered under the next D code with its shape renamed; a polarity
   * is a drawing; other parameters are kept aside; end of file and
   * deprecated statements are dropped; an aperture selection is
   * renumbered; every other statement is a drawing.
   */
  ghost function GerberStep(st: GerberState, mm: MergeMaps, s: Rs274x.GStmt): Result<(GerberState, MergeMaps)>
  {
    match s
    case Comment(c) => Ok((st.(comments := st.comments + [c]), mm))
    case MacroDef(name, body) =>
      var n := FirstFree(Rs274x.MacroNames(st.macros), name);
      Ok((st.(macros := st.macros + [Rs274x.MacroDef(n, body)]), mm.(macroMap := mm.macroMap[name := n])))
    case ApertureDef(d, shape, ms) =>
      (match ApertureShape(shape, mm.macroMap)
       case Fail(e) => Fail(e)
       case Ok(sh) =>
         var nd := |st.apertures| + APERTURE_ID_BIAS;
         Ok((st.(apertures := st.apertures + [Rs274x.ApertureDef(nd, sh, ms)]),
             mm.(apertureMap := mm.apertureMap[d := nd]))))
    case LevelPolarity(_) => Ok((st.(drawings := st.drawings + [GerberDrawing(s)]), mm))
    case OtherParam(_) => Ok((st, mm.(params := mm.params + [s])))
    case Eof => Ok((st, mm))
    case Deprecated(_) => Ok((st, mm))
    case ApertureSelect(d) =>
      if d in mm.apertureMap then
        Ok((st.(drawings := st.drawings + [GerberDrawing(Rs274x.ApertureSelect(mm.apertureMap[d]))]), mm))
      else Fail("KeyError")
    case Coord(_, _, _, _) => Ok((st.(drawings := st.drawings + [GerberDrawing(s)]), mm))
    case OtherDrawing(_) => Ok((st.(drawings := st.drawings + [GerberDrawing(s)]), mm))
  }

  /** The statements of a file merged in order; the first failing statement ends the merge. */
  ghost function GerberRun(st: GerberState, mm: MergeMaps, stmts: seq<Rs274x.GStmt>): Result<(GerberState, MergeMaps)>
    decreases |stmts|
  {
    if stmts == [] then Ok((st, mm))
    else
      match GerberRun(st, mm, stmts[..|stmts| - 1])
      case Fail(e) => Fail(e)
      case Ok(p) => GerberStep(p.0, p.1, stmts[|stmts| - 1])
  }

  lemma {:induction false} GerberRunFailSticks(st: GerberState, mm: MergeMaps, stmts: seq<Rs274x.GStmt>, k: nat)
    requires k <= |stmts| && GerberRun(st, mm, stmts[..k]).Fail?
    ensures GerberRun(st, mm, stmts) == Fail(GerberRun(st, mm, stmts[..k]).error)
    decreases |stmts| - k
  {
    if k < |stmts| {
      assert stmts[..k + 1][..k] == stmts[..k];
      GerberRunFailSticks(st, mm, stmts, k + 1);
    } else {
      assert stmts[..k] == stmts;
    }
  }

  /**
   * A merge that stopped at statement k: the statements before it were
   * merged, leaving the image `now`, and statement k fails.
   */
  ghost predicate StoppedAt(st: GerberState, stmts: seq<Rs274x.GStmt>, k: int, now: GerberState)
  {
    0 <= k < |stmts| && GerberRun(st, NO_MAPS, stmts[..k]).Ok? && GerberRun(st, NO_MAPS, stmts[..k + 1]).Fail? &&
    now == GerberRun(st, NO_MAPS, stmts[..k]).value.0
  }

  lemma MacroNamesAppend(ms: seq<Rs274x.GStmt>, m: Rs274x.GStmt)
    requires m.MacroDef?
    ensures Rs274x.MacroNames(ms + [m]) == Rs274x.MacroNames(ms) + {m.name}
  {
    var w := ms + [m];
    forall n | n in Rs274x.MacroNames(ms) ensures n in Rs274x.MacroNames(w) {
      var k :| 0 <= k < |ms| && ms[k].MacroDef? && ms[k].name == n;
      assert w[k] == ms[k];
    }
    assert w[|ms|] == m;
  }

  /** An aperture sits at its D code, and its shape is standard or a registered macro. */
  predicate ApertureFits(a: Rs274x.GStmt, k: int, macros: seq<Rs274x.GStmt>)
  {
    a.ApertureDef? && a.d == k + APERTURE_ID_BIAS &&
    (a.shape in STANDARD_SHAPES || a.shape in Rs274x.MacroNames(macros))
  }

  /** An aperture selection of the image selects a registered aperture. */
  predicate SelectFits(dr: Drawing, count: int)
  {
    dr.GerberDrawing? && dr.stmt.ApertureSelect? ==>
      APERTURE_ID_BIAS <= dr.stmt.d < APERTURE_ID_BIAS + count
  }

  /**
   * The composed image is consistent: macros have distinct names, the
   * k-th aperture is D(k+10) and names only registered macros, and every
   * aperture selection selects a registered aperture.
   */
  ghost predicate WellFormed(st: GerberState)
  {
    (forall k :: 0 <= k < |st.macros| ==> st.macros[k].MacroDef?) &&
    (forall a, b :: 0 <= a < b < |st.macros| ==> st.macros[a].name != st.macros[b].name) &&
    (forall k :: 0 <= k < |st.apertures| ==> ApertureFits(st.apertures[k], k, st.macros)) &&
    (forall k :: 0 <= k < |st.drawings| ==> SelectFits(st.drawings[k], |st.apertures|))
  }

  /** One file's renamings point at registered macros and apertures. */
  ghost predicate MapsFit(st: GerberState, mm: MergeMaps)
  {
    (forall n :: n in mm.macroMap ==> mm.macroMap[n] in Rs274x.MacroNames(st.macros)) &&
    (forall d :: d in mm.apertureMap ==> APERTURE_ID_BIAS <= mm.apertureMap[d] < APERTURE_ID_BIAS + |st.apertures|)
  }

  /** `st'` extends `st`: nothing registered or drawn before is lost or changed. */
  ghost predicate Extends(st: GerberState, st': GerberState)
  {
    st.comments <= st'.comments && st.macros <= st'.macros &&
    st.apertures <= st'.apertures && st.drawings <= st'.drawings
  }

  lemma GerberStepKeeps(st: GerberState, mm: MergeMaps, s: Rs274x.GStmt)
    requires WellFormed(st) && MapsFit(st, mm) && GerberStep(st, mm, s).Ok?
    ensures var p := GerberStep(st, mm, s).value;
            WellFormed(p.0) && MapsFit(p.0, p.1) && Extends(st, p.0)
  {
    var p := GerberStep(st, mm, s).value;
    match s
    case MacroDef(name, body) =>
      var n := FirstFree(Rs274x.MacroNames(st.macros), name);
      MacroNamesAppend(st.macros, Rs274x.MacroDef(n, body));
      assert p.0.macros == st.macros + [Rs274x.MacroDef(n, body)];
      forall a, b | 0 <= a < b < |p.0.macros| ensures p.0.macros[a].name != p.0.macros[b].name {
        if b == |st.macros| {
          assert p.0.macros[a] == st.macros[a];
          assert st.macros[a].name in Rs274x.MacroNames(st.macros);
        }
      }
      forall k | 0 <= k < |p.0.apertures| ensures ApertureFits(p.0.apertures[k], k, p.0.macros) {
        assert ApertureFits(st.apertures[k], k, st.macros);
      }
    case ApertureDef(d, shape, ms) =>
      var nd := |st.apertures| + APERTURE_ID_BIAS;
      forall k | 0 <= k < |p.0.apertures| ensures ApertureFits(p.0.apertures[k], k, p.0.macros) {
        if k < |st.apertures| {
          assert p.0.apertures[k] == st.apertures[k];
        }
      }
      forall k | 0 <= k < |p.0.drawings| ensures SelectFits(p.0.drawings[k], |p.0.apertures|) {
        assert SelectFits(st.drawings[k], |st.apertures|);
      }
    case ApertureSelect(d) =>
      forall k | 0 <= k < |p.0.drawings| ensures SelectFits(p.0.drawings[k], |p.0.apertures|) {
        if k < |st.drawings| {
          assert p.0.drawings[k] == st.drawings[k];
        }
      }
    case LevelPolarity(_) =>
      forall k | 0 <= k < |p.0.drawings| ensures SelectFits(p.0.drawings[k], |p.0.apertures|) {
        if k < |st.drawings| {
          assert p.0.drawings[k] == st.drawings[k];
        }
      }
    case Coord(_, _, _, _) =>
      forall k | 0 <= k < |p.0.drawings| ensures SelectFits(p.0.drawings[k], |p.0.apertures|) {
        if k < |st.drawings| {
          assert p.0.drawings[k] == st.drawings[k];
        }
      }
    case OtherDrawing(_) =>
      forall k | 0 <= k < |p.0.drawings| ensures SelectFits(p.0.drawings[k], |p.0.apertures|) {
        if k < |st.drawings| {
          assert p.0.drawings[k] == st.drawings[k];
        }
      }
    case _ =>
  }

  /**
   * Merging a file keeps the image consistent and loses nothing that was
   * already registered or drawn.
   */
  lemma {:induction false} GerberRunKeeps(st: GerberState, stmts: seq<Rs274x.GStmt>)
    requires WellFormed(st) && GerberRun(st, NO_MAPS, stmts).Ok?
    ensures var p := GerberRun(st, NO_MAPS, stmts).value;
            WellFormed(p.0) && MapsFit(p.0, p.1) && Extends(st, p.0)
    decreases |stmts|
  {
    if stmts != [] {
      var init := stmts[..|stmts| - 1];
      GerberRunKeeps(st, init);
      var q := GerberRun(st, NO_MAPS, init).value;
      GerberStepKeeps(q.0, q.1, stmts[|stmts| - 1]);
    }
  }

  /** The statements the merge turns into drawings. */
  predicate IsDrawing(s: Rs274x.GStmt)
  {
    s.LevelPolarity? || s.ApertureSelect? || s.Coord? || s.OtherDrawing?
  }

  function Drawn(stmts: seq<Rs274x.GStmt>): seq<Rs274x.GStmt>
  {
    if stmts == [] then []
    else Drawn(stmts[..|stmts| - 1]) + (if IsDrawing(stmts[|stmts| - 1]) then [stmts[|stmts| - 1]] else [])
  }

  function CommentsOf(stmts: seq<Rs274x.GStmt>): seq<string>
  {
    if stmts == [] then []
    else CommentsOf(stmts[..|stmts| - 1]) +
         (if stmts[|stmts| - 1].Comment? then [stmts[|stmts| - 1].comment] else [])
  }

  function ParamsOf(stmts: seq<Rs274x.GStmt>): seq<Rs274x.GStmt>
  {
    if stmts == [] then []
    else ParamsOf(stmts[..|stmts| - 1]) + (if stmts[|stmts| - 1].OtherParam? then [stmts[|stmts| - 1]] else [])
  }

  /** Two statements that are equal except, for aperture selections, in the D code. */
  predicate SameUpToD(a: Rs274x.GStmt, b: Rs274x.GStmt)
  {
    if a.ApertureSelect? then b.ApertureSelect? else a == b
  }

  /** The drawings `ds` are the statements `ss`, one for one, up to D codes. */
  predicate Mirrors(ss: seq<Rs274x.GStmt>, ds: seq<Drawing>)
  {
    |ss| == |ds| &&
    forall k :: 0 <= k < |ss| ==> ds[k].GerberDrawing? && SameUpToD(ss[k], ds[k].stmt)
  }

  /**
   * A merged file contributes its comments, its other parameters and its
   * drawing statements, each in file order, and the drawings differ from
   * the file's only in the D codes they select.
   */
  lemma {:induction false} GerberRunRoutes(st: GerberState, mm: MergeMaps, stmts: seq<Rs274x.GStmt>)
    requires GerberRun(st, mm, stmts).Ok?
    ensures var p := GerberRun(st, mm, stmts).value;
            p.0.comments == st.comments + CommentsOf(stmts) &&
            p.1.params == mm.params + ParamsOf(stmts) &&
            |st.drawings| <= |p.0.drawings| && p.0.drawings[..|st.drawings|] == st.drawings &&
            Mirrors(Drawn(stmts), p.0.drawings[|st.drawings|..])
    decreases |stmts|
  {
    if stmts != [] {
      var init := stmts[..|stmts| - 1];
      var s := stmts[|stmts| - 1];
      GerberRunRoutes(st, mm, init);
      var q := GerberRun(st, mm, init).value;
      var p := GerberRun(st, mm, stmts).value;
      GerberStepRoutes(q.0, q.1, s);
      Associative(st.comments, CommentsOf(init), if s.Comment? then [s.comment] else []);
      Associative(mm.params, ParamsOf(init), if s.OtherParam? then [s] else []);
      var n := |st.drawings|;
      if IsDrawing(s) {
        var last := p.0.drawings[|q.0.drawings|];
        assert p.0.drawings == q.0.drawings + [last];
        SliceAppend(q.0.drawings, [last], n);
        MirrorsAppend(Drawn(init), q.0.drawings[n..], s, last);
      }
    }
  }

  /** GerberRunRoutes for one statement. */
  lemma GerberStepRoutes(st: GerberState, mm: MergeMaps, s: Rs274x.GStmt)
    requires GerberStep(st, mm, s).Ok?
    ensures var p := GerberStep(st, mm, s).value;
            p.0.comments == st.comments + (if s.Comment? then [s.comment] else []) &&
            p.1.params == mm.params + (if s.OtherParam? then [s] else []) &&
            (IsDrawing(s) ==> |p.0.drawings| == |st.drawings| + 1 &&
                              p.0.drawings == st.drawings + [p.0.drawings[|st.drawings|]] &&
                              p.0.drawings[|st.drawings|].GerberDrawing? &&
                              SameUpToD(s, p.0.drawings[|st.drawings|].stmt)) &&
            (!IsDrawing(s) ==> p.0.drawings == st.drawings)
  {
  }

  lemma MirrorsAppend(ss: seq<Rs274x.GStmt>, ds: seq<Drawing>, s: Rs274x.GStmt, d: Drawing)
    requires Mirrors(ss, ds) && d.GerberDrawing? && SameUpToD(s, d.stmt)
    ensures Mirrors(ss + [s], ds + [d])
  {
    var ss', ds' := ss + [s], ds + [d];
    forall k | 0 <= k < |ss'| ensures ds'[k].GerberDrawing? && SameUpToD(ss'[k], ds'[k].stmt) {
      if k < |ss| {
        assert ss'[k] == ss[k] && ds'[k] == ds[k];
      }
    }
  }

  function ApertureNumbers(stmts: seq<Rs274x.GStmt>): set<int>
  {
    set k | 0 <= k < |stmts| && stmts[k].ApertureDef? :: stmts[k].d
  }

  lemma NamesOfLast(stmts: seq<Rs274x.GStmt>)
    requires stmts != []
    ensures var init, s := stmts[..|stmts| - 1], stmts[|stmts| - 1];
            Rs274x.MacroNames(stmts) == Rs274x.MacroNames(init) + (if s.MacroDef? then {s.name} else {}) &&
            ApertureNumbers(stmts) == ApertureNumbers(init) + (if s.ApertureDef? then {s.d} else {})
  {
    var init := stmts[..|stmts| - 1];
    forall n | n in Rs274x.MacroNames(init) ensures n in Rs274x.MacroNames(stmts) {
      var k :| 0 <= k < |init| && init[k].MacroDef? && init[k].name == n;
      assert stmts[k] == init[k];
    }
    forall n | n in ApertureNumbers(init) ensures n in ApertureNumbers(stmts) {
      var k :| 0 <= k < |init| && init[k].ApertureDef? && init[k].d == n;
      assert stmts[k] == init[k];
    }
    forall n | n in Rs274x.MacroNames(stmts) ensures n in Rs274x.MacroNames(init) || (stmts[|stmts| - 1].MacroDef? && n == stmts[|stmts| - 1].name) {
      var k :| 0 <= k < |stmts| && stmts[k].MacroDef? && stmts[k].name == n;
      if k < |init| { assert init[k] == stmts[k]; }
    }
    forall n | n in ApertureNumbers(stmts) ensures n in ApertureNumbers(init) || (stmts[|stmts| - 1].ApertureDef? && n == stmts[|stmts| - 1].d) {
      var k :| 0 <= k < |stmts| && stmts[k].ApertureDef? && stmts[k].d == n;
      if k < |init| { assert init[k] == stmts[k]; }
    }
  }

  /** After a merge, a file's macro and aperture renamings cover exactly the names and D codes it defined. */
  lemma {:induction false} GerberRunKeys(st: GerberState, mm: MergeMaps, stmts: seq<Rs274x.GStmt>)
    requires GerberRun(st, mm, stmts).Ok?
    ensures var p := GerberRun(st, mm, stmts).value;
            p.1.macroMap.Keys == mm.macroMap.Keys + Rs274x.MacroNames(stmts) &&
            p.1.apertureMap.Keys == mm.apertureMap.Keys + ApertureNumbers(stmts)
    decreases |stmts|
  {
    if stmts == [] {
      assert Rs274x.MacroNames(stmts) == {};
      assert ApertureNumbers(stmts) == {};
    } else {
      var init := stmts[..|stmts| - 1];
      GerberRunKeys(st, mm, init);
      var q := GerberRun(st, mm, init).value;
      GerberStepKeys(q.0, q.1, stmts[|stmts| - 1]);
      NamesOfLast(stmts);
    }
  }

  /** GerberRunKeys for one statement. */
  lemma GerberStepKeys(st: GerberState, mm: MergeMaps, s: Rs274x.GStmt)
    requires GerberStep(st, mm, s).Ok?
    ensures var p := GerberStep(st, mm, s).value;
            p.1.macroMap.Keys == mm.macroMap.Keys + (if s.MacroDef? then {s.name} else {}) &&
            p.1.apertureMap.Keys == mm.apertureMap.Keys + (if s.ApertureDef? then {s.d} else {})
  {
  }

  /**
   * Every aperture definition of the file names a standard shape or a
   * macro defined before it, and every aperture selection a D code
   * defined before it.
   */
  predicate Resolves(mm: MergeMaps, before: seq<Rs274x.GStmt>, s: Rs274x.GStmt)
  {
    (s.ApertureDef? ==>
      s.shape in STANDARD_SHAPES || s.shape in mm.macroMap || s.shape in Rs274x.MacroNames(before)) &&
    (s.ApertureSelect? ==> s.d in mm.apertureMap || s.d in ApertureNumbers(before))
  }

  /** A file merges without failing exactly when every shape and every selection resolves. */
  lemma {:induction false} GerberRunSucceeds(st: GerberState, mm: MergeMaps, stmts: seq<Rs274x.GStmt>)
    ensures GerberRun(st, mm, stmts).Ok? <==>
            forall k :: 0 <= k < |stmts| ==> Resolves(mm, stmts[..k], stmts[k])
    decreases |stmts|
  {
    if stmts != [] {
      var n := |stmts| - 1;
      var init := stmts[..n];
      GerberRunSucceeds(st, mm, init);
      forall k | 0 <= k < n ensures stmts[..k] == init[..k] && stmts[k] == init[k] {
      }
      if GerberRun(st, mm, init).Ok? {
        LastResolves(st, mm, init, stmts[n]);
      }
    }
  }

  /** After a successful merge of `init`, the next statement merges exactly when it resolves. */
  lemma LastResolves(st: GerberState, mm: MergeMaps, init: seq<Rs274x.GStmt>, s: Rs274x.GStmt)
    requires GerberRun(st, mm, init).Ok?
    ensures var q := GerberRun(st, mm, init).value;
            GerberStep(q.0, q.1, s).Ok? <==> Resolves(mm, init, s)
  {
    GerberRunKeys(st, mm, init);
  }

  /** The parameters of a Gerber file as parameters of the composed image. */
  function GerberParams(ps: seq<Rs274x.GStmt>): (r: seq<ParamItem>)
    ensures |r| == |ps| && forall k :: 0 <= k < |ps| ==> r[k].GerberParam? && r[k].stmt == ps[k]
  {
    seq(|ps|, k requires 0 <= k < |ps| => GerberParam(ps[k]))
  }

  /** What dump writes, in order, before formatting each item. */
  datatype GerberOut = ParamOut(param: ParamItem) | MacroOut(macro: Rs274x.GStmt) |
                       ApertureOut(aperture: Rs274x.GStmt) | DrawingOut(drawing: Drawing) | EofOut

  /** The dump order: parameters, macros, apertures, drawings, end of file. */
  function GerberDump(params: seq<ParamItem>, st: GerberState): (r: seq<GerberOut>)
    ensures |r| == |params| + |st.macros| + |st.apertures| + |st.drawings| + 1 && r[|r| - 1] == EofOut
  {
    seq(|params|, k requires 0 <= k < |params| => ParamOut(params[k])) +
    seq(|st.macros|, k requires 0 <= k < |st.macros| => MacroOut(st.macros[k])) +
    seq(|st.apertures|, k requires 0 <= k < |st.apertures| => ApertureOut(st.apertures[k])) +
    seq(|st.drawings|, k requires 0 <= k < |st.drawings| => DrawingOut(st.drawings[k])) +
    [EofOut]
  }

  /**
   * In the dump of a consistent image every macro an aperture uses is
   * written before that aperture, and every aperture a Gerber drawing
   * selects is written before that drawing.
   */
  lemma DefinedBeforeUse(params: seq<ParamItem>, st: GerberState)
    requires WellFormed(st)
    ensures var r := GerberDump(params, st);
            (forall i :: 0 <= i < |r| && r[i].ApertureOut? && r[i].aperture.shape !in STANDARD_SHAPES ==>
               exists j :: 0 <= j < i && r[j].MacroOut? && r[j].macro.name == r[i].aperture.shape) &&
            (forall i :: 0 <= i < |r| && r[i].DrawingOut? && r[i].drawing.GerberDrawing? &&
                         r[i].drawing.stmt.ApertureSelect? ==>
               exists j :: 0 <= j < i && r[j].ApertureOut? && r[j].aperture.d == r[i].drawing.stmt.d)
  {
    var r := GerberDump(params, st);
    var m0 := |params|;
    var a0 := m0 + |st.macros|;
    var d0 := a0 + |st.apertures|;
    forall i | 0 <= i < |r| && r[i].ApertureOut? && r[i].aperture.shape !in STANDARD_SHAPES
      ensures exists j :: 0 <= j < i && r[j].MacroOut? && r[j].macro.name == r[i].aperture.shape
    {
      assert a0 <= i < d0;
      var a := st.apertures[i - a0];
      assert r[i] == ApertureOut(a);
      assert ApertureFits(a, i - a0, st.macros);
      var k :| 0 <= k < |st.macros| && st.macros[k].MacroDef? && st.macros[k].name == a.shape;
      assert r[m0 + k] == MacroOut(st.macros[k]);
    }
    forall i | 0 <= i < |r| && r[i].DrawingOut? && r[i].drawing.GerberDrawing? && r[i].drawing.stmt.ApertureSelect?
      ensures exists j :: 0 <= j < i && r[j].ApertureOut? && r[j].aperture.d == r[i].drawing.stmt.d
    {
      assert d0 <= i < |r| - 1;
      var dr := st.drawings[i - d0];
      assert r[i] == DrawingOut(dr);
      assert SelectFits(dr, |st.apertures|);
      var k := dr.stmt.d - APERTURE_ID_BIAS;
      assert ApertureFits(st.apertures[k], k, st.macros);
      assert r[a0 + k] == ApertureOut(st.apertures[k]);
    }
  }

  /** GerberComposition: an image built from merged Gerber and DXF files. */
  class GerberComposition {
    var settings: Option<Settings>
    var comments: seq<string>
    var paramStatements: seq<ParamItem>
    var apertureMacros: seq<Rs274x.GStmt>
    var apertures: seq<Rs274x.GStmt>
    var drawings: seq<Drawing>

    ghost function State(): GerberState
      reads this
    {
      GerberState(comments, apertureMacros, apertures, drawings)
    }

    ghost predicate Valid()
      reads this
    {
      WellFormed(State())
    }

    constructor (settings: Option<Settings>, comments: seq<string>)
      ensures Valid()
      ensures this.settings == settings && this.comments == comments
      ensures paramStatements == [] && apertureMacros == [] && apertures == [] && drawings == []
    {
      this.settings := settings;
      this.comments := comments;
      paramStatements := [];
      apertureMacros := [];
      apertures := [];
      drawings := [];
    }

    /** Registers a macro under its own name when free, else under the first free name_k. */
    method RegisterApertureMacro(s: Rs274x.GStmt) returns (newname: string)
      requires s.MacroDef?
      modifies this
      ensures newname == FirstFree(Rs274x.MacroNames(old(apertureMacros)), s.name)
      ensures apertureMacros == old(apertureMacros) + [s.(name := newname)]
      ensures settings == old(settings) && comments == old(comments) && paramStatements == old(paramStatements)
      ensures apertures == old(apertures) && drawings == old(drawings)
    {
      newname := FreshName(Rs274x.MacroNames(apertureMacros), s.name);
      apertureMacros := apertureMacros + [s.(name := newname)];
    }

    /** Registers an aperture under the next D code, counting from 10. */
    method RegisterAperture(s: Rs274x.GStmt) returns (d: int)
      requires s.ApertureDef?
      modifies this
      ensures d == |old(apertures)| + APERTURE_ID_BIAS
      ensures apertures == old(apertures) + [s.(d := d)]
      ensures settings == old(settings) && comments == old(comments) && paramStatements == old(paramStatements)
      ensures apertureMacros == old(apertureMacros) && drawings == old(drawings)
    {
      d := |apertures| + APERTURE_ID_BIAS;
      apertures := apertures + [s.(d := d)];
    }

    /**
     * _merge_gerber: an image with settings first converts the file to its
     * units; the statements are then merged in order, and a file merged
     * into an image without settings lends it its settings and parameters.
     */
    method MergeGerber(file: Rs274x.GerberFile, toInch: Rs274x.GStmt -> Rs274x.GStmt,
                       toMetric: Rs274x.GStmt -> Rs274x.GStmt) returns (r: Result<()>)
      requires Valid()
      modifies this, file
      ensures Valid()
      ensures old(settings).Some? ==>
                file.settings == old(file.settings).(units := old(settings).value.units) &&
                settings == old(settings) && paramStatements == old(paramStatements)
      ensures old(settings).None? ==> file.statements == old(file.statements) && file.settings == old(file.settings)
      ensures old(settings).Some? && old(file.settings.units) == old(settings).value.units ==>
                file.statements == old(file.statements)
      ensures old(settings).Some? && old(file.settings.units) != old(settings).value.units ==>
                |file.statements| == |old(file.statements)| &&
                forall k :: 0 <= k < |file.statements| ==>
                  file.statements[k] == if old(settings).value.units == Metric then toMetric(old(file.statements)[k])
                  else toInch(old(file.statements)[k])
      ensures var run := GerberRun(old(State()), NO_MAPS, file.statements);
              (r.Ok? <==> run.Ok?) && (r.Fail? ==> r.error == run.error) &&
              (r.Ok? ==> State() == run.value.0 &&
                         (old(settings).None? ==> settings == Some(file.settings) &&
                                                  paramStatements == GerberParams(run.value.1.params)))
      ensures r.Fail? ==>
                settings == old(settings) && paramStatements == old(paramStatements) &&
                exists k :: StoppedAt(old(State()), file.statements, k, State())
    {
      if settings.Some? {
        ConvertGerber(file, settings.value.units, toInch, toMetric);
      }
      var res := MergeStatements(file.statements);
      if res.Fail? {
        return Fail(res.error);
      }
      if settings.None? {
        settings := Some(file.settings);
        paramStatements := GerberParams(res.value.params);
      }
      r := Ok(());
    }

    /** The statement loop of _merge_gerber; the first failing statement ends it. */
    method MergeStatements(stmts: seq<Rs274x.GStmt>) returns (r: Result<MergeMaps>)
      requires Valid()
      modifies this
      ensures Valid()
      ensures settings == old(settings) && paramStatements == old(paramStatements)
      ensures var run := GerberRun(old(State()), NO_MAPS, stmts);
              (r.Ok? <==> run.Ok?) && (r.Fail? ==> r.error == run.error) &&
              (r.Ok? ==> (State(), r.value) == run.value)
      ensures r.Fail? ==> exists k :: StoppedAt(old(State()), stmts, k, State())
    {
      ghost var st0 := State();
      var mm := NO_MAPS;
      for k := 0 to |stmts|
        invariant GerberRun(st0, NO_MAPS, stmts[..k]) == Ok((State(), mm))
        invariant settings == old(settings) && paramStatements == old(paramStatements)
      {
        assert stmts[..k + 1][..k] == stmts[..k];
        var res := MergeStatement(stmts[k], mm);
        if res.Fail? {
          GerberRunFailSticks(st0, NO_MAPS, stmts, k + 1);
          GerberRunKeeps(st0, stmts[..k]);
          assert StoppedAt(st0, stmts, k, State());
          return Fail(res.error);
        }
        mm := res.value;
      }
      assert stmts[..|stmts|] == stmts;
      GerberRunKeeps(st0, stmts);
      r := Ok(mm);
    }

    /** One pass of the statement loop of _merge_gerber; a failure changes nothing. */
    method MergeStatement(s: Rs274x.GStmt, mm: MergeMaps) returns (r: Result<MergeMaps>)
      modifies this
      ensures settings == old(settings) && paramStatements == old(paramStatements)
      ensures var step := GerberStep(old(State()), mm, s);
              (r.Ok? <==> step.Ok?) &&
              (r.Fail? ==> r.error == step.error && State() == old(State())) &&
              (r.Ok? ==> (State(), r.value) == step.value)
    {
      r := Ok(mm);
      match s {
        case Comment(c) =>
          comments := comments + [c];
        case MacroDef(name, body) =>
          var n := RegisterApertureMacro(s);
          r := Ok(mm.(macroMap := mm.macroMap[name := n]));
        case ApertureDef(d, shape, ms) =>
          var sh := ApertureShape(shape, mm.macroMap);
          if sh.Fail? {
            return Fail(sh.error);
          }
          var nd := RegisterAperture(Rs274x.ApertureDef(d, sh.value, ms));
          r := Ok(mm.(apertureMap := mm.apertureMap[d := nd]));
        case LevelPolarity(_) =>
          drawings := drawings + [GerberDrawing(s)];
        case OtherParam(_) =>
          r := Ok(mm.(params := mm.params + [s]));
        case Eof =>
        case Deprecated(_) =>
        case ApertureSelect(d) =>
          if d !in mm.apertureMap {
            return Fail("KeyError");
          }
          drawings := drawings + [GerberDrawing(Rs274x.ApertureSelect(mm.apertureMap[d]))];
        case Coord(_, _, _, _) =>
          drawings := drawings + [GerberDrawing(s)];
        case OtherDrawing(_) =>
          drawings := drawings + [GerberDrawing(s)];
      }
    }

    /**
     * _merge_dxf: an image with settings first converts the file to its
     * units; the file's circle aperture is registered under the next D
     * code, which the file's block takes, and the block becomes a drawing.
     */
    method MergeDxf(file: Dxf.DxfFile)
      requires Valid() && file.Valid()
      modifies this, file, file.statements
      ensures Valid() && file.Valid()
      ensures comments == old(comments) && apertureMacros == old(apertureMacros)
      ensures file.aperture.d == |old(apertures)| + APERTURE_ID_BIAS && file.statements.dcode == file.aperture.d
      ensures apertures == old(apertures) + [file.aperture]
      ensures drawings == old(drawings) + [DxfDrawing(file.statements)]
      ensures old(settings).Some? ==>
                settings == old(settings) && paramStatements == old(paramStatements) &&
                file.settings.units == old(settings).value.units
      ensures old(settings).None? ==>
                settings == Some(file.settings) && paramStatements == [DxfHeaderParam] &&
                file.settings == old(file.settings)
      ensures var c := if old(settings).Some? then Dxf.ConvertContent(old(file.Content()), old(settings).value.units)
                       else old(file.Content());
              file.Content() == c.(aperture := c.aperture.(d := |old(apertures)| + APERTURE_ID_BIAS))
      ensures file.drawMode == old(file.drawMode)
    {
      if settings.Some? {
        ConvertDxf(file, settings.value.units);
      }
      var d := RegisterAperture(file.aperture);
      file.SetDcode(d);
      drawings := drawings + [DxfDrawing(file.statements)];
      if settings.None? {
        settings := Some(file.settings);
        paramStatements := [DxfHeaderParam];
      }
      assert ApertureFits(apertures[|apertures| - 1], |apertures| - 1, apertureMacros);
      assert forall k :: 0 <= k < |old(apertures)| ==> apertures[k] == old(apertures)[k];
      assert forall k :: 0 <= k < |old(drawings)| ==> drawings[k] == old(drawings)[k];
    }

    /** merge: Gerber and DXF files are merged, any other file is refused. */
    method Merge(src: Source, toInch: Rs274x.GStmt -> Rs274x.GStmt,
                 toMetric: Rs274x.GStmt -> Rs274x.GStmt) returns (r: Result<()>)
      requires Valid() && (src.DxfSource? ==> src.dxf.Valid())
      modifies this, Footprint(src)
      ensures Valid()
      ensures src.ExcellonSource? ==>
                r == Fail(UNSUPPORTED) && State() == old(State()) &&
                settings == old(settings) && paramStatements == old(paramStatements)
      ensures src.DxfSource? ==>
                var file := src.dxf;
                var c := if old(settings).Some? then Dxf.ConvertContent(old(file.Content()), old(settings).value.units)
                         else old(file.Content());
                r.Ok? && file.Valid() &&
                file.Content() == c.(aperture := c.aperture.(d := |old(apertures)| + APERTURE_ID_BIAS)) &&
                comments == old(comments) && apertureMacros == old(apertureMacros) &&
                apertures == old(apertures) + [file.aperture] && drawings == old(drawings) + [DxfDrawing(file.statements)] &&
                (old(settings).Some? ==> settings == old(settings) && paramStatements == old(paramStatements)) &&
                (old(settings).None? ==> settings == Some(file.settings) && paramStatements == [DxfHeaderParam])
      ensures src.GerberSource? ==>
                var file := src.gerber;
                var run := GerberRun(old(State()), NO_MAPS, file.statements);
                (r.Ok? <==> run.Ok?) && (r.Fail? ==> r.error == run.error) &&
                (r.Ok? ==> State() == run.value.0) &&
                (old(settings).Some? ==>
                   settings == old(settings) && paramStatements == old(paramStatements) &&
                   file.settings == old(file.settings).(units := old(settings).value.units)) &&
                (old(settings).None? ==> file.settings == old(file.settings)) &&
                (r.Ok? && old(settings).None? ==>
                   settings == Some(file.settings) && paramStatements == GerberParams(run.value.1.params))
      ensures src.GerberSource? && r.Fail? ==>
                settings == old(settings) && paramStatements == old(paramStatements) &&
                exists k :: StoppedAt(old(State()), src.gerber.statements, k, State())
      ensures src.GerberSource? && old(settings).Some? && old(src.gerber.settings.units) != old(settings).value.units ==>
                var file := src.gerber;
                |file.statements| == |old(file.statements)| &&
                forall k :: 0 <= k < |file.statements| ==>
                  file.statements[k] == if old(settings).value.units == Metric then toMetric(old(file.statements)[k])
                  else toInch(old(file.statements)[k])
      ensures src.GerberSource? && (old(settings).None? || old(src.gerber.settings.units) == old(settings).value.units) ==>
                src.gerber.statements == old(src.gerber.statements)
    {
      match src {
        case GerberSource(g) =>
          r := MergeGerber(g, toInch, toMetric);
        case DxfSource(x) =>
          MergeDxf(x);
          r := Ok(());
        case ExcellonSource(_) =>
          r := Fail(UNSUPPORTED);
      }
    }

    /** What dump writes, in order. */
    function Dump(): seq<GerberOut>
      reads this
    {
      GerberDump(paramStatements, GerberState(comments, apertureMacros, apertures, drawings))
    }
  }

  // =====================================================================
  // Drill composition
  // =====================================================================

  /** A header statement of the composed drill file: an Excellon one, or a DXF file's headers. */
  datatype HeaderItem = ExcellonItem(stmt: Excellon.ExStmt) | DxfHeaderItem | DxfHeader2Item

  function HeaderItems(ss: seq<Excellon.ExStmt>): (r: seq<HeaderItem>)
    ensures |r| == |ss| && forall k :: 0 <= k < |ss| ==> r[k] == ExcellonItem(ss[k])
  {
    seq(|ss|, k requires 0 <= k < |ss| => ExcellonItem(ss[k]))
  }

  /**
   * The header split of the first Excellon file: statements go to the
   * first header until a tool definition, to the second after it; tool
   * definitions are dropped and the first tool selection ends the header.
   */
  function SplitHeader(stmts: seq<Excellon.ExStmt>, inHeader1: bool): (seq<Excellon.ExStmt>, seq<Excellon.ExStmt>)
  {
    if stmts == [] || stmts[0].ToolSelection? then ([], [])
    else if stmts[0].ToolDefinition? then SplitHeader(stmts[1..], false)
    else
      var rest := SplitHeader(stmts[1..], inHeader1);
      if inHeader1 then ([stmts[0]] + rest.0, rest.1) else (rest.0, [stmts[0]] + rest.1)
  }

  /** Where the header ends: the first tool selection, or the end. */
  function HeaderEnd(stmts: seq<Excellon.ExStmt>): (n: nat)
    ensures n <= |stmts| && (n < |stmts| ==> stmts[n].ToolSelection?)
    ensures forall k :: 0 <= k < n ==> !stmts[k].ToolSelection?
  {
    if stmts == [] || stmts[0].ToolSelection? then 0 else 1 + HeaderEnd(stmts[1..])
  }

  /** Where the first header ends: the first tool definition or selection, or the end. */
  function FirstToolStatement(stmts: seq<Excellon.ExStmt>): (n: nat)
    ensures n <= |stmts| && (n < |stmts| ==> stmts[n].ToolSelection? || stmts[n].ToolDefinition?)
    ensures forall k :: 0 <= k < n ==> !stmts[k].ToolSelection? && !stmts[k].ToolDefinition?
  {
    if stmts == [] || stmts[0].ToolSelection? || stmts[0].ToolDefinition? then 0
    else 1 + FirstToolStatement(stmts[1..])
  }

  function WithoutToolDefinitions(stmts: seq<Excellon.ExStmt>): (r: seq<Excellon.ExStmt>)
    ensures forall k :: 0 <= k < |r| ==> !r[k].ToolDefinition?
  {
    if stmts == [] then []
    else (if stmts[0].ToolDefinition? then [] else [stmts[0]]) + WithoutToolDefinitions(stmts[1..])
  }

  lemma {:induction false} SplitHeaderSecond(stmts: seq<Excellon.ExStmt>)
    ensures SplitHeader(stmts, false) == ([], WithoutToolDefinitions(stmts[..HeaderEnd(stmts)]))
    decreases |stmts|
  {
    if stmts == [] || stmts[0].ToolSelection? {
      assert stmts[..HeaderEnd(stmts)] == [];
    } else {
      SplitHeaderSecond(stmts[1..]);
      var n := HeaderEnd(stmts);
      assert n == 1 + HeaderEnd(stmts[1..]);
      var h := stmts[..n];
      assert h != [] && h[0] == stmts[0] && h[1..] == stmts[1..][..n - 1];
      assert WithoutToolDefinitions(h) ==
             (if stmts[0].ToolDefinition? then [] else [stmts[0]]) + WithoutToolDefinitions(stmts[1..][..n - 1]);
      var w := WithoutToolDefinitions(stmts[1..][..n - 1]);
      assert [] + w == w;
      var rest := SplitHeader(stmts[1..], false);
      assert SplitHeader(stmts, false) ==
             (if stmts[0].ToolDefinition? then rest else (rest.0, [stmts[0]] + rest.1));
    }
  }

  /**
   * The first header is everything before the first tool definition or
   * selection; the second is everything after it up to the first tool
   * selection, without the tool definitions.
   */
  lemma {:induction false} SplitHeaderMeaning(stmts: seq<Excellon.ExStmt>)
    ensures var d, t := FirstToolStatement(stmts), HeaderEnd(stmts);
            d <= t &&
            SplitHeader(stmts, true) == (stmts[..d], WithoutToolDefinitions(stmts[d..t]))
    decreases |stmts|
  {
    if stmts == [] || stmts[0].ToolSelection? {
      assert stmts[0..0] == [];
    } else if stmts[0].ToolDefinition? {
      SplitHeaderAtDefinition(stmts);
    } else {
      SplitHeaderMeaning(stmts[1..]);
      SplitHeaderFirstStep(stmts);
    }
  }

  /** A leading tool definition ends the first header at once. */
  lemma SplitHeaderAtDefinition(stmts: seq<Excellon.ExStmt>)
    requires stmts != [] && stmts[0].ToolDefinition?
    ensures var t := HeaderEnd(stmts);
            FirstToolStatement(stmts) == 0 &&
            SplitHeader(stmts, true) == ([], WithoutToolDefinitions(stmts[0..t]))
  {
    SplitHeaderSecond(stmts[1..]);
    var t := HeaderEnd(stmts);
    assert t == 1 + HeaderEnd(stmts[1..]);
    var h := stmts[0..t];
    assert h != [] && h[0] == stmts[0] && h[1..] == stmts[1..][..t - 1];
    assert WithoutToolDefinitions(h) == WithoutToolDefinitions(stmts[1..][..t - 1]);
  }

  /** A leading statement of the first header stays at its head. */
  lemma SplitHeaderFirstStep(stmts: seq<Excellon.ExStmt>)
    requires stmts != [] && !stmts[0].ToolSelection? && !stmts[0].ToolDefinition?
    requires var d, t := FirstToolStatement(stmts[1..]), HeaderEnd(stmts[1..]);
             d <= t &&
             SplitHeader(stmts[1..], true) == (stmts[1..][..d], WithoutToolDefinitions(stmts[1..][d..t]))
    ensures var d, t := FirstToolStatement(stmts), HeaderEnd(stmts);
            d <= t &&
            SplitHeader(stmts, true) == (stmts[..d], WithoutToolDefinitions(stmts[d..t]))
  {
    var d, t := FirstToolStatement(stmts), HeaderEnd(stmts);
    assert d == 1 + FirstToolStatement(stmts[1..]) && t == 1 + HeaderEnd(stmts[1..]);
    DropFirst(stmts, d, t);
    var rest := SplitHeader(stmts[1..], true);
    assert SplitHeader(stmts, true) == ([stmts[0]] + rest.0, rest.1);
  }

  /** Slices of a sequence, read from its tail after the first element. */
  lemma DropFirst<T>(s: seq<T>, d: nat, t: nat)
    requires 1 <= d <= t <= |s|
    ensures s[..d] == [s[0]] + s[1..][..d - 1] && s[d..t] == s[1..][d - 1..t - 1]
  {
    assert s[1..][..d - 1] == s[1..d];
    assert s[..d] == [s[0]] + s[1..d];
    assert s[1..][d - 1..t - 1] == s[d..t];
  }

  /** The index of the first existing tool equivalent to `tool`. */
  function FirstEquivalent(tools: seq<Excellon.Tool>, tool: Excellon.Tool,
                           equivalent: (Excellon.Tool, Excellon.Tool) -> bool): (r: Option<nat>)
    ensures r.Some? ==> r.value < |tools| && equivalent(tools[r.value], tool) &&
                        forall k :: 0 <= k < r.value ==> !equivalent(tools[k], tool)
    ensures r.None? ==> forall k :: 0 <= k < |tools| ==> !equivalent(tools[k], tool)
  {
    if tools == [] then None
    else if equivalent(tools[0], tool) then Some(0)
    else match FirstEquivalent(tools[1..], tool, equivalent)
         case None => None
         case Some(k) => Some(k + 1)
  }

  /** The reduce over the tool numbers, starting from 0 and keeping the larger. */
  function MaxNumber(tools: seq<Excellon.Tool>): (m: int)
    ensures m >= 0 && forall k :: 0 <= k < |tools| ==> tools[k].number <= m
    ensures m == 0 || exists k :: 0 <= k < |tools| && tools[k].number == m
  {
    if tools == [] then 0
    else
      var x, y := MaxNumber(tools[..|tools| - 1]), tools[|tools| - 1].number;
      if x > y then x else y
  }

  /** _register_tool as a value: the shared tool and the new tool list. */
  function Register(tools: seq<Excellon.Tool>, tool: Excellon.Tool,
                    equivalent: (Excellon.Tool, Excellon.Tool) -> bool): (seq<Excellon.Tool>, Excellon.Tool)
  {
    match FirstEquivalent(tools, tool, equivalent)
    case Some(k) => (tools, tools[k])
    case None =>
      var t := tool.(number := MaxNumber(tools) + 1);
      (tools + [t], t)
  }

  /** Tool numbers are positive and distinct. */
  predicate ToolsNumbered(tools: seq<Excellon.Tool>)
  {
    (forall k :: 0 <= k < |tools| ==> tools[k].number >= 1) &&
    (forall a, b :: 0 <= a < b < |tools| ==> tools[a].number != tools[b].number)
  }

  /**
   * Registering a tool keeps the numbers positive and distinct, keeps
   * every existing tool, and returns a tool of the list: an equivalent
   * existing one, or a new one numbered above all others.
   */
  lemma RegisterKeeps(tools: seq<Excellon.Tool>, tool: Excellon.Tool,
                      equivalent: (Excellon.Tool, Excellon.Tool) -> bool)
    requires ToolsNumbered(tools)
    ensures var r := Register(tools, tool, equivalent);
            ToolsNumbered(r.0) && tools <= r.0 && r.1 in r.0 &&
            (equivalent(r.1, tool) || forall k :: 0 <= k < |tools| ==> tools[k].number < r.1.number)
  {
  }

  /** The tool registrations of one Excellon file, with the map from its numbers to the shared tools. */
  function RegisterAll(tools: seq<Excellon.Tool>, fileTools: seq<Excellon.Tool>,
                       equivalent: (Excellon.Tool, Excellon.Tool) -> bool): (seq<Excellon.Tool>, map<int, Excellon.Tool>)
  {
    if fileTools == [] then (tools, map[])
    else
      var p := RegisterAll(tools, fileTools[..|fileTools| - 1], equivalent);
      var last := fileTools[|fileTools| - 1];
      var q := Register(p.0, last, equivalent);
      (q.0, p.1[last.number := q.1])
  }

  function Numbers(tools: seq<Excellon.Tool>): set<int>
  {
    set k | 0 <= k < |tools| :: tools[k].number
  }

  lemma NumbersOfLast(tools: seq<Excellon.Tool>)
    requires tools != []
    ensures Numbers(tools) == Numbers(tools[..|tools| - 1]) + {tools[|tools| - 1].number}
  {
    var init := tools[..|tools| - 1];
    forall n | n in Numbers(tools) ensures n in Numbers(init) + {tools[|tools| - 1].number} {
      var k :| 0 <= k < |tools| && tools[k].number == n;
      if k < |init| { assert init[k] == tools[k]; }
    }
    forall n | n in Numbers(init) ensures n in Numbers(tools) {
      var k :| 0 <= k < |init| && init[k].number == n;
      assert tools[k] == init[k];
    }
  }

  /** Every file tool number maps to a tool of the shared list, whose numbering stays sound. */
  lemma {:induction false} RegisterAllKeeps(tools: seq<Excellon.Tool>, fileTools: seq<Excellon.Tool>,
                                            equivalent: (Excellon.Tool, Excellon.Tool) -> bool)
    requires ToolsNumbered(tools)
    ensures var r := RegisterAll(tools, fileTools, equivalent);
            ToolsNumbered(r.0) && tools <= r.0 &&
            (forall n :: n in r.1 ==> r.1[n] in r.0) &&
            r.1.Keys == Numbers(fileTools)
    decreases |fileTools|
  {
    if fileTools == [] {
      assert Numbers(fileTools) == {};
    } else {
      var init := fileTools[..|fileTools| - 1];
      var last := fileTools[|fileTools| - 1];
      RegisterAllKeeps(tools, init, equivalent);
      var p := RegisterAll(tools, init, equivalent);
      RegisterKeeps(p.0, last, equivalent);
      var q := Register(p.0, last, equivalent);
      var r := RegisterAll(tools, fileTools, equivalent);
      assert r == (q.0, p.1[last.number := q.1]);
      forall n | n in r.1 ensures r.1[n] in r.0 {
        if n != last.number {
          assert p.1[n] in p.0;
          assert p.0 <= q.0;
        }
      }
      NumbersOfLast(fileTools);
    }
  }

  const ATTRIBUTE_ERROR: string := "AttributeError"

  /**
   * The hits of a merged Excellon file re-pointed at the shared tools: a
   * hit without a tool, or with a number the file did not define, fails.
   */
  function Repoint(hits: seq<Excellon.Hit>, toolMap: map<int, Excellon.Tool>): Result<seq<Excellon.Hit>>
  {
    if hits == [] then Ok([])
    else
      match Repoint(hits[..|hits| - 1], toolMap)
      case Fail(e) => Fail(e)
      case Ok(done) =>
        var h := hits[|hits| - 1];
        if h.tool.None? then Fail(ATTRIBUTE_ERROR)
        else if h.tool.value.number !in toolMap then Fail("KeyError")
        else Ok(done + [h.(tool := Some(toolMap[h.tool.value.number]))])
  }

  /**
   * Appending hits that stopped at hit k: the hits before it were
   * re-pointed and appended to hits0, giving `hits`, and hit k fails.
   */
  predicate HitsStoppedAt(hits0: seq<Excellon.Hit>, fileHits: seq<Excellon.Hit>, toolMap: map<int, Excellon.Tool>,
                          k: int, hits: seq<Excellon.Hit>)
  {
    0 <= k < |fileHits| && Repoint(fileHits[..k], toolMap).Ok? && Repoint(fileHits[..k + 1], toolMap).Fail? &&
    hits == hits0 + Repoint(fileHits[..k], toolMap).value
  }

  /** Every hit has a tool whose number the map knows. */
  predicate AllMapped(hits: seq<Excellon.Hit>, toolMap: map<int, Excellon.Tool>)
  {
    forall k :: 0 <= k < |hits| ==> hits[k].tool.Some? && hits[k].tool.value.number in toolMap
  }

  /**
   * Re-pointing succeeds exactly when every hit's tool is known, and then
   * yields the same hits in the same order, each with its shared tool.
   */
  lemma {:induction false} RepointMeaning(hits: seq<Excellon.Hit>, toolMap: map<int, Excellon.Tool>)
    ensures Repoint(hits, toolMap).Ok? <==> AllMapped(hits, toolMap)
    ensures Repoint(hits, toolMap).Ok? ==>
              var r := Repoint(hits, toolMap).value;
              |r| == |hits| &&
              forall k :: 0 <= k < |hits| ==> r[k] == hits[k].(tool := Some(toolMap[hits[k].tool.value.number]))
    decreases |hits|
  {
    if hits != [] {
      var init := hits[..|hits| - 1];
      RepointMeaning(init, toolMap);
      assert forall k :: 0 <= k < |init| ==> init[k] == hits[k];
    }
  }

  lemma {:induction false} RepointFailSticks(hits: seq<Excellon.Hit>, toolMap: map<int, Excellon.Tool>, k: nat)
    requires k <= |hits| && Repoint(hits[..k], toolMap).Fail?
    ensures Repoint(hits, toolMap) == Fail(Repoint(hits[..k], toolMap).error)
    decreases |hits| - k
  {
    if k < |hits| {
      assert hits[..k + 1][..k] == hits[..k];
      RepointFailSticks(hits, toolMap, k + 1);
    } else {
      assert hits[..k] == hits;
    }
  }

  lemma NumbersGrow(a: seq<Excellon.Tool>, b: seq<Excellon.Tool>)
    requires a <= b
    ensures Numbers(a) <= Numbers(b)
  {
    forall n | n in Numbers(a) ensures n in Numbers(b) {
      var k :| 0 <= k < |a| && a[k].number == n;
      assert b[k] == a[k];
    }
  }

  lemma NumberOfMember(t: Excellon.Tool, tools: seq<Excellon.Tool>)
    requires t in tools
    ensures t.number in Numbers(tools)
  {
    var k :| 0 <= k < |tools| && tools[k] == t;
  }

  /** Hits and DXF blocks that use listed tools still do when the list grows. */
  lemma ToolsGrow(tools0: seq<Excellon.Tool>, tools: seq<Excellon.Tool>, hits: seq<Excellon.Hit>,
                  blocks: seq<(int, Dxf.DxfStatements)>)
    requires tools0 <= tools
    requires forall k :: 0 <= k < |hits| ==> hits[k].tool.Some? && hits[k].tool.value in tools0
    requires forall k :: 0 <= k < |blocks| ==> blocks[k].0 in Numbers(tools0)
    ensures forall k :: 0 <= k < |hits| ==> hits[k].tool.value in tools
    ensures forall k :: 0 <= k < |blocks| ==> blocks[k].0 in Numbers(tools)
  {
    NumbersGrow(tools0, tools);
    forall k | 0 <= k < |hits| ensures hits[k].tool.value in tools {
      var j :| 0 <= j < |tools0| && tools0[j] == hits[k].tool.value;
      assert tools[j] == tools0[j];
    }
  }

  /** An Excellon file converted to the composition's units: statements, tools and hits. */
  method ConvertExcellon(file: Excellon.ExcellonFileEx, units: Units, toInch: Excellon.ExStmt -> Excellon.ExStmt,
                         toMetric: Excellon.ExStmt -> Excellon.ExStmt)
    modifies file
    ensures file.settings == old(file.settings).(units := units)
    ensures old(file.settings.units) == units ==>
              file.statements == old(file.statements) && file.tools == old(file.tools) && file.hits == old(file.hits)
    ensures old(file.settings.units) != units ==>
              var metric := units == Metric;
              var f := if metric then ToMetricValue else ToInchValue;
              file.statements == Excellon.ConvertStatements(old(file.statements), if metric then toMetric else toInch) &&
              file.tools == Excellon.ConvertTools(old(file.tools), f) && file.hits == Excellon.ConvertHits(old(file.hits), f)
  {
    if units == Metric {
      file.ToMetric(toMetric);
    } else {
      file.ToInch(toInch);
    }
  }

  /** A Gerber file converted to the composition's units, statement by statement. */
  method ConvertGerber(file: Rs274x.GerberFile, units: Units, toInch: Rs274x.GStmt -> Rs274x.GStmt,
                       toMetric: Rs274x.GStmt -> Rs274x.GStmt)
    modifies file
    ensures file.settings == old(file.settings).(units := units)
    ensures old(file.settings.units) == units ==> file.statements == old(file.statements)
    ensures old(file.settings.units) != units ==>
              |file.statements| == |old(file.statements)| &&
              forall k :: 0 <= k < |file.statements| ==>
                file.statements[k] == if units == Metric then toMetric(old(file.statements)[k]) else toInch(old(file.statements)[k])
  {
    if units == Metric {
      file.ConvertUnits(Metric, toMetric);
    } else {
      file.ConvertUnits(Inch, toInch);
    }
  }

  /** A DXF file converted to the composition's units. */
  method ConvertDxf(file: Dxf.DxfFile, units: Units)
    requires file.Valid()
    modifies file, file.statements
    ensures file.Valid() && file.settings == old(file.settings).(units := units)
    ensures file.Content() == Dxf.ConvertContent(old(file.Content()), units)
    ensures file.drawMode == old(file.drawMode) && file.statements.dcode == old(file.statements.dcode)
  {
    if units == Metric {
      file.ToMetric();
    } else {
      file.ToInch();
    }
  }

  /** What dump writes, in order, before formatting each item. */
  datatype DrillOut =
    | HeaderOut(item: HeaderItem)
    | ToolDefOut(tool: Excellon.Tool)
    | SelectOut(number: int)
    | CoordinateOut(position: Point)
    | HitOut(hit: Excellon.Hit)
    | BlockOut(block: Dxf.DxfStatements)
    | EndOut

  predicate UsesTool(h: Excellon.Hit, t: Excellon.Tool)
  {
    h.tool.Some? && h.tool.value.number == t.number
  }

  /** The hits of one tool as written: each as a coordinate, which only a drill hit has. */
  function HitsOfAsWritten(hits: seq<Excellon.Hit>, t: Excellon.Tool): Result<seq<DrillOut>>
  {
    if hits == [] then Ok([])
    else
      var h := hits[0];
      var head: Result<seq<DrillOut>> :=
        if h.tool.None? then Fail(ATTRIBUTE_ERROR)
        else if h.tool.value.number != t.number then Ok([])
        else if h.DrillHit? then Ok([CoordinateOut(h.position)])
        else Fail(ATTRIBUTE_ERROR);
      match head
      case Fail(e) => Fail(e)
      case Ok(x) =>
        match HitsOfAsWritten(hits[1..], t)
        case Fail(e) => Fail(e)
        case Ok(y) => Ok(x + y)
  }

  /** The hits of one tool, each written as itself: drill hit, slot or rout. */
  function HitsOf(hits: seq<Excellon.Hit>, t: Excellon.Tool): (r: seq<DrillOut>)
    ensures |r| <= |hits|
    ensures forall k :: 0 <= k < |r| ==> r[k].HitOut? && r[k].hit in hits && UsesTool(r[k].hit, t)
  {
    if hits == [] then []
    else (if UsesTool(hits[0], t) then [HitOut(hits[0])] else []) + HitsOf(hits[1..], t)
  }

  function BlocksOf(blocks: seq<(int, Dxf.DxfStatements)>, t: Excellon.Tool): (r: seq<DrillOut>)
    ensures forall k :: 0 <= k < |r| ==> r[k].BlockOut? && (t.number, r[k].block) in blocks
  {
    if blocks == [] then []
    else (if blocks[0].0 == t.number then [BlockOut(blocks[0].1)] else []) + BlocksOf(blocks[1..], t)
  }

  /** Per tool: its selection, its hits, its DXF blocks. */
  function ToolSections(tools: seq<Excellon.Tool>, hits: seq<Excellon.Hit>,
                        blocks: seq<(int, Dxf.DxfStatements)>): seq<DrillOut>
  {
    if tools == [] then []
    else [SelectOut(tools[0].number)] + HitsOf(hits, tools[0]) + BlocksOf(blocks, tools[0]) +
         ToolSections(tools[1..], hits, blocks)
  }

  function ToolSectionsAsWritten(tools: seq<Excellon.Tool>, hits: seq<Excellon.Hit>,
                                 blocks: seq<(int, Dxf.DxfStatements)>): Result<seq<DrillOut>>
  {
    if tools == [] then Ok([])
    else
      match HitsOfAsWritten(hits, tools[0])
      case Fail(e) => Fail(e)
      case Ok(x) =>
        match ToolSectionsAsWritten(tools[1..], hits, blocks)
        case Fail(e) => Fail(e)
        case Ok(y) => Ok([SelectOut(tools[0].number)] + x + BlocksOf(blocks, tools[0]) + y)
  }

  function HeaderOuts(h: seq<HeaderItem>): seq<DrillOut>
  {
    seq(|h|, k requires 0 <= k < |h| => HeaderOut(h[k]))
  }

  function ToolDefOuts(tools: seq<Excellon.Tool>): seq<DrillOut>
  {
    seq(|tools|, k requires 0 <= k < |tools| => ToolDefOut(tools[k]))
  }

  /** dump as written: every hit is written as a coordinate. */
  function DrillDumpAsWritten(h1: seq<HeaderItem>, tools: seq<Excellon.Tool>, h2: seq<HeaderItem>,
                              hits: seq<Excellon.Hit>, blocks: seq<(int, Dxf.DxfStatements)>): Result<seq<DrillOut>>
  {
    match ToolSectionsAsWritten(tools, hits, blocks)
    case Fail(e) => Fail(e)
    case Ok(x) => Ok(HeaderOuts(h1) + ToolDefOuts(tools) + HeaderOuts(h2) + x + [EndOut])
  }

  /** dump: first header, tool definitions, second header, the tool sections, end of program. */
  function DrillDump(h1: seq<HeaderItem>, tools: seq<Excellon.Tool>, h2: seq<HeaderItem>,
                     hits: seq<Excellon.Hit>, blocks: seq<(int, Dxf.DxfStatements)>): (r: seq<DrillOut>)
    ensures |r| >= |h1| + |tools| + |h2| + 1 && r[|r| - 1] == EndOut
  {
    HeaderOuts(h1) + ToolDefOuts(tools) + HeaderOuts(h2) + ToolSections(tools, hits, blocks) + [EndOut]
  }

  /**
   * As written, a merged slot makes the dump fail, since only a drill hit
   * has a single position; the corrected dump writes the slot in its tool's
   * section.
   */
  lemma SlotBreaksDump()
    ensures var t := Excellon.Tool(1, 1.0);
            var slot := Excellon.DrillSlot(Some(t), Point(0.0, 0.0), Point(1.0, 0.0));
            DrillDumpAsWritten([], [t], [], [slot], []) == Fail(ATTRIBUTE_ERROR) &&
            DrillDump([], [t], [], [slot], []) == [ToolDefOut(t), SelectOut(1), HitOut(slot), EndOut]
  {
    var t := Excellon.Tool(1, 1.0);
    var slot := Excellon.DrillSlot(Some(t), Point(0.0, 0.0), Point(1.0, 0.0));
    assert [slot][1..] == [];
    assert [t][1..] == [];
    assert HitsOf([slot], t) == [HitOut(slot)];
    assert ToolSections([t], [slot], []) == [SelectOut(1), HitOut(slot)];
    assert HeaderOuts([]) == [] && ToolDefOuts([t]) == [ToolDefOut(t)];
  }

  /** How many hits an output carries. */
  function HitCount(out: seq<DrillOut>): nat
  {
    if out == [] then 0 else (if out[0].HitOut? then 1 else 0) + HitCount(out[1..])
  }

  lemma {:induction false} HitCountAppend(a: seq<DrillOut>, b: seq<DrillOut>)
    ensures HitCount(a + b) == HitCount(a) + HitCount(b)
    decreases |a|
  {
    if a != [] {
      assert (a + b)[1..] == a[1..] + b;
      HitCountAppend(a[1..], b);
    } else {
      assert a + b == b;
    }
  }

  lemma {:induction false} HitCountNone(out: seq<DrillOut>)
    requires forall k :: 0 <= k < |out| ==> !out[k].HitOut?
    ensures HitCount(out) == 0
    decreases |out|
  {
    if out != [] {
      HitCountNone(out[1..]);
    }
  }

  lemma {:induction false} HitCountAll(out: seq<DrillOut>)
    requires forall k :: 0 <= k < |out| ==> out[k].HitOut?
    ensures HitCount(out) == |out|
    decreases |out|
  {
    if out != [] {
      HitCountAll(out[1..]);
    }
  }

  /** How many tools of the list a hit uses. */
  function UsesCount(h: Excellon.Hit, tools: seq<Excellon.Tool>): nat
  {
    if tools == [] then 0 else (if UsesTool(h, tools[0]) then 1 else 0) + UsesCount(h, tools[1..])
  }

  /** With distinct numbers, a hit whose tool number is listed uses exactly one tool. */
  lemma {:induction false} UsesExactlyOne(h: Excellon.Hit, tools: seq<Excellon.Tool>)
    requires ToolsNumbered(tools) && h.tool.Some?
    ensures UsesCount(h, tools) == (if h.tool.value.number in Numbers(tools) then 1 else 0)
    decreases |tools|
  {
    if tools != [] {
      var rest := tools[1..];
      assert ToolsNumbered(rest) by {
        forall a, b | 0 <= a < b < |rest| ensures rest[a].number != rest[b].number {
          assert rest[a] == tools[a + 1] && rest[b] == tools[b + 1];
        }
      }
      UsesExactlyOne(h, rest);
      assert Numbers(tools) == {tools[0].number} + Numbers(rest) by {
        forall n | n in Numbers(tools) ensures n in {tools[0].number} + Numbers(rest) {
          var k :| 0 <= k < |tools| && tools[k].number == n;
          if k > 0 { assert rest[k - 1] == tools[k]; }
        }
        forall n | n in Numbers(rest) ensures n in Numbers(tools) {
          var k :| 0 <= k < |rest| && rest[k].number == n;
          assert tools[k + 1] == rest[k];
        }
      }
      forall k | 0 <= k < |rest| ensures rest[k].number != tools[0].number {
        assert rest[k] == tools[k + 1];
      }
    }
  }

  /** The hits written over all tool sections, counted tool by tool. */
  function PerTool(tools: seq<Excellon.Tool>, hits: seq<Excellon.Hit>): nat
  {
    if tools == [] then 0 else |HitsOf(hits, tools[0])| + PerTool(tools[1..], hits)
  }

  lemma {:induction false} PerToolSplit(tools: seq<Excellon.Tool>, hits: seq<Excellon.Hit>)
    requires hits != []
    ensures PerTool(tools, hits) == UsesCount(hits[0], tools) + PerTool(tools, hits[1..])
    decreases |tools|
  {
    if tools != [] {
      PerToolSplit(tools[1..], hits);
    }
  }

  lemma {:induction false} PerToolCountsAll(tools: seq<Excellon.Tool>, hits: seq<Excellon.Hit>)
    requires ToolsNumbered(tools)
    requires forall k :: 0 <= k < |hits| ==> hits[k].tool.Some? && hits[k].tool.value.number in Numbers(tools)
    ensures PerTool(tools, hits) == |hits|
    decreases |hits|, |tools|
  {
    if hits == [] {
      if tools != [] {
        PerToolCountsAll(tools[1..], hits);
      }
    } else {
      PerToolSplit(tools, hits);
      UsesExactlyOne(hits[0], tools);
      assert forall k :: 0 <= k < |hits| - 1 ==> hits[1..][k] == hits[k + 1];
      PerToolCountsAll(tools, hits[1..]);
    }
  }

  lemma {:induction false} SectionsHitCount(tools: seq<Excellon.Tool>, hits: seq<Excellon.Hit>,
                                            blocks: seq<(int, Dxf.DxfStatements)>)
    ensures HitCount(ToolSections(tools, hits, blocks)) == PerTool(tools, hits)
    decreases |tools|
  {
    if tools != [] {
      var t := tools[0];
      var sel: seq<DrillOut> := [SelectOut(t.number)];
      var hs, bs := HitsOf(hits, t), BlocksOf(blocks, t);
      SectionsHitCount(tools[1..], hits, blocks);
      HitCountAppend(sel + hs + bs, ToolSections(tools[1..], hits, blocks));
      HitCountAppend(sel + hs, bs);
      HitCountAppend(sel, hs);
      HitCountNone(sel);
      HitCountAll(hs);
      HitCountNone(bs);
    }
  }

  /**
   * When the tool numbers are distinct and every hit's tool is listed,
   * the dump writes every hit exactly once: it carries as many hits as
   * the composition holds, each a hit of the composition in a section of
   * its own tool.
   */
  lemma EveryHitDumpedOnce(h1: seq<HeaderItem>, tools: seq<Excellon.Tool>, h2: seq<HeaderItem>,
                           hits: seq<Excellon.Hit>, blocks: seq<(int, Dxf.DxfStatements)>)
    requires ToolsNumbered(tools)
    requires forall k :: 0 <= k < |hits| ==> hits[k].tool.Some? && hits[k].tool.value in tools
    ensures HitCount(DrillDump(h1, tools, h2, hits, blocks)) == |hits|
  {
    forall k | 0 <= k < |hits| ensures hits[k].tool.value.number in Numbers(tools) {
      NumberOfMember(hits[k].tool.value, tools);
    }
    PerToolCountsAll(tools, hits);
    SectionsHitCount(tools, hits, blocks);
    var head := HeaderOuts(h1) + ToolDefOuts(tools) + HeaderOuts(h2);
    HitCountAppend(head + ToolSections(tools, hits, blocks), [EndOut]);
    HitCountAppend(head, ToolSections(tools, hits, blocks));
    HitCountNone(head);
    HitCountNone([EndOut]);
  }

  /** DrillComposition: a drill file built from merged Excellon and DXF files. */
  class DrillComposition {
    var settings: Option<Settings>
    var comments: seq<string>
    var header1: seq<HeaderItem>
    var header2: seq<HeaderItem>
    var tools: seq<Excellon.Tool>
    var hits: seq<Excellon.Hit>
    var dxfStatements: seq<(int, Dxf.DxfStatements)>

    /**
     * Tool numbers are positive and distinct, every hit uses a tool of the
     * list, and every DXF block a listed tool number.
     */
    ghost predicate Valid()
      reads this
    {
      ToolsNumbered(tools) &&
      (forall k :: 0 <= k < |hits| ==> hits[k].tool.Some? && hits[k].tool.value in tools) &&
      (forall k :: 0 <= k < |dxfStatements| ==> dxfStatements[k].0 in Numbers(tools))
    }

    constructor (settings: Option<Settings>, comments: seq<string>)
      ensures Valid()
      ensures this.settings == settings && this.comments == comments
      ensures header1 == [] && header2 == [] && tools == [] && hits == [] && dxfStatements == []
    {
      this.settings := settings;
      this.comments := comments;
      header1 := [];
      header2 := [];
      tools := [];
      hits := [];
      dxfStatements := [];
    }

    /**
     * _register_tool: the first existing tool equivalent to `tool` is
     * shared; otherwise a copy numbered one above the largest number in
     * use (0 when there is none) is appended.
     */
    method RegisterTool(tool: Excellon.Tool, equivalent: (Excellon.Tool, Excellon.Tool) -> bool)
      returns (t: Excellon.Tool)
      modifies this
      ensures (tools, t) == Register(old(tools), tool, equivalent)
      ensures settings == old(settings) && comments == old(comments) && header1 == old(header1) &&
              header2 == old(header2) && hits == old(hits) && dxfStatements == old(dxfStatements)
    {
      for k := 0 to |tools|
        invariant forall j :: 0 <= j < k ==> !equivalent(tools[j], tool)
      {
        if equivalent(tools[k], tool) {
          return tools[k];
        }
      }
      var m := 0;
      for k := 0 to |tools|
        invariant m == MaxNumber(tools[..k])
      {
        assert tools[..k + 1][..k] == tools[..k];
        m := if m > tools[k].number then m else tools[k].number;
      }
      assert tools[..|tools|] == tools;
      t := tool.(number := m + 1);
      tools := tools + [t];
    }

    /** The header split of an Excellon file, appended to the (empty) first and the second header. */
    method TakeHeader(stmts: seq<Excellon.ExStmt>)
      modifies this
      ensures var sp := SplitHeader(stmts, true);
              header1 == old(header1) + HeaderItems(sp.0) && header2 == old(header2) + HeaderItems(sp.1)
      ensures settings == old(settings) && comments == old(comments) && tools == old(tools) &&
              hits == old(hits) && dxfStatements == old(dxfStatements)
    {
      var h1: seq<Excellon.ExStmt> := [];
      var h2: seq<Excellon.ExStmt> := [];
      var inHeader1 := true;
      var k := 0;
      assert stmts[0..] == stmts && [] + SplitHeader(stmts, true).0 == SplitHeader(stmts, true).0 &&
             [] + SplitHeader(stmts, true).1 == SplitHeader(stmts, true).1;
      while k < |stmts| && !stmts[k].ToolSelection?
        invariant 0 <= k <= |stmts|
        invariant var rest := SplitHeader(stmts[k..], inHeader1);
                  SplitHeader(stmts, true) == (h1 + rest.0, h2 + rest.1)
      {
        var s := stmts[k];
        var rest := SplitHeader(stmts[k + 1..], inHeader1);
        assert stmts[k..] != [] && stmts[k..][0] == s && stmts[k..][1..] == stmts[k + 1..];
        if s.ToolDefinition? {
          assert SplitHeader(stmts[k..], inHeader1) == SplitHeader(stmts[k + 1..], false);
          inHeader1 := false;
        } else if inHeader1 {
          assert SplitHeader(stmts[k..], inHeader1) == ([s] + rest.0, rest.1);
          assert h1 + ([s] + rest.0) == (h1 + [s]) + rest.0;
          h1 := h1 + [s];
        } else {
          assert SplitHeader(stmts[k..], inHeader1) == (rest.0, [s] + rest.1);
          assert h2 + ([s] + rest.1) == (h2 + [s]) + rest.1;
          h2 := h2 + [s];
        }
        k := k + 1;
      }
      assert SplitHeader(stmts[k..], inHeader1) == ([], []);
      assert h1 + [] == h1 && h2 + [] == h2;
      header1 := header1 + HeaderItems(h1);
      header2 := header2 + HeaderItems(h2);
    }

    /** The tools of an Excellon file registered in order, with the map from its numbers to the shared tools. */
    method RegisterFileTools(fileTools: seq<Excellon.Tool>, equivalent: (Excellon.Tool, Excellon.Tool) -> bool)
      returns (toolMap: map<int, Excellon.Tool>)
      requires Valid()
      modifies this
      ensures Valid()
      ensures (tools, toolMap) == RegisterAll(old(tools), fileTools, equivalent)
      ensures forall n :: n in toolMap ==> toolMap[n] in tools
      ensures settings == old(settings) && comments == old(comments) && header1 == old(header1) &&
              header2 == old(header2) && hits == old(hits) && dxfStatements == old(dxfStatements)
    {
      toolMap := map[];
      for k := 0 to |fileTools|
        invariant RegisterAll(old(tools), fileTools[..k], equivalent) == (tools, toolMap)
        invariant settings == old(settings) && comments == old(comments) && header1 == old(header1) &&
                  header2 == old(header2) && hits == old(hits) && dxfStatements == old(dxfStatements)
      {
        assert fileTools[..k + 1][..k] == fileTools[..k];
        var t := RegisterTool(fileTools[k], equivalent);
        toolMap := toolMap[fileTools[k].number := t];
      }
      assert fileTools[..|fileTools|] == fileTools;
      RegisterAllKeeps(old(tools), fileTools, equivalent);
      ToolsGrow(old(tools), tools, hits, dxfStatements);
    }

    /** The hits of an Excellon file re-pointed at the shared tools and appended one by one. */
    method AppendHits(fileHits: seq<Excellon.Hit>, toolMap: map<int, Excellon.Tool>) returns (r: Result<()>)
      requires Valid() && forall n :: n in toolMap ==> toolMap[n] in tools
      modifies this
      ensures Valid()
      ensures var rp := Repoint(fileHits, toolMap);
              (r.Ok? <==> rp.Ok?) && (r.Fail? ==> r.error == rp.error) && (r.Ok? ==> hits == old(hits) + rp.value)
      ensures r.Fail? ==> exists k :: HitsStoppedAt(old(hits), fileHits, toolMap, k, hits)
      ensures settings == old(settings) && comments == old(comments) && header1 == old(header1) &&
              header2 == old(header2) && tools == old(tools) && dxfStatements == old(dxfStatements)
    {
      for k := 0 to |fileHits|
        invariant Repoint(fileHits[..k], toolMap).Ok? && hits == old(hits) + Repoint(fileHits[..k], toolMap).value
        invariant Valid()
        invariant settings == old(settings) && comments == old(comments) && header1 == old(header1) &&
                  header2 == old(header2) && tools == old(tools) && dxfStatements == old(dxfStatements)
      {
        assert fileHits[..k + 1][..k] == fileHits[..k];
        var h := fileHits[k];
        if h.tool.None? {
          RepointFailSticks(fileHits, toolMap, k + 1);
          assert HitsStoppedAt(old(hits), fileHits, toolMap, k, hits);
          return Fail(ATTRIBUTE_ERROR);
        }
        var n := h.tool.value.number;
        if n !in toolMap {
          RepointFailSticks(fileHits, toolMap, k + 1);
          assert HitsStoppedAt(old(hits), fileHits, toolMap, k, hits);
          return Fail("KeyError");
        }
        hits := hits + [h.(tool := Some(toolMap[n]))];
      }
      assert fileHits[..|fileHits|] == fileHits;
      r := Ok(());
    }

    /**
     * _merge_excellon: the first file lends its settings, later ones are
     * converted to them; the first file with a header supplies the two
     * headers; the file's tools are registered in order and its hits
     * re-pointed at the shared tools and appended.
     */
    method MergeExcellon(file: Excellon.ExcellonFileEx, equivalent: (Excellon.Tool, Excellon.Tool) -> bool,
                         toInch: Excellon.ExStmt -> Excellon.ExStmt, toMetric: Excellon.ExStmt -> Excellon.ExStmt)
      returns (r: Result<()>)
      requires Valid()
      modifies this, file
      ensures Valid()
      ensures comments == old(comments) && dxfStatements == old(dxfStatements)
      ensures old(settings).None? ==>
                settings == Some(file.settings) && file.settings == old(file.settings) &&
                file.statements == old(file.statements) && file.tools == old(file.tools) && file.hits == old(file.hits)
      ensures old(settings).Some? ==> settings == old(settings) && file.settings.units == old(settings).value.units
      ensures old(settings).Some? && old(file.settings.units) == old(settings).value.units ==>
                file.statements == old(file.statements) && file.tools == old(file.tools) && file.hits == old(file.hits)
      ensures old(settings).Some? && old(file.settings.units) != old(settings).value.units ==>
                var metric := old(settings).value.units == Metric;
                var f := if metric then ToMetricValue else ToInchValue;
                file.statements == Excellon.ConvertStatements(old(file.statements), if metric then toMetric else toInch) &&
                file.tools == Excellon.ConvertTools(old(file.tools), f) && file.hits == Excellon.ConvertHits(old(file.hits), f)
      ensures old(header1) == [] ==>
                var sp := SplitHeader(file.statements, true);
                header1 == HeaderItems(sp.0) && header2 == old(header2) + HeaderItems(sp.1)
      ensures old(header1) != [] ==> header1 == old(header1) && header2 == old(header2)
      ensures var reg := RegisterAll(old(tools), file.tools, equivalent);
              var rp := Repoint(file.hits, reg.1);
              tools == reg.0 && (r.Ok? <==> rp.Ok?) && (r.Fail? ==> r.error == rp.error) &&
              (r.Ok? ==> hits == old(hits) + rp.value)
      ensures r.Fail? ==>
                exists k :: HitsStoppedAt(old(hits), file.hits, RegisterAll(old(tools), file.tools, equivalent).1, k, hits)
    {
      if settings.None? {
        settings := Some(file.settings);
      } else {
        ConvertExcellon(file, settings.value.units, toInch, toMetric);
      }
      if header1 == [] {
        TakeHeader(file.statements);
      }
      var toolMap := RegisterFileTools(file.tools, equivalent);
      r := AppendHits(file.hits, toolMap);
    }

    /** A DXF block drilled with a tool of the given width, registered like any other tool. */
    method AddBlock(width: real, block: Dxf.DxfStatements, equivalent: (Excellon.Tool, Excellon.Tool) -> bool)
      requires Valid()
      modifies this
      ensures Valid()
      ensures var reg := Register(old(tools), Excellon.Tool(1, width), equivalent);
              tools == reg.0 && dxfStatements == old(dxfStatements) + [(reg.1.number, block)]
      ensures settings == old(settings) && comments == old(comments) && header1 == old(header1) &&
              header2 == old(header2) && hits == old(hits)
    {
      var tool := Excellon.Tool(1, width);
      var t := RegisterTool(tool, equivalent);
      RegisterKeeps(old(tools), tool, equivalent);
      ToolsGrow(old(tools), tools, hits, dxfStatements);
      NumberOfMember(t, tools);
      dxfStatements := dxfStatements + [(t.number, block)];
    }

    /**
     * _merge_dxf: the first file lends its settings, later ones are
     * converted to them; the first file with a header supplies the DXF
     * headers; a tool with the file's width is registered and the file's
     * block drilled with it.
     */
    method MergeDxf(file: Dxf.DxfFile, equivalent: (Excellon.Tool, Excellon.Tool) -> bool)
      requires Valid() && file.Valid()
      modifies this, file, file.statements
      ensures Valid() && file.Valid()
      ensures comments == old(comments) && hits == old(hits)
      ensures old(settings).None? ==> settings == Some(file.settings) && file.settings == old(file.settings)
      ensures old(settings).Some? ==> settings == old(settings) && file.settings.units == old(settings).value.units
      ensures old(header1) == [] ==> header1 == [DxfHeaderItem] && header2 == [DxfHeader2Item]
      ensures old(header1) != [] ==> header1 == old(header1) && header2 == old(header2)
      ensures var reg := Register(old(tools), Excellon.Tool(1, file.Width()), equivalent);
              tools == reg.0 && dxfStatements == old(dxfStatements) + [(reg.1.number, file.statements)]
      ensures file.Content() == if old(settings).Some? then Dxf.ConvertContent(old(file.Content()), old(settings).value.units)
                                else old(file.Content())
      ensures file.drawMode == old(file.drawMode) && file.statements.dcode == old(file.statements.dcode)
    {
      if settings.None? {
        settings := Some(file.settings);
      } else {
        ConvertDxf(file, settings.value.units);
      }
      if header1 == [] {
        header1 := [DxfHeaderItem];
        header2 := [DxfHeader2Item];
      }
      AddBlock(file.Width(), file.statements, equivalent);
    }

    /** merge: Excellon and DXF files are merged, any other file is refused. */
    method Merge(src: Source, equivalent: (Excellon.Tool, Excellon.Tool) -> bool,
                 toInch: Excellon.ExStmt -> Excellon.ExStmt, toMetric: Excellon.ExStmt -> Excellon.ExStmt)
      returns (r: Result<()>)
      requires Valid() && (src.DxfSource? ==> src.dxf.Valid())
      modifies this, Footprint(src)
      ensures Valid()
      ensures src.GerberSource? ==>
                r == Fail(UNSUPPORTED) && settings == old(settings) && tools == old(tools) && hits == old(hits) &&
                dxfStatements == old(dxfStatements) && header1 == old(header1) && header2 == old(header2)
      ensures src.DxfSource? ==>
                var file := src.dxf;
                r.Ok? && file.Valid() && hits == old(hits) &&
                (old(settings).None? ==> settings == Some(file.settings)) &&
                (old(settings).Some? ==> settings == old(settings)) &&
                (old(header1) == [] ==> header1 == [DxfHeaderItem] && header2 == [DxfHeader2Item]) &&
                (old(header1) != [] ==> header1 == old(header1) && header2 == old(header2)) &&
                (var reg := Register(old(tools), Excellon.Tool(1, file.Width()), equivalent);
                 tools == reg.0 && dxfStatements == old(dxfStatements) + [(reg.1.number, file.statements)]) &&
                file.Content() == if old(settings).Some? then Dxf.ConvertContent(old(file.Content()), old(settings).value.units)
                                  else old(file.Content())
      ensures src.ExcellonSource? ==>
                var file := src.excellon;
                var reg := RegisterAll(old(tools), file.tools, equivalent);
                var rp := Repoint(file.hits, reg.1);
                tools == reg.0 && (r.Ok? <==> rp.Ok?) && (r.Fail? ==> r.error == rp.error) &&
                (r.Ok? ==> hits == old(hits) + rp.value) && dxfStatements == old(dxfStatements) &&
                (r.Fail? ==> exists k :: HitsStoppedAt(old(hits), file.hits, reg.1, k, hits)) &&
                (old(settings).None? ==> settings == Some(file.settings) && file.settings == old(file.settings)) &&
                (old(settings).Some? ==> settings == old(settings) && file.settings.units == old(settings).value.units)
      ensures src.ExcellonSource? && old(header1) == [] ==>
                var sp := SplitHeader(src.excellon.statements, true);
                header1 == HeaderItems(sp.0) && header2 == old(header2) + HeaderItems(sp.1)
      ensures src.ExcellonSource? && old(header1) != [] ==> header1 == old(header1) && header2 == old(header2)
      ensures src.ExcellonSource? && old(settings).Some? && old(src.excellon.settings.units) != old(settings).value.units ==>
                var file := src.excellon;
                var metric := old(settings).value.units == Metric;
                var f := if metric then ToMetricValue else ToInchValue;
                file.statements == Excellon.ConvertStatements(old(file.statements), if metric then toMetric else toInch) &&
                file.tools == Excellon.ConvertTools(old(file.tools), f) && file.hits == Excellon.ConvertHits(old(file.hits), f)
      ensures src.ExcellonSource? && (old(settings).None? || old(src.excellon.settings.units) == old(settings).value.units) ==>
                var file := src.excellon;
                file.statements == old(file.statements) && file.tools == old(file.tools) && file.hits == old(file.hits)
    {
      match src {
        case ExcellonSource(e) =>
          r := MergeExcellon(e, equivalent, toInch, toMetric);
        case DxfSource(x) =>
          MergeDxf(x, equivalent);
          r := Ok(());
        case GerberSource(_) =>
          r := Fail(UNSUPPORTED);
      }
    }

    /** What dump writes, in order. */
    function Dump(): seq<DrillOut>
      reads this
    {
      DrillDump(header1, tools, header2, hits, dxfStatements)
    }
  }
}

=== FILE: dxf.dfy ===
/**
 * DXF drawings: the entities the DXF reader delivers, the statements that
 * wrap them, the Gerber and Excellon text each statement and the whole
 * statement block produce in the three draw modes (plain lines, filled
 * areas, mouse bites), the guarded unit conversion, and the DxfFile
 * object whose setters keep its aperture and its statement block in step.
 */
module Dxf {
  import opened Common
  import Rs274x

  // ---------------------------------------------------------------------
  // Entities and statements
  // ---------------------------------------------------------------------

  /** A polyline vertex: the point and the bulge of the segment leaving it. */
  datatype Vertex = Vertex(p: Point, bulge: real)

  /**
   * An entity of the DXF reader, with every attribute the statements read;
   * which attributes are meaningful depends on `dxftype`.
   */
  datatype Entity = Entity(dxftype: string, start: Point, end: Point, center: Point, radius: real,
                           startAngle: real, endAngle: real, points: seq<Vertex>, isClosed: bool)

  /** DxfLineStatement, DxfCircleStatement, DxfArcStatement, DxfPolylineStatement. */
  datatype DxfStatement =
    | Line(entity: Entity)
    | Circle(entity: Entity)
    | Arc(entity: Entity)
    | Polyline(entity: Entity)

  /** The entity type each statement kind stands for. */
  function KindName(s: DxfStatement): string
  {
    match s
    case Line(_) => "LINE"
    case Circle(_) => "CIRCLE"
    case Arc(_) => "ARC"
    case Polyline(_) => "LWPOLYLINE"
  }

  const KNOWN_TYPES: set<string> := {"LWPOLYLINE", "LINE", "CIRCLE", "ARC"}

  /** The statement the DxfStatements constructor makes of one entity, if any. */
  function StatementOf(e: Entity): (r: Option<DxfStatement>)
    ensures r.Some? <==> e.dxftype in KNOWN_TYPES
    ensures r.Some? ==> r.value.entity == e && KindName(r.value) == e.dxftype
  {
    if e.dxftype == "LWPOLYLINE" then Some(Polyline(e))
    else if e.dxftype == "LINE" then Some(Line(e))
    else if e.dxftype == "CIRCLE" then Some(Circle(e))
    else if e.dxftype == "ARC" then Some(Arc(e))
    else None
  }

  /** The statements made of a list of entities, in order. */
  function FilterEntities(es: seq<Entity>): seq<DxfStatement>
  {
    if es == [] then []
    else
      var init := FilterEntities(es[..|es| - 1]);
      match StatementOf(es[|es| - 1])
      case Some(s) => init + [s]
      case None => init
  }

  /** Filtering distributes over concatenation, so input order is kept. */
  lemma {:induction false} FilterEntitiesAppend(a: seq<Entity>, b: seq<Entity>)
    ensures FilterEntities(a + b) == FilterEntities(a) + FilterEntities(b)
    decreases |b|
  {
    if b == [] {
      assert a + b == a;
    } else {
      var b' := b[..|b| - 1];
      assert (a + b)[..|a + b| - 1] == a + b';
      FilterEntitiesAppend(a, b');
    }
  }

  /**
   * Each kept statement wraps an entity of the input of the matching type,
   * and every entity of one of the four types is kept.
   */
  lemma {:induction false} FilterEntitiesKeeps(es: seq<Entity>)
    ensures forall s :: s in FilterEntities(es) ==> s.entity in es && KindName(s) == s.entity.dxftype
    ensures forall e :: e in es && e.dxftype in KNOWN_TYPES ==> StatementOf(e).value in FilterEntities(es)
    ensures |FilterEntities(es)| <= |es|
  {
    if es != [] {
      var init := es[..|es| - 1];
      FilterEntitiesKeeps(init);
      assert es == init + [es[|es| - 1]];
    }
  }

  // ---------------------------------------------------------------------
  // Unit conversion of statements
  // ---------------------------------------------------------------------

  function VerticesToInch(vs: seq<Vertex>): (r: seq<Vertex>)
    ensures |r| == |vs|
    ensures forall k :: 0 <= k < |vs| ==> r[k] == Vertex(PointToInch(vs[k].p), ToInchValue(vs[k].bulge))
  {
    seq(|vs|, k requires 0 <= k < |vs| => Vertex(PointToInch(vs[k].p), ToInchValue(vs[k].bulge)))
  }

  function VerticesToMetric(vs: seq<Vertex>): (r: seq<Vertex>)
    ensures |r| == |vs|
    ensures forall k :: 0 <= k < |vs| ==> r[k] == Vertex(PointToMetric(vs[k].p), ToMetricValue(vs[k].bulge))
  {
    seq(|vs|, k requires 0 <= k < |vs| => Vertex(PointToMetric(vs[k].p), ToMetricValue(vs[k].bulge)))
  }

  /**
   * to_inch of a statement: coordinates and radii, and also the arc's
   * angles and the polyline's bulges, are divided by 25.4.
   */
  function StatementToInch(s: DxfStatement): DxfStatement
  {
    var e := s.entity;
    match s
    case Line(_) => Line(e.(start := PointToInch(e.start), end := PointToInch(e.end)))
    case Circle(_) => Circle(e.(radius := ToInchValue(e.radius), center := PointToInch(e.center)))
    case Arc(_) => Arc(e.(startAngle := ToInchValue(e.startAngle), endAngle := ToInchValue(e.endAngle),
                         radius := ToInchValue(e.radius), center := PointToInch(e.center)))
    case Polyline(_) => Polyline(e.(points := VerticesToInch(e.points)))
  }

  /** to_metric of a line as written: the y coordinates go through `inch`. */
  function LineToMetricAsWritten(e: Entity): Entity
  {
    e.(start := Point(ToMetricValue(e.start.x), ToInchValue(e.start.y)),
       end := Point(ToMetricValue(e.end.x), ToInchValue(e.end.y)))
  }

  /** to_metric of a line, both coordinates multiplied by 25.4. */
  function LineToMetric(e: Entity): Entity
  {
    e.(start := PointToMetric(e.start), end := PointToMetric(e.end))
  }

  /** to_metric of a statement, with the corrected line conversion. */
  function StatementToMetric(s: DxfStatement): DxfStatement
  {
    var e := s.entity;
    match s
    case Line(_) => Line(LineToMetric(e))
    case Circle(_) => Circle(e.(radius := ToMetricValue(e.radius), center := PointToMetric(e.center)))
    case Arc(_) => Arc(e.(startAngle := ToMetricValue(e.startAngle), endAngle := ToMetricValue(e.endAngle),
                         radius := ToMetricValue(e.radius), center := PointToMetric(e.center)))
    case Polyline(_) => Polyline(e.(points := VerticesToMetric(e.points)))
  }

  /** to_metric of a statement as written: only lines differ from the corrected conversion. */
  function StatementToMetricAsWritten(s: DxfStatement): DxfStatement
  {
    if s.Line? then Line(LineToMetricAsWritten(s.entity)) else StatementToMetric(s)
  }

  function StatementsToMetricAsWritten(ss: seq<DxfStatement>): (r: seq<DxfStatement>)
    ensures |r| == |ss| && forall k :: 0 <= k < |ss| ==> r[k] == StatementToMetricAsWritten(ss[k])
  {
    seq(|ss|, k requires 0 <= k < |ss| => StatementToMetricAsWritten(ss[k]))
  }

  lemma PointRoundTrip(p: Point)
    ensures PointToMetric(PointToInch(p)) == p && PointToInch(PointToMetric(p)) == p
  {
    MetricInchRoundTrip(p.x);
    MetricInchRoundTrip(p.y);
  }

  lemma VerticesRoundTrip(vs: seq<Vertex>)
    ensures VerticesToMetric(VerticesToInch(vs)) == vs && VerticesToInch(VerticesToMetric(vs)) == vs
  {
    forall k | 0 <= k < |vs|
      ensures VerticesToMetric(VerticesToInch(vs))[k] == vs[k] && VerticesToInch(VerticesToMetric(vs))[k] == vs[k]
    {
      PointRoundTrip(vs[k].p);
      MetricInchRoundTrip(vs[k].bulge);
    }
  }

  /** Converting to inch and back to metric, or the other way, restores every statement. */
  lemma StatementRoundTrip(s: DxfStatement)
    ensures StatementToMetric(StatementToInch(s)) == s
    ensures StatementToInch(StatementToMetric(s)) == s
    ensures KindName(StatementToInch(s)) == KindName(s) && KindName(StatementToMetric(s)) == KindName(s)
  {
    var e := s.entity;
    PointRoundTrip(e.start);
    PointRoundTrip(e.end);
    PointRoundTrip(e.center);
    MetricInchRoundTrip(e.radius);
    MetricInchRoundTrip(e.startAngle);
    MetricInchRoundTrip(e.endAngle);
    VerticesRoundTrip(e.points);
  }

  /**
   * As written, a line converted to inch and back to metric does not come
   * back: its y coordinates end up divided by 25.4 twice.
   */
  lemma LineToMetricAsWrittenLosesY()
    ensures var e := Entity("LINE", Point(0.0, 25.4), Point(0.0, 0.0), Point(0.0, 0.0), 0.0, 0.0, 0.0, [], false);
            var back := LineToMetricAsWritten(StatementToInch(Line(e)).entity);
            back != e && back.start.y == 1.0 / 25.4
  {
  }

  // ---------------------------------------------------------------------
  // Polylines: the vertex order and the segment kinds
  // ---------------------------------------------------------------------

  /** ptseq: the vertex indices 1 .. n-1, then 0 when the polyline is closed. */
  function PtSeq(n: nat, closed: bool): seq<nat>
  {
    seq(if n == 0 then 0 else n - 1, k => k + 1) + (if closed then [0] else [])
  }

  /**
   * Every vertex is visited at most once; all but the first always are, and
   * the first only when the polyline is closed. So an open polyline of n
   * vertices has n - 1 segments and a closed one n.
   */
  lemma PtSeqVisits(n: nat, closed: bool)
    requires n >= 1
    ensures var r := PtSeq(n, closed);
            |r| == (if closed then n else n - 1) &&
            (forall k :: 0 <= k < |r| ==> r[k] < n) &&
            (forall a, b :: 0 <= a < b < |r| ==> r[a] != r[b]) &&
            (forall i :: 0 <= i < n ==> (i in r <==> i != 0 || closed))
  {
    var r := PtSeq(n, closed);
    forall i | 0 <= i < n && i != 0 ensures i in r {
      assert r[i - 1] == i;
    }
    if closed {
      assert r[n - 1] == 0;
    }
  }

  /** The direction code of a segment: straight for bulge 0, G03 for positive, G02 for negative. */
  function SegmentCode(bulge: real): string
  {
    if bulge == 0.0 then "01" else if bulge > 0.0 then "03" else "02"
  }

  /** One segment of polyline output: its code, its end point and, for an arc, the centre offset. */
  datatype Segment = Segment(code: string, target: Point, centreOffset: Option<Point>)

  /**
   * The segments drawn for the indices `idxs`, starting from vertex `prev`:
   * each uses the bulge of the vertex it starts from. `centre` stands for
   * the bulge-to-centre geometry (tangent and arc tangent).
   */
  function Segments(vs: seq<Vertex>, idxs: seq<nat>, prev: nat, centre: (Point, Point, real) -> Point): seq<Segment>
    requires prev < |vs| && forall k :: 0 <= k < |idxs| ==> idxs[k] < |vs|
    decreases |idxs|
  {
    if idxs == [] then []
    else
      var b := vs[prev].bulge;
      var p0, p1 := vs[prev].p, vs[idxs[0]].p;
      var seg := if b == 0.0 then Segment(SegmentCode(b), p1, None)
                 else Segment(SegmentCode(b), p1, Some(Sub(centre(p0, p1, b), p0)));
      [seg] + Segments(vs, idxs[1..], idxs[0], centre)
  }

  /**
   * Segment k ends at vertex idxs[k], and its kind follows the sign of the
   * bulge of the vertex it leaves: the start vertex for k = 0, vertex
   * idxs[k-1] afterwards; only arcs carry a centre offset.
   */
  lemma {:induction false} SegmentsShape(vs: seq<Vertex>, idxs: seq<nat>, prev: nat, centre: (Point, Point, real) -> Point)
    requires prev < |vs| && forall k :: 0 <= k < |idxs| ==> idxs[k] < |vs|
    ensures var r := Segments(vs, idxs, prev, centre);
            |r| == |idxs| &&
            forall k :: 0 <= k < |idxs| ==>
              var from := if k == 0 then prev else idxs[k - 1];
              r[k].target == vs[idxs[k]].p &&
              r[k].code == SegmentCode(vs[from].bulge) &&
              (r[k].centreOffset.Some? <==> vs[from].bulge != 0.0)
    decreases |idxs|
  {
    if idxs != [] {
      var r := Segments(vs, idxs, prev, centre);
      var rest := Segments(vs, idxs[1..], idxs[0], centre);
      SegmentsShape(vs, idxs[1..], idxs[0], centre);
      assert r[1..] == rest;
      forall k | 1 <= k < |idxs|
        ensures r[k].target == vs[idxs[k]].p && r[k].code == SegmentCode(vs[idxs[k - 1]].bulge) &&
                (r[k].centreOffset.Some? <==> vs[idxs[k - 1]].bulge != 0.0)
      {
        assert r[k] == rest[k - 1];
        assert idxs[1..][k - 1] == idxs[k];
        if k > 1 {
          assert idxs[1..][k - 2] == idxs[k - 1];
        }
      }
    }
  }

  /** The three codes and what selects them. */
  lemma SegmentCodeCases(b: real)
    ensures SegmentCode(b) == "01" <==> b == 0.0
    ensures SegmentCode(b) == "03" <==> b > 0.0
    ensures SegmentCode(b) == "02" <==> b < 0.0
  {
  }

  // ---------------------------------------------------------------------
  // Mouse-bite dots along a line
  // ---------------------------------------------------------------------

  lemma ZeroFactor(x: real, p: real)
    requires p > 0.0 && x * p == 0.0
    ensures x == 0.0
  {
  }

  /** One more pitch travelled takes one off the number of steps left. */
  lemma StepMeasure(a: real, pitch: real)
    requires pitch > 0.0
    ensures ((a - pitch) / pitch).Floor == (a / pitch).Floor - 1
  {
    var q := a / pitch;
    var q' := (a - pitch) / pitch;
    assert q * pitch == a && q' * pitch == a - pitch;
    ZeroFactor(q' - q + 1.0, pitch);
  }

  /** The distance covered by k pitch steps. */
  function Travelled(k: nat, pitch: real): real
  {
    k as real * pitch
  }

  /** The dots from distance d on: one per pitch step while d stays below the bound. */
  function DotsFrom(p: Point, step: Point, d: real, pitch: real, bound: real): seq<Point>
    requires pitch > 0.0
    decreases if d < bound then ((bound - d) / pitch).Floor + 1 else 0
  {
    if d < bound then
      assert bound - (d + pitch) == (bound - d) - pitch;
      StepMeasure(bound - d, pitch);
      [p] + DotsFrom(Add(p, step), step, d + pitch, pitch, bound)
    else []
  }

  /** The step between dots: the line's direction scaled to one pitch. */
  function DotStep(start: Point, end: Point, pitch: real, length: real): Point
    requires length != 0.0
  {
    Point((end.x - start.x) * pitch / length, (end.y - start.y) * pitch / length)
  }

  /**
   * The k-th dot exists exactly when d + k·pitch is below the bound, and it
   * lies k steps from the first.
   */
  lemma DotsFromMeaning(p: Point, step: Point, d: real, pitch: real, bound: real)
    requires pitch > 0.0
    ensures var r := DotsFrom(p, step, d, pitch, bound);
            (forall k: nat :: k < |r| <==> d + Travelled(k, pitch) < bound) &&
            (forall k :: 0 <= k < |r| ==> r[k] == Point(p.x + k as real * step.x, p.y + k as real * step.y))
  {
    DotsFromCount(p, step, d, pitch, bound);
    DotsFromPositions(p, step, d, pitch, bound);
    var r := DotsFrom(p, step, d, pitch, bound);
    forall k | 0 <= k < |r| ensures r[k] == Point(p.x + k as real * step.x, p.y + k as real * step.y) {
      AlongLinear(p.x, step.x, k);
      AlongLinear(p.y, step.y, k);
    }
  }

  lemma {:induction false} DotsFromCount(p: Point, step: Point, d: real, pitch: real, bound: real)
    requires pitch > 0.0
    ensures forall k: nat :: k < |DotsFrom(p, step, d, pitch, bound)| <==> d + Travelled(k, pitch) < bound
    decreases if d < bound then ((bound - d) / pitch).Floor + 1 else 0
  {
    var r := DotsFrom(p, step, d, pitch, bound);
    if d < bound {
      StepMeasure(bound - d, pitch);
      var q := Add(p, step);
      DotsFromCount(q, step, d + pitch, pitch, bound);
      assert |r| == 1 + |DotsFrom(q, step, d + pitch, pitch, bound)|;
      forall k: nat ensures k < |r| <==> d + Travelled(k, pitch) < bound {
        if k > 0 {
          TravelledStep(k, d, pitch);
        }
      }
    } else {
      forall k: nat ensures !(d + Travelled(k, pitch) < bound) {
        assert Travelled(k, pitch) >= 0.0;
      }
    }
  }

  lemma TravelledStep(k: nat, d: real, pitch: real)
    requires k > 0
    ensures d + Travelled(k, pitch) == (d + pitch) + Travelled(k - 1, pitch)
  {
  }

  /** a advanced by k steps of b, one step at a time. */
  function Along(a: real, b: real, k: nat): real
    decreases k
  {
    if k == 0 then a else Along(a + b, b, k - 1)
  }

  lemma {:induction false} AlongLinear(a: real, b: real, k: nat)
    ensures Along(a, b, k) == a + k as real * b
    decreases k
  {
    if k > 0 {
      AlongLinear(a + b, b, k - 1);
      StepScaled(k, a, b);
    }
  }

  lemma StepScaled(k: nat, a: real, b: real)
    requires k > 0
    ensures a + k as real * b == (a + b) + (k - 1) as real * b
  {
  }

  lemma {:induction false} DotsFromPositions(p: Point, step: Point, d: real, pitch: real, bound: real)
    requires pitch > 0.0
    ensures var r := DotsFrom(p, step, d, pitch, bound);
            forall k :: 0 <= k < |r| ==> r[k] == Point(Along(p.x, step.x, k), Along(p.y, step.y, k))
    decreases if d < bound then ((bound - d) / pitch).Floor + 1 else 0
  {
    var r := DotsFrom(p, step, d, pitch, bound);
    if d < bound {
      StepMeasure(bound - d, pitch);
      var q := Add(p, step);
      var rest := DotsFrom(q, step, d + pitch, pitch, bound);
      DotsFromPositions(q, step, d + pitch, pitch, bound);
      assert r == [p] + rest;
      forall k | 0 <= k < |r| ensures r[k] == Point(Along(p.x, step.x, k), Along(p.y, step.y, k)) {
        if k > 0 {
          assert r[k] == rest[k - 1];
        }
      }
    }
  }

  /**
   * _dots: the start point, then one point per pitch step while the
   * distance travelled stays below the length plus half the width. The
   * length is given (it is a square root); a zero length divides by zero.
   */
  method Dots(start: Point, end: Point, pitch: real, width: real, length: real) returns (r: Result<seq<Point>>)
    requires pitch > 0.0
    ensures length == 0.0 ==> r == Fail("ZeroDivisionError")
    ensures length != 0.0 ==> r == Ok(DotsFrom(start, DotStep(start, end, pitch, length), 0.0, pitch, length + width / 2.0))
  {
    if length == 0.0 {
      return Fail("ZeroDivisionError");
    }
    var step := DotStep(start, end, pitch, length);
    var bound := length + width / 2.0;
    var x0, y0 := start.x, start.y;
    var d := 0.0;
    var dots: seq<Point> := [];
    while d < bound
      invariant dots + DotsFrom(Point(x0, y0), step, d, pitch, bound) == DotsFrom(start, step, 0.0, pitch, bound)
      decreases if d < bound then ((bound - d) / pitch).Floor + 1 else 0
    {
      StepMeasure(bound - d, pitch);
      assert DotsFrom(Point(x0, y0), step, d, pitch, bound) ==
             [Point(x0, y0)] + DotsFrom(Point(x0 + step.x, y0 + step.y), step, d + pitch, pitch, bound);
      dots := dots + [Point(x0, y0)];
      x0 := x0 + step.x;
      y0 := y0 + step.y;
      d := d + pitch;
    }
    assert DotsFrom(Point(x0, y0), step, d, pitch, bound) == [];
    assert dots + [] == dots;
    r := Ok(dots);
  }

  /**
   * The number of dots is the number of k >= 0 with k·pitch below the
   * length plus half the width, and dot k lies k steps from the start.
   */
  lemma DotCount(start: Point, end: Point, pitch: real, width: real, length: real)
    requires pitch > 0.0 && length != 0.0
    ensures var step := DotStep(start, end, pitch, length);
            var r := DotsFrom(start, step, 0.0, pitch, length + width / 2.0);
            (forall k: nat :: k < |r| <==> Travelled(k, pitch) < length + width / 2.0) &&
            (forall k :: 0 <= k < |r| ==> r[k] == Point(start.x + k as real * step.x, start.y + k as real * step.y))
  {
    var step := DotStep(start, end, pitch, length);
    var r := DotsFrom(start, step, 0.0, pitch, length + width / 2.0);
    DotsFromMeaning(start, step, 0.0, pitch, length + width / 2.0);
    forall k: nat ensures k < |r| <==> Travelled(k, pitch) < length + width / 2.0 {
      assert 0.0 + Travelled(k, pitch) == Travelled(k, pitch);
    }
  }

  // ---------------------------------------------------------------------
  // Gerber and Excellon text of one statement
  // ---------------------------------------------------------------------

  /**
   * The library calls a statement's output depends on: number formatting
   * (write_gerber_value with the file's format and zero suppression), the
   * length of a line (a square root), a point on a circle at an angle in
   * degrees (cosine and sine), the arc centre of a bulged polyline segment
   * (tangent and arc tangent), and the Excellon text of a drill coordinate.
   */
  datatype Lib = Lib(fmt: real -> string, length: (Point, Point) -> real,
                     polar: (Point, real, real) -> Point, centre: (Point, Point, real) -> Point,
                     drill: Point -> string)

  function XY(p: Point, lib: Lib): string
  {
    "X" + lib.fmt(p.x) + "Y" + lib.fmt(p.y)
  }

  /** One flash per dot. */
  function DotsText(dots: seq<Point>, lib: Lib): string
  {
    if dots == [] then "" else XY(dots[0], lib) + "D03*\n" + DotsText(dots[1..], lib)
  }

  /** One drill coordinate per dot. */
  function DrillsText(dots: seq<Point>, lib: Lib): string
  {
    if dots == [] then "" else lib.drill(dots[0]) + "\n" + DrillsText(dots[1..], lib)
  }

  /**
   * The dots of a line in mouse-bite mode; a zero length divides by zero.
   * `pitch` is positive here.
   */
  function LineDots(e: Entity, pitch: real, width: real, lib: Lib): Result<seq<Point>>
    requires pitch > 0.0
  {
    var l := lib.length(e.start, e.end);
    if l == 0.0 then Fail("ZeroDivisionError")
    else Ok(DotsFrom(e.start, DotStep(e.start, e.end, pitch, l), 0.0, pitch, l + width / 2.0))
  }

  /**
   * Gerber output of a line: with pitch 0 a move to the start and a draw
   * to the end, otherwise one flash per dot. Ok(None) stands for the
   * statement returning nothing, Fail for an exception.
   */
  function LineGerber(e: Entity, pitch: real, width: real, lib: Lib): Result<Option<string>>
    requires pitch >= 0.0
  {
    if pitch == 0.0 then Ok(Some("G01*\n" + XY(e.start, lib) + "D02*\n" + XY(e.end, lib) + "D01*"))
    else
      match LineDots(e, pitch, width, lib)
      case Ok(dots) => Ok(Some(DotsText(dots, lib)))
      case Fail(err) => Fail(err)
  }

  /** Excellon output of a line: nothing without a pitch, otherwise one drill per dot. */
  function LineExcellon(e: Entity, pitch: real, width: real, lib: Lib): Result<Option<string>>
    requires pitch >= 0.0
  {
    if pitch == 0.0 then Ok(None)
    else
      match LineDots(e, pitch, width, lib)
      case Ok(dots) => Ok(Some(DrillsText(dots, lib)))
      case Fail(err) => Fail(err)
  }

  /** A full circle: a move to its rightmost point and a counter-clockwise arc back to it. */
  function CircleGerber(e: Entity, pitch: real, lib: Lib): Result<Option<string>>
  {
    if pitch != 0.0 then Ok(None)
    else
      var p := Point(e.center.x + e.radius, e.center.y);
      Ok(Some("G01*\n" + XY(p, lib) + "D02*\nG75*\nG03*\n" + XY(p, lib) +
              "I" + lib.fmt(-e.radius) + "J" + lib.fmt(0.0) + "D01*"))
  }

  /** An arc, always drawn counter-clockwise from its start angle to its end angle. */
  function ArcGerber(e: Entity, pitch: real, lib: Lib): Result<Option<string>>
  {
    if pitch != 0.0 then Ok(None)
    else
      var b := lib.polar(e.center, e.radius, e.startAngle);
      var f := lib.polar(e.center, e.radius, e.endAngle);
      Ok(Some("G01*\n" + XY(b, lib) + "D02*\nG75*\nG" + "03" + "*\n" + XY(f, lib) +
              "I" + lib.fmt(e.center.x - b.x) + "J" + lib.fmt(e.center.y - b.y) + "D01*"))
  }

  function SegmentText(seg: Segment, lib: Lib): string
  {
    match seg.centreOffset
    case None => "\nG01*\n" + XY(seg.target, lib) + "D01*"
    case Some(o) => "\nG" + seg.code + "*\n" + XY(seg.target, lib) + "I" + lib.fmt(o.x) + "J" + lib.fmt(o.y) + "D01*"
  }

  function SegmentsText(segs: seq<Segment>, lib: Lib): string
  {
    if segs == [] then "" else SegmentText(segs[0], lib) + SegmentsText(segs[1..], lib)
  }

  /** The segments of a polyline with at least one vertex. */
  function PolylineSegments(e: Entity, lib: Lib): seq<Segment>
    requires |e.points| >= 1
  {
    var idxs := PtSeq(|e.points|, e.isClosed);
    PtSeqVisits(|e.points|, e.isClosed);
    Segments(e.points, idxs, 0, lib.centre)
  }

  /**
   * A polyline: a move to its first vertex, then one segment per index of
   * ptseq; a polyline without vertices fails on its first index.
   */
  function PolylineGerber(e: Entity, pitch: real, lib: Lib): Result<Option<string>>
  {
    if pitch != 0.0 then Ok(None)
    else if |e.points| == 0 then Fail("IndexError")
    else Ok(Some("G01*\n" + XY(e.points[0].p, lib) + "D02*\nG75*" + SegmentsText(PolylineSegments(e, lib), lib)))
  }

  /** to_gerber of a statement with the given pitch and width. */
  function StatementGerber(s: DxfStatement, pitch: real, width: real, lib: Lib): Result<Option<string>>
    requires pitch >= 0.0
  {
    match s
    case Line(e) => LineGerber(e, pitch, width, lib)
    case Circle(e) => CircleGerber(e, pitch, lib)
    case Arc(e) => ArcGerber(e, pitch, lib)
    case Polyline(e) => PolylineGerber(e, pitch, lib)
  }

  /**
   * A statement's Gerber output is text exactly when: a line always
   * (with a positive pitch, when its length is not zero); a circle or
   * an arc without a pitch; a polyline without a pitch and with a vertex.
   * With a positive pitch only lines give text.
   */
  lemma StatementGerberCases(s: DxfStatement, pitch: real, width: real, lib: Lib)
    requires pitch >= 0.0
    ensures var r := StatementGerber(s, pitch, width, lib);
            (r.Ok? && r.value.Some?) <==>
              (if pitch == 0.0 then !s.Polyline? || |s.entity.points| >= 1
               else s.Line? && lib.length(s.entity.start, s.entity.end) != 0.0)
    ensures var r := StatementGerber(s, pitch, width, lib);
            r.Ok? && r.value.None? <==> pitch != 0.0 && !s.Line?
  {
  }

  // ---------------------------------------------------------------------
  // Joining the parts of a block
  // ---------------------------------------------------------------------

  /**
   * The string join over the parts: an exception in any part comes first
   * (the first one, in order); otherwise a part that gave nothing makes
   * the join fail with a TypeError.
   */
  function Collect(parts: seq<Result<Option<string>>>): Result<seq<string>>
  {
    if parts == [] then Ok([])
    else if parts[0].Fail? then Fail(parts[0].error)
    else
      match Collect(parts[1..])
      case Fail(err) => Fail(err)
      case Ok(rest) => if parts[0].value.None? then Fail("TypeError") else Ok([parts[0].value.value] + rest)
  }

  predicate IsText(part: Result<Option<string>>)
  {
    part.Ok? && part.value.Some?
  }

  /**
   * Collect succeeds exactly when every part is text, and then gives the
   * texts in order; when no part raised but one gave nothing, the error is
   * a TypeError; otherwise it is the error of the first part that raised.
   */
  lemma {:induction false} CollectMeaning(parts: seq<Result<Option<string>>>)
    ensures var c := Collect(parts);
            (c.Ok? <==> forall k :: 0 <= k < |parts| ==> IsText(parts[k])) &&
            (c.Ok? ==> |c.value| == |parts| && forall k :: 0 <= k < |parts| ==> c.value[k] == parts[k].value.value) &&
            ((forall k :: 0 <= k < |parts| ==> parts[k].Ok?) && !c.Ok? ==> c == Fail("TypeError")) &&
            (forall i :: 0 <= i < |parts| && parts[i].Fail? && (forall k :: 0 <= k < i ==> parts[k].Ok?) ==>
               c == Fail(parts[i].error))
  {
    if parts != [] {
      var rest := parts[1..];
      CollectMeaning(rest);
      assert forall k :: 1 <= k < |parts| ==> parts[k] == rest[k - 1];
      var c := Collect(parts);
      if c.Ok? {
        assert c.value == [parts[0].value.value] + Collect(rest).value;
      }
      forall i | 0 <= i < |parts| && parts[i].Fail? && (forall k :: 0 <= k < i ==> parts[k].Ok?)
        ensures c == Fail(parts[i].error)
      {
        if i > 0 {
          assert rest[i - 1] == parts[i];
          assert forall k :: 0 <= k < i - 1 ==> rest[k].Ok?;
        }
      }
    }
  }

  /** '\n'.join */
  function Join(parts: seq<string>, sep: string): string
  {
    if parts == [] then "" else if |parts| == 1 then parts[0] else parts[0] + sep + Join(parts[1..], sep)
  }

  /** A join starts with its first part and ends with its last. */
  lemma {:induction false} JoinEnds(parts: seq<string>, sep: string)
    requires parts != []
    ensures parts[0] <= Join(parts, sep)
    ensures var j := Join(parts, sep);
            var last := parts[|parts| - 1];
            |last| <= |j| && j[|j| - |last|..] == last
  {
    var j := Join(parts, sep);
    if |parts| > 1 {
      var rest := parts[1..];
      JoinEnds(rest, sep);
      var jr := Join(rest, sep);
      assert j == parts[0] + sep + jr;
      assert rest[|rest| - 1] == parts[|parts| - 1];
      assert j[|j| - |parts[|parts| - 1]|..] == jr[|jr| - |parts[|parts| - 1]|..];
    }
  }

  // ---------------------------------------------------------------------
  // The statement block in the three draw modes
  // ---------------------------------------------------------------------

  const DM_LINE: int := 0
  const DM_FILL: int := 1
  const DM_MOUSE_BITES: int := 2

  /** What fill mode draws: circles and closed polylines. */
  predicate Fillable(s: DxfStatement)
  {
    s.Circle? || (s.Polyline? && s.entity.isClosed)
  }

  function FillSelection(ss: seq<DxfStatement>): (r: seq<DxfStatement>)
    ensures |r| <= |ss|
  {
    if ss == [] then []
    else (if Fillable(ss[0]) then [ss[0]] else []) + FillSelection(ss[1..])
  }

  /** The fill selection holds the fillable statements, all of them, in order. */
  lemma {:induction false} FillSelectionMeaning(ss: seq<DxfStatement>)
    ensures forall s :: s in FillSelection(ss) <==> s in ss && Fillable(s)
    ensures forall a :: FillSelection(a + ss) == FillSelection(a) + FillSelection(ss)
  {
    if ss != [] {
      FillSelectionMeaning(ss[1..]);
      assert ss == [ss[0]] + ss[1..];
    }
    forall a ensures FillSelection(a + ss) == FillSelection(a) + FillSelection(ss) {
      FillSelectionAppend(a, ss);
    }
  }

  lemma {:induction false} FillSelectionAppend(a: seq<DxfStatement>, b: seq<DxfStatement>)
    ensures FillSelection(a + b) == FillSelection(a) + FillSelection(b)
    decreases |a|
  {
    if a != [] {
      assert (a + b)[1..] == a[1..] + b;
      FillSelectionAppend(a[1..], b);
    } else {
      assert a + b == b;
    }
  }

  /** Each statement's Gerber output with the same pitch and width. */
  function DrawParts(ss: seq<DxfStatement>, pitch: real, width: real, lib: Lib): (r: seq<Result<Option<string>>>)
    requires pitch >= 0.0
    ensures |r| == |ss|
    ensures forall k :: 0 <= k < |ss| ==> r[k] == StatementGerber(ss[k], pitch, width, lib)
  {
    seq(|ss|, k requires 0 <= k < |ss| => StatementGerber(ss[k], pitch, width, lib))
  }

  /** The aperture selection that opens every block. */
  function SelectCode(dcode: int): string
  {
    "D" + IntToString(dcode) + "*"
  }

  /**
   * The parts of DxfStatements.to_gerber: the aperture selection, then in
   * fill mode the circles and closed polylines between G36* and G37*, and
   * otherwise every statement, with the pitch only in mouse-bite mode.
   */
  function BlockParts(dcode: int, drawMode: int, pitch: real, width: real, ss: seq<DxfStatement>, lib: Lib): seq<Result<Option<string>>>
    requires drawMode == DM_MOUSE_BITES ==> pitch >= 0.0
  {
    [Ok(Some(SelectCode(dcode)))] +
    if drawMode == DM_FILL then [Ok(Some("G36*"))] + DrawParts(FillSelection(ss), 0.0, 0.0, lib) + [Ok(Some("G37*"))]
    else DrawParts(ss, if drawMode == DM_MOUSE_BITES then pitch else 0.0, width, lib)
  }

  function BlockGerber(dcode: int, drawMode: int, pitch: real, width: real, ss: seq<DxfStatement>, lib: Lib): Result<string>
    requires drawMode == DM_MOUSE_BITES ==> pitch >= 0.0
  {
    match Collect(BlockParts(dcode, drawMode, pitch, width, ss, lib))
    case Ok(texts) => Ok(Join(texts, "\n"))
    case Fail(err) => Fail(err)
  }

  /**
   * Gerber output always opens with the aperture selection; in fill mode
   * it continues with G36* and closes with G37*.
   */
  lemma BlockGerberBrackets(dcode: int, drawMode: int, pitch: real, width: real, ss: seq<DxfStatement>, lib: Lib)
    requires drawMode == DM_MOUSE_BITES ==> pitch >= 0.0
    ensures var r := BlockGerber(dcode, drawMode, pitch, width, ss, lib);
            r.Ok? ==> SelectCode(dcode) <= r.value &&
                      (drawMode == DM_FILL ==> SelectCode(dcode) + "\nG36*" <= r.value &&
                                               |r.value| >= 4 && r.value[|r.value| - 4..] == "G37*")
  {
    var parts := BlockParts(dcode, drawMode, pitch, width, ss, lib);
    CollectMeaning(parts);
    var c := Collect(parts);
    if c.Ok? {
      var texts := c.value;
      JoinEnds(texts, "\n");
      if drawMode == DM_FILL {
        assert texts[0] == SelectCode(dcode) && texts[1] == "G36*";
        assert texts[|texts| - 1] == "G37*";
        FillJoinEnds(texts, SelectCode(dcode));
      }
    }
  }

  /** The joined text of a fill block: the selection, then G36*, ending with G37*. */
  lemma FillJoinEnds(texts: seq<string>, code: string)
    requires |texts| >= 2 && texts[0] == code && texts[1] == "G36*" && texts[|texts| - 1] == "G37*"
    ensures var j := Join(texts, "\n");
            code + "\nG36*" <= j && |j| >= 4 && j[|j| - 4..] == "G37*"
  {
    assert Join(texts, "\n") == texts[0] + "\n" + Join(texts[1..], "\n");
    JoinEnds(texts, "\n");
    JoinEnds(texts[1..], "\n");
  }

  predicate AllText(parts: seq<Result<Option<string>>>)
  {
    forall k :: 0 <= k < |parts| ==> IsText(parts[k])
  }

  lemma CollectOk(parts: seq<Result<Option<string>>>)
    ensures Collect(parts).Ok? <==> AllText(parts)
  {
    CollectMeaning(parts);
  }

  lemma AllTextAppend(a: seq<Result<Option<string>>>, b: seq<Result<Option<string>>>)
    ensures AllText(a + b) <==> AllText(a) && AllText(b)
  {
    if AllText(a) && AllText(b) {
      forall k | 0 <= k < |a + b| ensures IsText((a + b)[k]) {
        if k >= |a| { assert (a + b)[k] == b[k - |a|]; }
      }
    }
    if AllText(a + b) {
      assert forall k :: 0 <= k < |a| ==> (a + b)[k] == a[k];
      assert forall k :: 0 <= k < |b| ==> (a + b)[k + |a|] == b[k];
    }
  }

  lemma DrawPartsText(ss: seq<DxfStatement>, pitch: real, width: real, lib: Lib)
    requires pitch >= 0.0
    ensures AllText(DrawParts(ss, pitch, width, lib)) <==>
            forall s :: s in ss ==> IsText(StatementGerber(s, pitch, width, lib))
  {
    var parts := DrawParts(ss, pitch, width, lib);
    if AllText(parts) {
      forall s | s in ss ensures IsText(StatementGerber(s, pitch, width, lib)) {
        var k :| 0 <= k < |ss| && ss[k] == s;
        assert IsText(parts[k]);
      }
    }
  }

  /**
   * In line mode the block gives text exactly when every polyline has a
   * vertex; in fill mode exactly when every closed polyline has one.
   */
  lemma BlockGerberWithoutPitch(dcode: int, drawMode: int, pitch: real, width: real, ss: seq<DxfStatement>, lib: Lib)
    requires drawMode != DM_MOUSE_BITES
    ensures drawMode != DM_FILL ==>
              (BlockGerber(dcode, drawMode, pitch, width, ss, lib).Ok? <==>
               forall s :: s in ss && s.Polyline? ==> |s.entity.points| >= 1)
    ensures drawMode == DM_FILL ==>
              (BlockGerber(dcode, drawMode, pitch, width, ss, lib).Ok? <==>
               forall s :: s in ss && s.Polyline? && s.entity.isClosed ==> |s.entity.points| >= 1)
  {
    if drawMode == DM_FILL {
      BlockGerberFill(dcode, pitch, width, ss, lib);
    } else {
      BlockGerberLines(dcode, drawMode, pitch, width, ss, lib);
    }
  }

  lemma BlockGerberLines(dcode: int, drawMode: int, pitch: real, width: real, ss: seq<DxfStatement>, lib: Lib)
    requires drawMode != DM_MOUSE_BITES && drawMode != DM_FILL
    ensures BlockGerber(dcode, drawMode, pitch, width, ss, lib).Ok? <==>
            forall s :: s in ss && s.Polyline? ==> |s.entity.points| >= 1
  {
    var parts := BlockParts(dcode, drawMode, pitch, width, ss, lib);
    CollectOk(parts);
    var body := DrawParts(ss, 0.0, width, lib);
    var head: seq<Result<Option<string>>> := [Ok(Some(SelectCode(dcode)))];
    DrawPartsText(ss, 0.0, width, lib);
    forall s | s in ss ensures IsText(StatementGerber(s, 0.0, width, lib)) <==> (!s.Polyline? || |s.entity.points| >= 1) {
      StatementGerberCases(s, 0.0, width, lib);
    }
    assert parts == head + body;
    AllTextAppend(head, body);
  }

  lemma BlockGerberFill(dcode: int, pitch: real, width: real, ss: seq<DxfStatement>, lib: Lib)
    ensures BlockGerber(dcode, DM_FILL, pitch, width, ss, lib).Ok? <==>
            forall s :: s in ss && s.Polyline? && s.entity.isClosed ==> |s.entity.points| >= 1
  {
    var parts := BlockParts(dcode, DM_FILL, pitch, width, ss, lib);
    CollectOk(parts);
    var sel := FillSelection(ss);
    var body := DrawParts(sel, 0.0, 0.0, lib);
    var head: seq<Result<Option<string>>> := [Ok(Some(SelectCode(dcode)))];
    FillSelectionMeaning(ss);
    DrawPartsText(sel, 0.0, 0.0, lib);
    forall s | s in sel ensures IsText(StatementGerber(s, 0.0, 0.0, lib)) <==> (!s.Polyline? || |s.entity.points| >= 1) {
      StatementGerberCases(s, 0.0, 0.0, lib);
    }
    var open: seq<Result<Option<string>>> := [Ok(Some("G36*"))];
    var close: seq<Result<Option<string>>> := [Ok(Some("G37*"))];
    assert parts == head + open + body + close;
    AllTextAppend(head + open + body, close);
    AllTextAppend(head + open, body);
    AllTextAppend(head, open);
  }

  /**
   * In mouse-bite mode with a positive pitch the block gives text exactly
   * when it holds only lines, none of zero length: any other statement
   * returns nothing and the join fails.
   */
  lemma BlockGerberMouseBites(dcode: int, pitch: real, width: real, ss: seq<DxfStatement>, lib: Lib)
    requires pitch > 0.0
    ensures BlockGerber(dcode, DM_MOUSE_BITES, pitch, width, ss, lib).Ok? <==>
            forall s :: s in ss ==> s.Line? && lib.length(s.entity.start, s.entity.end) != 0.0
  {
    var parts := BlockParts(dcode, DM_MOUSE_BITES, pitch, width, ss, lib);
    CollectOk(parts);
    var body := DrawParts(ss, pitch, width, lib);
    var head: seq<Result<Option<string>>> := [Ok(Some(SelectCode(dcode)))];
    assert parts == head + body;
    AllTextAppend(head, body);
    DrawPartsText(ss, pitch, width, lib);
    forall s | s in ss
      ensures IsText(StatementGerber(s, pitch, width, lib)) <==> s.Line? && lib.length(s.entity.start, s.entity.end) != 0.0
    {
      StatementGerberCases(s, pitch, width, lib);
    }
  }

  /** The lines of a block, in order. */
  function LinesOf(ss: seq<DxfStatement>): (r: seq<DxfStatement>)
    ensures forall s :: s in r <==> s in ss && s.Line?
  {
    if ss == [] then []
    else (if ss[0].Line? then [ss[0]] else []) + LinesOf(ss[1..])
  }

  function LineExcellonParts(lines: seq<DxfStatement>, pitch: real, width: real, lib: Lib): (r: seq<Result<Option<string>>>)
    requires pitch >= 0.0
    ensures |r| == |lines|
  {
    seq(|lines|, k requires 0 <= k < |lines| => LineExcellon(lines[k].entity, pitch, width, lib))
  }

  /**
   * DxfStatements.to_excellon: nothing outside mouse-bite mode; otherwise
   * the drills of every line, joined.
   */
  function BlockExcellon(drawMode: int, pitch: real, width: real, ss: seq<DxfStatement>, lib: Lib): Result<Option<string>>
    requires drawMode == DM_MOUSE_BITES ==> pitch >= 0.0
  {
    if drawMode != DM_MOUSE_BITES then Ok(None)
    else
      match Collect(LineExcellonParts(LinesOf(ss), pitch, width, lib))
      case Ok(texts) => Ok(Some(Join(texts, "\n")))
      case Fail(err) => Fail(err)
  }

  /**
   * Only lines count: dropping every other statement changes nothing;
   * outside mouse-bite mode there is no output, and with pitch 0 any line
   * makes the join fail.
   */
  lemma BlockExcellonOnlyLines(drawMode: int, pitch: real, width: real, ss: seq<DxfStatement>, lib: Lib)
    requires drawMode == DM_MOUSE_BITES ==> pitch >= 0.0
    ensures BlockExcellon(drawMode, pitch, width, ss, lib) == BlockExcellon(drawMode, pitch, width, LinesOf(ss), lib)
    ensures drawMode != DM_MOUSE_BITES ==> BlockExcellon(drawMode, pitch, width, ss, lib) == Ok(None)
    ensures drawMode == DM_MOUSE_BITES && pitch == 0.0 ==>
              (BlockExcellon(drawMode, pitch, width, ss, lib).Ok? <==> forall s :: s in ss ==> !s.Line?)
  {
    var lines := LinesOf(ss);
    assert LinesOf(lines) == lines by {
      LinesOfIdempotent(ss);
    }
    if drawMode == DM_MOUSE_BITES && pitch == 0.0 {
      var parts := LineExcellonParts(lines, pitch, width, lib);
      CollectMeaning(parts);
      if lines != [] {
        assert !IsText(parts[0]);
        assert lines[0] in ss;
      }
    }
  }

  lemma {:induction false} LinesOfIdempotent(ss: seq<DxfStatement>)
    ensures LinesOf(LinesOf(ss)) == LinesOf(ss)
  {
    if ss != [] {
      LinesOfIdempotent(ss[1..]);
      var r := LinesOf(ss[1..]);
      if ss[0].Line? {
        assert LinesOf(ss) == [ss[0]] + r;
        assert ([ss[0]] + r)[1..] == r;
      } else {
        assert LinesOf(ss) == [] + r == r;
      }
    }
  }

  // ---------------------------------------------------------------------
  // DxfStatements
  // ---------------------------------------------------------------------

  /** The statement block of a DXF file, with its drawing parameters. */
  class DxfStatements {
    var units: Units
    var dcode: int
    var drawMode: int
    var pitch: real
    var width: real
    var statements: seq<DxfStatement>

    /**
     * Keeps the entities of the four known types, in order. The pitch is
     * 1 in every case: the constructor compares the units with 'unit',
     * which they never are.
     */
    constructor (entities: seq<Entity>, units: Units, dcode: int, drawMode: Option<int>)
      ensures this.units == units && this.dcode == dcode
      ensures this.drawMode == (if drawMode.None? then DM_LINE else drawMode.value)
      ensures pitch == 1.0 && width == 0.0
      ensures statements == FilterEntities(entities)
    {
      this.units := units;
      this.dcode := dcode;
      this.drawMode := if drawMode.None? then DM_LINE else drawMode.value;
      pitch := 1.0;
      width := 0.0;
      var kept: seq<DxfStatement> := [];
      for k := 0 to |entities|
        invariant kept == FilterEntities(entities[..k])
      {
        assert entities[..k + 1][..k] == entities[..k];
        var s := StatementOf(entities[k]);
        if s.Some? {
          kept := kept + [s.value];
        }
      }
      assert entities[..|entities|] == entities;
      statements := kept;
    }

    function ToGerber(lib: Lib): Result<string>
      reads this
      requires drawMode == DM_MOUSE_BITES ==> pitch >= 0.0
    {
      BlockGerber(dcode, drawMode, pitch, width, statements, lib)
    }

    function ToExcellon(lib: Lib): Result<Option<string>>
      reads this
      requires drawMode == DM_MOUSE_BITES ==> pitch >= 0.0
    {
      BlockExcellon(drawMode, pitch, width, statements, lib)
    }

    /** to_inch: only a metric block converts; the pitch and every statement follow. */
    method ToInch()
      modifies this
      ensures old(units) == Inch ==> unchanged(this)
      ensures old(units) == Metric ==>
                units == Inch && pitch == ToInchValue(old(pitch)) &&
                dcode == old(dcode) && drawMode == old(drawMode) && width == old(width) &&
                |statements| == |old(statements)| &&
                forall k :: 0 <= k < |statements| ==> statements[k] == StatementToInch(old(statements)[k])
    {
      if units == Metric {
        units := Inch;
        pitch := ToInchValue(pitch);
        for k := 0 to |statements|
          invariant units == Inch && pitch == ToInchValue(old(pitch))
          invariant dcode == old(dcode) && drawMode == old(drawMode) && width == old(width)
          invariant |statements| == |old(statements)|
          invariant forall n :: 0 <= n < k ==> statements[n] == StatementToInch(old(statements)[n])
          invariant forall n :: k <= n < |statements| ==> statements[n] == old(statements)[n]
        {
          statements := statements[k := StatementToInch(statements[k])];
        }
      }
    }

    /** to_metric as written: only an inch block converts, its lines' y coordinates through `inch`. */
    method ToMetricAsWritten()
      modifies this
      ensures old(units) == Metric ==> unchanged(this)
      ensures old(units) == Inch ==>
                units == Metric && pitch == ToMetricValue(old(pitch)) &&
                dcode == old(dcode) && drawMode == old(drawMode) && width == old(width) &&
                statements == StatementsToMetricAsWritten(old(statements))
    {
      if units == Inch {
        units := Metric;
        pitch := ToMetricValue(pitch);
        for k := 0 to |statements|
          invariant units == Metric && pitch == ToMetricValue(old(pitch))
          invariant dcode == old(dcode) && drawMode == old(drawMode) && width == old(width)
          invariant |statements| == |old(statements)|
          invariant forall n :: 0 <= n < k ==> statements[n] == StatementToMetricAsWritten(old(statements)[n])
          invariant forall n :: k <= n < |statements| ==> statements[n] == old(statements)[n]
        {
          statements := statements[k := StatementToMetricAsWritten(statements[k])];
        }
      }
    }

    /** to_metric: only an inch block converts. */
    method ToMetric()
      modifies this
      ensures old(units) == Metric ==> unchanged(this)
      ensures old(units) == Inch ==>
                units == Metric && pitch == ToMetricValue(old(pitch)) &&
                dcode == old(dcode) && drawMode == old(drawMode) && width == old(width) &&
                |statements| == |old(statements)| &&
                forall k :: 0 <= k < |statements| ==> statements[k] == StatementToMetric(old(statements)[k])
    {
      if units == Inch {
        units := Metric;
        pitch := ToMetricValue(pitch);
        for k := 0 to |statements|
          invariant units == Metric && pitch == ToMetricValue(old(pitch))
          invariant dcode == old(dcode) && drawMode == old(drawMode) && width == old(width)
          invariant |statements| == |old(statements)|
          invariant forall n :: 0 <= n < k ==> statements[n] == StatementToMetric(old(statements)[n])
          invariant forall n :: k <= n < |statements| ==> statements[n] == old(statements)[n]
        {
          statements := statements[k := StatementToMetric(statements[k])];
        }
      }
    }
  }

  // ---------------------------------------------------------------------
  // DxfFile
  // ---------------------------------------------------------------------

  const FT_RX274X: int := 0
  const FT_EXCELLON: int := 1

  /** What write emits, in order; the header and tool texts belong to the drawing library. */
  datatype WriteItem =
    | GerberHeader
    | ApertureItem(aperture: Rs274x.GStmt)
    | ExcellonHeader
    | ToolItem(number: int, diameter: real)
    | ExcellonHeader2
    | Text(text: string)

  /** The aperture's own to_inch / to_metric scale its modifiers. */
  function ScaleModifiers(ms: seq<real>, toInch: bool): (r: seq<real>)
    ensures |r| == |ms|
    ensures forall k :: 0 <= k < |ms| ==> r[k] == if toInch then ToInchValue(ms[k]) else ToMetricValue(ms[k])
  {
    seq(|ms|, k requires 0 <= k < |ms| => if toInch then ToInchValue(ms[k]) else ToMetricValue(ms[k]))
  }

  /** A block's statements converted to inch or, with the corrected lines, to metric. */
  function ConvertStatements(ss: seq<DxfStatement>, units: Units): (r: seq<DxfStatement>)
    ensures |r| == |ss|
    ensures forall k :: 0 <= k < |ss| ==>
              r[k] == if units == Inch then StatementToInch(ss[k]) else StatementToMetric(ss[k])
  {
    seq(|ss|, k requires 0 <= k < |ss| => if units == Inch then StatementToInch(ss[k]) else StatementToMetric(ss[k]))
  }

  /**
   * What a unit conversion of a DXF file touches: its settings, its
   * aperture, and its block's pitch, width and statements.
   */
  datatype DxfContent = DxfContent(settings: Settings, aperture: Rs274x.GStmt, pitch: real, width: real,
                                   statements: seq<DxfStatement>)

  /**
   * to_inch (units Inch) or to_metric (units Metric) of a file, corrected:
   * a file already in those units is left alone; otherwise the aperture's
   * diameter, the pitch (once) and every statement are converted, and the
   * width is kept.
   */
  function ConvertContent(c: DxfContent, units: Units): (r: DxfContent)
    requires c.aperture.ApertureDef?
    ensures r.settings == c.settings.(units := units) && r.width == c.width
    ensures r.aperture.ApertureDef? && r.aperture.d == c.aperture.d && r.aperture.shape == c.aperture.shape
    ensures c.settings.units == units ==> r == c
  {
    if c.settings.units == units then c
    else DxfContent(c.settings.(units := units),
                    c.aperture.(modifiers := ScaleModifiers(c.aperture.modifiers, units == Inch)),
                    if units == Inch then ToInchValue(c.pitch) else ToMetricValue(c.pitch),
                    c.width, ConvertStatements(c.statements, units))
  }

  /**
   * Only the last conversion counts: converting a file to some units and
   * then to others gives what converting it straight to the others does,
   * so in particular to_inch then to_metric restores a metric file.
   */
  lemma ConvertContentTwice(c: DxfContent, u: Units, v: Units)
    requires c.aperture.ApertureDef?
    ensures ConvertContent(ConvertContent(c, u), v) == ConvertContent(c, v)
  {
    if c.settings.units != u && u != v {
      var ms := c.aperture.modifiers;
      forall k | 0 <= k < |ms|
        ensures ScaleModifiers(ScaleModifiers(ms, u == Inch), v == Inch)[k] == ms[k]
      {
        MetricInchRoundTrip(ms[k]);
      }
      MetricInchRoundTrip(c.pitch);
      forall k | 0 <= k < |c.statements|
        ensures ConvertStatements(ConvertStatements(c.statements, u), v)[k] == c.statements[k]
      {
        StatementRoundTrip(c.statements[k]);
      }
    }
  }

  const NOT_ABSOLUTE: string := "DXF file's notation must be absolute "

  /** A DXF file: its settings, draw mode, circular aperture and statement block. */
  class DxfFile {
    var settings: Settings
    var drawMode: int
    var aperture: Rs274x.GStmt
    const statements: DxfStatements

    /**
     * The aperture and the block agree on the D code, the block on the
     * draw mode and the units; the aperture is a circle with a diameter.
     */
    ghost predicate Valid()
      reads this, statements
    {
      aperture.ApertureDef? && aperture.shape == "C" && |aperture.modifiers| >= 1 &&
      aperture.d == statements.dcode && drawMode == statements.drawMode && settings.units == statements.units
    }

    /**
     * A file reading in inch ($INSUNITS 1) gets format 2.5, any other
     * metric with format 3.4; without settings the zero suppression is
     * leading and the notation absolute. The aperture is circle D10 of
     * diameter 0.
     */
    constructor (insUnits: int, entities: seq<Entity>, given: Option<Settings>, drawMode: Option<int>)
      ensures Valid() && fresh(statements)
      ensures var base := if given.Some? then given.value else Settings(Inch, (2, 5), Leading, Absolute);
              settings == base.(units := if insUnits == 1 then Inch else Metric,
                                format := if insUnits == 1 then (2, 5) else (3, 4))
      ensures this.drawMode == (if drawMode.None? then DM_LINE else drawMode.value)
      ensures aperture == Rs274x.ApertureDef(10, "C", [0.0])
      ensures statements.statements == FilterEntities(entities) && statements.pitch == 1.0 && statements.width == 0.0
    {
      var base := if given.Some? then given.value else Settings(Inch, (2, 5), Leading, Absolute);
      var units := if insUnits == 1 then Inch else Metric;
      settings := base.(units := units, format := if insUnits == 1 then (2, 5) else (3, 4));
      var dm := if drawMode.None? then DM_LINE else drawMode.value;
      this.drawMode := dm;
      aperture := Rs274x.ApertureDef(10, "C", [0.0]);
      statements := new DxfStatements(entities, units, 10, Some(dm));
    }

    /** The dcode setter: the aperture and the block take the new D code. */
    method SetDcode(value: int)
      requires Valid()
      modifies this, statements
      ensures Valid()
      ensures aperture == old(aperture).(d := value) && statements.dcode == value
      ensures settings == old(settings) && drawMode == old(drawMode)
      ensures statements.statements == old(statements.statements) && statements.pitch == old(statements.pitch) &&
              statements.width == old(statements.width)
    {
      aperture := aperture.(d := value);
      statements.dcode := value;
    }

    /** The width setter: the aperture's diameter and the block's width. */
    method SetWidth(value: real)
      requires Valid()
      modifies this, statements
      ensures Valid()
      ensures aperture == old(aperture).(modifiers := [value]) && statements.width == value
      ensures settings == old(settings) && drawMode == old(drawMode) && statements.dcode == old(statements.dcode)
      ensures statements.statements == old(statements.statements) && statements.pitch == old(statements.pitch)
    {
      aperture := aperture.(modifiers := [value]);
      statements.width := value;
    }

    /** The draw_mode setter: the file and the block take the new mode. */
    method SetDrawMode(value: int)
      requires Valid()
      modifies this, statements
      ensures Valid()
      ensures drawMode == value && statements.drawMode == value
      ensures settings == old(settings) && aperture == old(aperture)
      ensures statements.statements == old(statements.statements) && statements.pitch == old(statements.pitch) &&
              statements.width == old(statements.width) && statements.dcode == old(statements.dcode)
    {
      drawMode := value;
      statements.drawMode := value;
    }

    /** The pitch setter: the pitch lives in the block only. */
    method SetPitch(value: real)
      requires Valid()
      modifies statements
      ensures Valid()
      ensures statements.pitch == value
      ensures statements.statements == old(statements.statements) && statements.width == old(statements.width) &&
              statements.dcode == old(statements.dcode) && statements.drawMode == old(statements.drawMode)
    {
      statements.pitch := value;
    }

    /** What a unit conversion touches. */
    function Content(): DxfContent
      reads this, statements
    {
      DxfContent(settings, aperture, statements.pitch, statements.width, statements.statements)
    }

    /** The width getter: the aperture's diameter. */
    function Width(): real
      reads this, statements
      requires Valid()
    {
      aperture.modifiers[0]
    }

    /**
     * write, reduced to the order of what it emits: it raises unless the
     * notation is absolute; Gerber output is the header, the aperture,
     * the block and M02*; Excellon output is the header, tool 1 with the
     * aperture's diameter, the second header, T01, the block's drills and
     * M30, and a block without drills makes the write fail.
     */
    function Write(filetype: int, lib: Lib): (r: Result<seq<WriteItem>>)
      reads this, statements
      requires Valid() && (statements.drawMode == DM_MOUSE_BITES ==> statements.pitch >= 0.0)
      ensures settings.notation != Absolute ==> r == Fail(NOT_ABSOLUTE)
      ensures r.Ok? <==>
                settings.notation == Absolute &&
                (filetype == FT_RX274X ==> statements.ToGerber(lib).Ok?) &&
                (filetype != FT_RX274X ==> statements.ToExcellon(lib).Ok? && statements.ToExcellon(lib).value.Some?)
      ensures r.Ok? && filetype == FT_RX274X ==>
                statements.ToGerber(lib).Ok? &&
                r.value == [GerberHeader, ApertureItem(aperture), Text(statements.ToGerber(lib).value), Text("M02*")]
      ensures r.Ok? && filetype != FT_RX274X ==>
                statements.drawMode == DM_MOUSE_BITES && |r.value| == 6 &&
                r.value[..4] == [ExcellonHeader, ToolItem(1, Width()), ExcellonHeader2, Text("T01")] &&
                statements.ToExcellon(lib).Ok? && statements.ToExcellon(lib).value.Some? &&
                r.value[4] == Text(statements.ToExcellon(lib).value.value) &&
                r.value[5] == Text("M30")
    {
      if settings.notation != Absolute then Fail(NOT_ABSOLUTE)
      else if filetype == FT_RX274X then
        match statements.ToGerber(lib)
        case Ok(body) => Ok([GerberHeader, ApertureItem(aperture), Text(body), Text("M02*")])
        case Fail(err) => Fail(err)
      else
        match statements.ToExcellon(lib)
        case Ok(Some(body)) => Ok([ExcellonHeader, ToolItem(1, Width()), ExcellonHeader2, Text("T01"), Text(body), Text("M30")])
        case Ok(None) => Fail("TypeError")
        case Fail(err) => Fail(err)
    }

    /** offset is not supported for DXF files. */
    method Offset(dx: real, dy: real) returns (r: Result<()>)
      ensures r.Fail?
    {
      r := Fail("Not supported");
    }

    /**
     * to_inch as written: a metric file converts its aperture and block
     * (which converts the pitch) and then converts the pitch once more.
     */
    method ToInchAsWritten()
      requires Valid()
      modifies this, statements
      ensures Valid()
      ensures drawMode == old(drawMode) && statements.dcode == old(statements.dcode)
      ensures old(settings.units) == Inch ==> Content() == old(Content())
      ensures old(settings.units) == Metric ==>
                Content() == ConvertContent(old(Content()), Inch).(pitch := ToInchValue(ToInchValue(old(statements.pitch))))
    {
      if settings.units == Metric {
        aperture := aperture.(modifiers := ScaleModifiers(aperture.modifiers, true));
        statements.ToInch();
        statements.pitch := ToInchValue(statements.pitch);
        settings := settings.(units := Inch);
      }
    }

    /** to_metric as written: the pitch is multiplied by 25.4 twice. */
    method ToMetricAsWritten()
      requires Valid()
      modifies this, statements
      ensures Valid()
      ensures drawMode == old(drawMode) && statements.dcode == old(statements.dcode)
      ensures old(settings.units) == Metric ==> Content() == old(Content())
      ensures old(settings.units) == Inch ==>
                Content() == ConvertContent(old(Content()), Metric).(
                               pitch := ToMetricValue(ToMetricValue(old(statements.pitch))),
                               statements := StatementsToMetricAsWritten(old(statements.statements)))
    {
      if settings.units == Inch {
        aperture := aperture.(modifiers := ScaleModifiers(aperture.modifiers, false));
        statements.ToMetricAsWritten();
        statements.pitch := ToMetricValue(statements.pitch);
        settings := settings.(units := Metric);
      }
    }

    /**
     * to_inch: a metric file converts its aperture's diameter and its
     * block, the pitch once; an inch file is left alone.
     */
    method ToInch()
      requires Valid()
      modifies this, statements
      ensures Valid()
      ensures old(settings.units) == Inch ==>
                settings == old(settings) && aperture == old(aperture) && drawMode == old(drawMode) &&
                unchanged(statements)
      ensures old(settings.units) == Metric ==>
                settings == old(settings).(units := Inch) && drawMode == old(drawMode) &&
                aperture == old(aperture).(modifiers := ScaleModifiers(old(aperture.modifiers), true)) &&
                statements.pitch == ToInchValue(old(statements.pitch)) && statements.width == old(statements.width) &&
                |statements.statements| == |old(statements.statements)| &&
                forall k :: 0 <= k < |statements.statements| ==>
                  statements.statements[k] == StatementToInch(old(statements.statements)[k])
      ensures Content() == ConvertContent(old(Content()), Inch)
      ensures drawMode == old(drawMode) && statements.dcode == old(statements.dcode)
    {
      if settings.units == Metric {
        aperture := aperture.(modifiers := ScaleModifiers(aperture.modifiers, true));
        statements.ToInch();
        settings := settings.(units := Inch);
      }
    }

    /** to_metric: an inch file converts its aperture's diameter and its block, the pitch once. */
    method ToMetric()
      requires Valid()
      modifies this, statements
      ensures Valid()
      ensures old(settings.units) == Metric ==>
                settings == old(settings) && aperture == old(aperture) && drawMode == old(drawMode) &&
                unchanged(statements)
      ensures old(settings.units) == Inch ==>
                settings == old(settings).(units := Metric) && drawMode == old(drawMode) &&
                aperture == old(aperture).(modifiers := ScaleModifiers(old(aperture.modifiers), false)) &&
                statements.pitch == ToMetricValue(old(statements.pitch)) && statements.width == old(statements.width) &&
                |statements.statements| == |old(statements.statements)| &&
                forall k :: 0 <= k < |statements.statements| ==>
                  statements.statements[k] == StatementToMetric(old(statements.statements)[k])
      ensures Content() == ConvertContent(old(Content()), Metric)
      ensures drawMode == old(drawMode) && statements.dcode == old(statements.dcode)
    {
      if settings.units == Inch {
        aperture := aperture.(modifiers := ScaleModifiers(aperture.modifiers, false));
        statements.ToMetric();
        settings := settings.(units := Metric);
      }
    }
  }

  /**
   * As written, a DXF file's pitch is converted twice: a 25.4 mm pitch,
   * one inch, becomes 1/25.4 inch instead of 1; converting once, as the
   * corrected conversion does, gives 1.
   */
  lemma PitchConvertedTwice()
    ensures ToInchValue(25.4) == 1.0
    ensures ToInchValue(ToInchValue(25.4)) == 1.0 / 25.4 != 1.0
    ensures ToMetricValue(ToMetricValue(1.0 / 25.4)) == 25.4 != ToMetricValue(1.0 / 25.4)
  {
  }
}

=== FILE: dxf_path.dfy ===
/**
 * The path stitcher: a path is a chain of line/arc segments; two open paths
 * whose end points meet within a tolerance are spliced together, dropping
 * the segments that double back over each other at the junction, and the
 * stitching is repeated until the number of paths stops falling. Only the
 * closed paths are kept.
 *
 * Segments are abstract: a path only needs their start and end points,
 * their reversal and their tolerance equality, supplied as a SegOps record.
 */
module DxfPaths {
  import opened Common

  /**
   * What a path asks of its segments: `isEqual(s, t, eps)` is the segment's
   * is_equal_to, `isLineOrArc` tells lines and arcs from the other kinds.
   */
  datatype SegOps<!S> = SegOps(start: S -> Point, end: S -> Point, reverse: S -> S,
                              isEqual: (S, S, real) -> bool, isLineOrArc: S -> bool)

  // ---------------------------------------------------------------------
  // Queries on a path's statement list
  // ---------------------------------------------------------------------

  /** start: the first segment's start point. */
  function Start<S>(ops: SegOps<S>, ss: seq<S>): Point
    requires |ss| >= 1
  {
    ops.start(ss[0])
  }

  /** end: the last segment's end point. */
  function End<S>(ops: SegOps<S>, ss: seq<S>): Point
    requires |ss| >= 1
  {
    ops.end(ss[|ss| - 1])
  }

  /** is_closed: more than one segment, and the path returns to its start. */
  predicate IsClosed<S>(ops: SegOps<S>, ss: seq<S>, eps: real)
    requires |ss| >= 1
  {
    |ss| > 1 && IsEqualPoint(Start(ops, ss), End(ops, ss), eps)
  }

  /**
   * is_equal_to: same length, and either the end points match forwards and
   * the segments match pairwise, or (only when they do not) the end points
   * match crosswise and the segments match against the reversed order.
   */
  predicate IsEqualTo<S>(ops: SegOps<S>, a: seq<S>, b: seq<S>, eps: real)
    requires |a| >= 1 && |b| >= 1
  {
    if |a| != |b| then false
    else if IsEqualPoint(Start(ops, a), Start(ops, b), eps) && IsEqualPoint(End(ops, a), End(ops, b), eps) then
      forall k :: 0 <= k < |a| ==> ops.isEqual(a[k], b[k], eps)
    else if IsEqualPoint(Start(ops, a), End(ops, b), eps) && IsEqualPoint(End(ops, a), Start(ops, b), eps) then
      forall k :: 0 <= k < |a| ==> ops.isEqual(a[k], b[|b| - 1 - k], eps)
    else false
  }

  /** Paths of different lengths are never equal. */
  lemma IsEqualToNeedsSameLength<S>(ops: SegOps<S>, a: seq<S>, b: seq<S>, eps: real)
    requires |a| >= 1 && |b| >= 1 && IsEqualTo(ops, a, b, eps)
    ensures |a| == |b|
  {
  }

  /** A path is equal to itself when every segment is equal to itself. */
  lemma IsEqualToReflexive<S>(ops: SegOps<S>, a: seq<S>, eps: real)
    requires |a| >= 1 && 0.0 <= eps
    requires forall s :: ops.isEqual(s, s, eps)
    ensures IsEqualTo(ops, a, a, eps)
  {
  }

  /** The path traversed backwards: reversed order, each segment reversed. */
  function Reversed<S>(ops: SegOps<S>, ss: seq<S>): (r: seq<S>)
    ensures |r| == |ss|
    ensures forall k :: 0 <= k < |ss| ==> r[k] == ops.reverse(ss[|ss| - 1 - k])
  {
    if ss == [] then [] else [ops.reverse(ss[|ss| - 1])] + Reversed(ops, ss[..|ss| - 1])
  }

  /** Reversing twice restores the path when segment reversal is an involution. */
  lemma ReversedTwice<S>(ops: SegOps<S>, ss: seq<S>)
    requires forall s :: ops.reverse(ops.reverse(s)) == s
    ensures Reversed(ops, Reversed(ops, ss)) == ss
  {
  }

  /**
   * A reversed path starts where the path ended and ends where it started,
   * so it is closed exactly when the path is.
   */
  lemma ReversedSwapsEnds<S>(ops: SegOps<S>, ss: seq<S>, eps: real)
    requires |ss| >= 1
    requires forall s :: ops.start(ops.reverse(s)) == ops.end(s) && ops.end(ops.reverse(s)) == ops.start(s)
    ensures Start(ops, Reversed(ops, ss)) == End(ops, ss)
    ensures End(ops, Reversed(ops, ss)) == Start(ops, ss)
    ensures IsClosed(ops, Reversed(ops, ss), eps) <==> IsClosed(ops, ss, eps)
  {
    EqualPointSymmetric(Start(ops, ss), End(ops, ss), eps);
  }

  // ---------------------------------------------------------------------
  // Splicing two paths
  // ---------------------------------------------------------------------

  /**
   * The first loop of the splice: walking back from the path's last
   * segment and forward from the element's first, the index of the first
   * pair that is not equal (tolerance 0), or min(len) - 1 when every pair
   * compared is equal (the loop variable after a loop with no break).
   */
  function TailBreak<S>(ops: SegOps<S>, xs: seq<S>, ys: seq<S>, k: nat): (r: nat)
    requires k < |xs| && k < |ys|
    ensures k <= r && r < |xs| && r < |ys|
    ensures r + 1 < |xs| && r + 1 < |ys| ==> !ops.isEqual(xs[|xs| - 1 - r], ys[r], 0.0)
    decreases |xs| - k
  {
    if !ops.isEqual(xs[|xs| - 1 - k], ys[k], 0.0) || k + 1 == |xs| || k + 1 == |ys| then k
    else TailBreak(ops, xs, ys, k + 1)
  }

  /** Every pair the scan walked past was equal. */
  lemma {:induction false} TailBreakPairsEqual<S>(ops: SegOps<S>, xs: seq<S>, ys: seq<S>, k: nat)
    requires k < |xs| && k < |ys|
    ensures forall n :: k <= n < TailBreak(ops, xs, ys, k) ==> ops.isEqual(xs[|xs| - 1 - n], ys[n], 0.0)
    decreases |xs| - k
  {
    if TailBreak(ops, xs, ys, k) != k {
      TailBreakPairsEqual(ops, xs, ys, k + 1);
    }
  }

  /**
   * The second loop: forward from the path's first segment and back from
   * the element's last.
   */
  function HeadBreak<S>(ops: SegOps<S>, xs: seq<S>, ys: seq<S>, k: nat): (r: nat)
    requires k < |xs| && k < |ys|
    ensures k <= r && r < |xs| && r < |ys|
    ensures r + 1 < |xs| && r + 1 < |ys| ==> !ops.isEqual(xs[r], ys[|ys| - 1 - r], 0.0)
    decreases |xs| - k
  {
    if !ops.isEqual(xs[k], ys[|ys| - 1 - k], 0.0) || k + 1 == |xs| || k + 1 == |ys| then k
    else HeadBreak(ops, xs, ys, k + 1)
  }

  /** Every pair the scan walked past was equal. */
  lemma {:induction false} HeadBreakPairsEqual<S>(ops: SegOps<S>, xs: seq<S>, ys: seq<S>, k: nat)
    requires k < |xs| && k < |ys|
    ensures forall n :: k <= n < HeadBreak(ops, xs, ys, k) ==> ops.isEqual(xs[n], ys[|ys| - 1 - n], 0.0)
    decreases |xs| - k
  {
    if HeadBreak(ops, xs, ys, k) != k {
      HeadBreakPairsEqual(ops, xs, ys, k + 1);
    }
  }

  /** The list with the element at index k deleted (`del xs[k]`). */
  function DeleteAt<S>(xs: seq<S>, k: nat): (r: seq<S>)
    requires k < |xs|
    ensures |r| == |xs| - 1
  {
    xs[..k] + xs[k + 1..]
  }

  /**
   * _append_at_end (atEnd) and _insert_on_top (!atEnd) as written, for a
   * path element: None is `return False`, which happens before any change.
   * The i overlapping segments are cut from the element's head as a slice,
   * but only ONE segment, at index -i, is cut from the path; likewise one
   * segment at -j from the element but a slice of j from the path.
   */
  function SpliceAsWritten<S>(ops: SegOps<S>, p: seq<S>, el: seq<S>, eps: real, atEnd: bool): Option<seq<S>>
    requires |p| >= 1 && |el| >= 1
  {
    if IsEqualTo(ops, p, el, eps) then None
    else
      var i := TailBreak(ops, p, el, 0);
      var j := HeadBreak(ops, p, el, 0);
      if i + j >= |el| then None
      else
        var mergee1 := if i > 0 then el[i..] else el;
        var path1 := if i > 0 then DeleteAt(p, |p| - i) else p;
        var mergee2 := if j > 0 then DeleteAt(mergee1, |mergee1| - j) else mergee1;
        var path2 := if j > 0 then path1[j..] else path1;
        Some(if atEnd then path2 + mergee2 else mergee2 + path2)
  }

  /**
   * The splice with both overlaps cut as slices from both sides: the path
   * loses its last i and first j segments, the element its first i and
   * last j.
   */
  function Splice<S>(ops: SegOps<S>, p: seq<S>, el: seq<S>, eps: real, atEnd: bool): (r: Option<seq<S>>)
    requires |p| >= 1 && |el| >= 1
    ensures r.Some? ==> |r.value| >= 1
  {
    if IsEqualTo(ops, p, el, eps) then None
    else SpliceAt(p, el, TailBreak(ops, p, el, 0), HeadBreak(ops, p, el, 0), atEnd)
  }

  /**
   * The splice once the two overlap scans have stopped at i and j: nothing
   * when the overlaps cover the whole element, otherwise the kept middle of
   * the path joined to the element's middle.
   */
  function SpliceAt<S>(p: seq<S>, el: seq<S>, i: nat, j: nat, atEnd: bool): (r: Option<seq<S>>)
    ensures r.Some? <==> i + j < |el|
    ensures r.Some? ==> |r.value| >= |el| - i - j
  {
    if i + j >= |el| then None
    else
      var kept := if j <= |p| - i then p[j..|p| - i] else [];
      var mergee := el[i..|el| - j];
      Some(if atEnd then kept + mergee else mergee + kept)
  }

  /**
   * Every segment the splice cuts from the path was found equal to the
   * segment it cuts from the element at the same distance from the
   * junction, and the result keeps everything else in order.
   */
  lemma SpliceCutsOnlyOverlaps<S>(ops: SegOps<S>, p: seq<S>, el: seq<S>, eps: real, atEnd: bool)
    requires |p| >= 1 && |el| >= 1
    requires Splice(ops, p, el, eps, atEnd).Some?
    ensures TailBreak(ops, p, el, 0) + HeadBreak(ops, p, el, 0) < |el|
    ensures var i, j := TailBreak(ops, p, el, 0), HeadBreak(ops, p, el, 0);
            var kept := if j <= |p| - i then p[j..|p| - i] else [];
            Splice(ops, p, el, eps, atEnd).value ==
              if atEnd then kept + el[i..|el| - j] else el[i..|el| - j] + kept
    ensures forall n :: 0 <= n < TailBreak(ops, p, el, 0) ==> ops.isEqual(p[|p| - 1 - n], el[n], 0.0)
    ensures forall n :: 0 <= n < HeadBreak(ops, p, el, 0) ==> ops.isEqual(p[n], el[|el| - 1 - n], 0.0)
  {
    SpliceIsAt(ops, p, el, eps, atEnd);
    SpliceAtValue(p, el, TailBreak(ops, p, el, 0), HeadBreak(ops, p, el, 0), atEnd);
    TailBreakPairsEqual(ops, p, el, 0);
    HeadBreakPairsEqual(ops, p, el, 0);
  }

  /** Once the paths are known to differ, the splice is decided by the two scans. */
  lemma SpliceIsAt<S>(ops: SegOps<S>, p: seq<S>, el: seq<S>, eps: real, atEnd: bool)
    requires |p| >= 1 && |el| >= 1 && !IsEqualTo(ops, p, el, eps)
    ensures Splice(ops, p, el, eps, atEnd) == SpliceAt(p, el, TailBreak(ops, p, el, 0), HeadBreak(ops, p, el, 0), atEnd)
  {
  }

  /** The shape of a splice that succeeds. */
  lemma SpliceAtValue<S>(p: seq<S>, el: seq<S>, i: nat, j: nat, atEnd: bool)
    requires i + j < |el|
    ensures var kept := if j <= |p| - i then p[j..|p| - i] else [];
            SpliceAt(p, el, i, j, atEnd).value == if atEnd then kept + el[i..|el| - j] else el[i..|el| - j] + kept
  {
  }

  /**
   * When neither junction doubles back (the path's last segment differs
   * from the element's first, and its first from the element's last) and
   * the paths are not equal, appending gives the path followed by the
   * element and inserting the element followed by the path.
   */
  lemma {:induction false} SpliceWithoutOverlap<S>(ops: SegOps<S>, p: seq<S>, el: seq<S>, eps: real)
    requires |p| >= 1 && |el| >= 1
    requires !IsEqualTo(ops, p, el, eps)
    requires !ops.isEqual(p[|p| - 1], el[0], 0.0) && !ops.isEqual(p[0], el[|el| - 1], 0.0)
    ensures Splice(ops, p, el, eps, true) == Some(p + el)
    ensures Splice(ops, p, el, eps, false) == Some(el + p)
    ensures SpliceAsWritten(ops, p, el, eps, true) == Some(p + el)
    ensures SpliceAsWritten(ops, p, el, eps, false) == Some(el + p)
  {
    assert TailBreak(ops, p, el, 0) == 0;
    assert HeadBreak(ops, p, el, 0) == 0;
    assert p[0..|p|] == p;
    assert el[0..|el| - 0] == el;
  }

  /** Two segments from x = a to x = b on the horizontal axis, for the example. */
  datatype Seg = Seg(a: real, b: real)

  /** Undirected segment equality; reversal swaps the ends. */
  function SegmentOps(): SegOps<Seg>
  {
    SegOps((s: Seg) => Point(s.a, 0.0), (s: Seg) => Point(s.b, 0.0), (s: Seg) => Seg(s.b, s.a),
           (s: Seg, t: Seg, eps: real) => (s.a == t.a && s.b == t.b) || (s.a == t.b && s.b == t.a),
           (s: Seg) => true)
  }

  /**
   * The path 0-1-2-3 and the element 3-2-1-5, which doubles back over two
   * segments: as written the splice keeps the segment 2-3 and drops 1-2,
   * so the result jumps from 1 to 2; with both cuts as slices the two
   * doubled segments disappear from both sides and the result is 0-1-5.
   */
  lemma SpliceAsWrittenBreaksChain(p: seq<Seg>, el: seq<Seg>)
    requires p == [Seg(0.0, 1.0), Seg(1.0, 2.0), Seg(2.0, 3.0)]
    requires el == [Seg(3.0, 2.0), Seg(2.0, 1.0), Seg(1.0, 5.0)]
    ensures SpliceAsWritten(SegmentOps(), p, el, 0.0, true) == Some([Seg(0.0, 1.0), Seg(2.0, 3.0), Seg(1.0, 5.0)])
    ensures Splice(SegmentOps(), p, el, 0.0, true) == Some([Seg(0.0, 1.0), Seg(1.0, 5.0)])
  {
    var ops := SegmentOps();
    assert !IsEqualPoint(Start(ops, p), End(ops, el), 0.0);
    assert !IsEqualPoint(Start(ops, p), Start(ops, el), 0.0);
    assert !IsEqualTo(ops, p, el, 0.0);
    assert TailBreak(ops, p, el, 2) == 2;
    assert TailBreak(ops, p, el, 1) == 2;
    assert TailBreak(ops, p, el, 0) == 2;
    assert HeadBreak(ops, p, el, 0) == 0;
    assert DeleteAt(p, 1) == [Seg(0.0, 1.0), Seg(2.0, 3.0)];
    assert el[2..] == [Seg(1.0, 5.0)];
    assert SpliceAsWritten(ops, p, el, 0.0, true) == Some(DeleteAt(p, 1) + el[2..]);
    assert p[0..1] == [Seg(0.0, 1.0)];
    assert el[2..3] == [Seg(1.0, 5.0)];
    assert Splice(ops, p, el, 0.0, true) == Some(p[0..1] + el[2..3]);
    assert [Seg(0.0, 1.0), Seg(2.0, 3.0)] + [Seg(1.0, 5.0)] == [Seg(0.0, 1.0), Seg(2.0, 3.0), Seg(1.0, 5.0)];
    assert [Seg(0.0, 1.0)] + [Seg(1.0, 5.0)] == [Seg(0.0, 1.0), Seg(1.0, 5.0)];
  }

  /** The outcome of merge: whether it merged, the new path, the new element. */
  datatype MergeOutcome<S> = MergeOutcome(merged: bool, path: seq<S>, element: seq<S>)

  function Spliced<S>(r: Option<seq<S>>, p: seq<S>, el: seq<S>): MergeOutcome<S>
  {
    match r
    case Some(q) => MergeOutcome(true, q, el)
    case None => MergeOutcome(false, p, el)
  }

  /**
   * merge: nothing when either path is closed; otherwise, with the
   * tolerance defaulting to the path's own, try end->start, end->end
   * (element reversed), start->end, start->start (element reversed). A
   * reversed element stays reversed even when the splice then fails.
   */
  function MergeSpec<S>(ops: SegOps<S>, p: seq<S>, pEps: real, el: seq<S>, elEps: real, eps: real): (r: MergeOutcome<S>)
    requires |p| >= 1 && |el| >= 1
    ensures |r.path| >= 1 && |r.element| == |el|
  {
    var e := if eps == 0.0 then pEps else eps;
    if IsClosed(ops, p, pEps) || IsClosed(ops, el, elEps) then MergeOutcome(false, p, el)
    else if IsEqualPoint(End(ops, p), Start(ops, el), e) then
      Spliced(Splice(ops, p, el, e, true), p, el)
    else if IsEqualPoint(End(ops, p), End(ops, el), e) then
      var r := Reversed(ops, el);
      Spliced(Splice(ops, p, r, e, true), p, r)
    else if IsEqualPoint(Start(ops, p), End(ops, el), e) then
      Spliced(Splice(ops, p, el, e, false), p, el)
    else if IsEqualPoint(Start(ops, p), Start(ops, el), e) then
      var r := Reversed(ops, el);
      Spliced(Splice(ops, p, r, e, false), p, r)
    else MergeOutcome(false, p, el)
  }

  /** merge never touches a closed path or a closed element. */
  lemma MergeClosedUnchanged<S>(ops: SegOps<S>, p: seq<S>, pEps: real, el: seq<S>, elEps: real, eps: real)
    requires |p| >= 1 && |el| >= 1
    requires IsClosed(ops, p, pEps) || IsClosed(ops, el, elEps)
    ensures MergeSpec(ops, p, pEps, el, elEps, eps) == MergeOutcome(false, p, el)
  {
  }

  /**
   * A merge that fails leaves the path as it was, and the element as it
   * was or reversed.
   */
  lemma MergeFailureKeepsPath<S>(ops: SegOps<S>, p: seq<S>, pEps: real, el: seq<S>, elEps: real, eps: real)
    requires |p| >= 1 && |el| >= 1
    requires !MergeSpec(ops, p, pEps, el, elEps, eps).merged
    ensures MergeSpec(ops, p, pEps, el, elEps, eps).path == p
    ensures MergeSpec(ops, p, pEps, el, elEps, eps).element in {el, Reversed(ops, el)}
  {
  }

  /**
   * When the path's end meets the element's start, the element is appended
   * as it is; when only its start meets the element's end, the element is
   * put in front as it is.
   */
  lemma MergeOrder<S>(ops: SegOps<S>, p: seq<S>, pEps: real, el: seq<S>, elEps: real, eps: real)
    requires |p| >= 1 && |el| >= 1
    requires !IsClosed(ops, p, pEps) && !IsClosed(ops, el, elEps)
    ensures var e := if eps == 0.0 then pEps else eps;
            var m := MergeSpec(ops, p, pEps, el, elEps, eps);
            (IsEqualPoint(End(ops, p), Start(ops, el), e) ==>
              m.element == el && m.merged == Splice(ops, p, el, e, true).Some?) &&
            (!IsEqualPoint(End(ops, p), Start(ops, el), e) && !IsEqualPoint(End(ops, p), End(ops, el), e) &&
             IsEqualPoint(Start(ops, p), End(ops, el), e) ==>
              m.element == el && m.merged == Splice(ops, p, el, e, false).Some?)
  {
  }

  // ---------------------------------------------------------------------
  // The path object
  // ---------------------------------------------------------------------

  /**
   * DxfPath: its statement list, never empty, and its tolerance. The
   * segment operations are passed to every method that needs them.
   */
  class DxfPath<S> {
    var statements: seq<S>
    var errorRange: real

    predicate Valid()
      reads this
    {
      |statements| >= 1
    }

    constructor (statement: S, errorRange: real)
      ensures Valid() && statements == [statement] && this.errorRange == errorRange
    {
      statements := [statement];
      this.errorRange := errorRange;
    }

    method ToInch()
      modifies this
      ensures statements == old(statements) && errorRange == ToInchValue(old(errorRange))
    {
      errorRange := ToInchValue(errorRange);
    }

    method ToMetric()
      modifies this
      ensures statements == old(statements) && errorRange == ToMetricValue(old(errorRange))
    {
      errorRange := ToMetricValue(errorRange);
    }

    /** reverse: rebuild the list from the last segment, reversing each. */
    method Reverse(ops: SegOps<S>)
      requires Valid()
      modifies this
      ensures Valid() && statements == Reversed(ops, old(statements)) && errorRange == old(errorRange)
    {
      var rlist: seq<S> := [];
      var k := |statements|;
      while k > 0
        invariant 0 <= k <= |statements|
        invariant |rlist| == |statements| - k
        invariant forall n :: 0 <= n < |rlist| ==> rlist[n] == ops.reverse(statements[|statements| - 1 - n])
      {
        k := k - 1;
        rlist := rlist + [ops.reverse(statements[k])];
      }
      statements := rlist;
    }

    /** The index the first overlap loop stops at. */
    static method ScanTail(ops: SegOps<S>, xs: seq<S>, ys: seq<S>) returns (i: nat)
      requires |xs| >= 1 && |ys| >= 1
      ensures i == TailBreak(ops, xs, ys, 0)
    {
      i := 0;
      while i + 1 < |xs| && i + 1 < |ys| && ops.isEqual(xs[|xs| - 1 - i], ys[i], 0.0)
        invariant 0 <= i < |xs| && i < |ys|
        invariant TailBreak(ops, xs, ys, i) == TailBreak(ops, xs, ys, 0)
        decreases |xs| - i
      {
        i := i + 1;
      }
    }

    /** The index the second overlap loop stops at. */
    static method ScanHead(ops: SegOps<S>, xs: seq<S>, ys: seq<S>) returns (j: nat)
      requires |xs| >= 1 && |ys| >= 1
      ensures j == HeadBreak(ops, xs, ys, 0)
    {
      j := 0;
      while j + 1 < |xs| && j + 1 < |ys| && ops.isEqual(xs[j], ys[|ys| - 1 - j], 0.0)
        invariant 0 <= j < |xs| && j < |ys|
        invariant HeadBreak(ops, xs, ys, j) == HeadBreak(ops, xs, ys, 0)
        decreases |xs| - j
      {
        j := j + 1;
      }
    }

    /**
     * _append_at_end (atEnd) or _insert_on_top: splice the element's
     * segments after or before this path's, cutting the doubled-back
     * segments at the junctions.
     */
    method SpliceIn(ops: SegOps<S>, element: DxfPath<S>, eps: real, atEnd: bool) returns (merged: bool)
      requires Valid() && element.Valid() && element != this
      modifies this
      ensures Valid()
      ensures merged == Splice(ops, old(statements), element.statements, eps, atEnd).Some?
      ensures statements == if merged then Splice(ops, old(statements), element.statements, eps, atEnd).value
                            else old(statements)
      ensures errorRange == old(errorRange)
    {
      var p, el := statements, element.statements;
      if IsEqualTo(ops, p, el, eps) {
        return false;
      }
      var i := ScanTail(ops, p, el);
      var j := ScanHead(ops, p, el);
      if i + j >= |el| {
        return false;
      }
      // The corrected splice: the overlaps are cut as slices from both
      // sides, where the source deletes a single element from the end of
      // the element and of the path (see SpliceAsWritten); then extend or
      // insert at the front
      var mergee := el[i..|el| - j];
      var kept := if j <= |p| - i then p[j..|p| - i] else [];
      statements := if atEnd then kept + mergee else mergee + kept;
      merged := true;
      SpliceIsAt(ops, p, el, eps, atEnd);
      SpliceAtValue(p, el, i, j, atEnd);
    }

    /** merge: see MergeSpec. */
    method Merge(ops: SegOps<S>, element: DxfPath<S>, eps: real) returns (merged: bool)
      requires Valid() && element.Valid() && element != this
      modifies this, element
      ensures Valid() && element.Valid()
      ensures MergeOutcome(merged, statements, element.statements) ==
              MergeSpec(ops, old(statements), old(errorRange), old(element.statements), old(element.errorRange), eps)
      ensures errorRange == old(errorRange) && element.errorRange == old(element.errorRange)
    {
      if IsClosed(ops, statements, errorRange) || IsClosed(ops, element.statements, element.errorRange) {
        return false;
      }
      var e := if eps == 0.0 then errorRange else eps;
      if IsEqualPoint(End(ops, statements), Start(ops, element.statements), e) {
        merged := SpliceIn(ops, element, e, true);
      } else if IsEqualPoint(End(ops, statements), End(ops, element.statements), e) {
        element.Reverse(ops);
        merged := SpliceIn(ops, element, e, true);
      } else if IsEqualPoint(Start(ops, statements), End(ops, element.statements), e) {
        merged := SpliceIn(ops, element, e, false);
      } else if IsEqualPoint(Start(ops, statements), Start(ops, element.statements), e) {
        element.Reverse(ops);
        merged := SpliceIn(ops, element, e, false);
      } else {
        merged := false;
      }
    }
  }

  // ---------------------------------------------------------------------
  // generate_closed_paths
  // ---------------------------------------------------------------------

  /**
   * The de-duplication test: a segment is kept when nothing is kept yet,
   * or when it is a line or an arc equal to none of the kept ones (any
   * other kind breaks out of the scan and is dropped).
   */
  predicate Keeps<S>(ops: SegOps<S>, kept: seq<S>, s: S, eps: real)
  {
    |kept| == 0 || (ops.isLineOrArc(s) && forall k :: 0 <= k < |kept| ==> !ops.isEqual(s, kept[k], eps))
  }

  /** The unique statements: the input scanned left to right. */
  function Deduped<S>(ops: SegOps<S>, ss: seq<S>, eps: real): seq<S>
  {
    if ss == [] then []
    else
      var kept := Deduped(ops, ss[..|ss| - 1], eps);
      if Keeps(ops, kept, ss[|ss| - 1], eps) then kept + [ss[|ss| - 1]] else kept
  }

  /**
   * No kept segment equals one kept before it, every kept segment after
   * the first is a line or an arc, and every kept segment comes from the
   * input.
   */
  lemma {:induction false} DedupedProperties<S>(ops: SegOps<S>, ss: seq<S>, eps: real)
    ensures var u := Deduped(ops, ss, eps);
            |u| <= |ss| &&
            (forall a, b :: 0 <= a < b < |u| ==> !ops.isEqual(u[b], u[a], eps)) &&
            (forall b :: 0 < b < |u| ==> ops.isLineOrArc(u[b])) &&
            (forall b :: 0 <= b < |u| ==> u[b] in ss)
  {
    if ss != [] {
      var init := ss[..|ss| - 1];
      DedupedProperties(ops, init, eps);
      var kept := Deduped(ops, init, eps);
      forall b | 0 <= b < |kept| ensures kept[b] in ss {
        assert kept[b] in init;
      }
    }
  }

  /** The first loop of generate_closed_paths. */
  method Dedupe<S>(ops: SegOps<S>, statements: seq<S>, eps: real) returns (unique: seq<S>)
    ensures unique == Deduped(ops, statements, eps)
  {
    unique := [];
    var n := 0;
    while n < |statements|
      invariant 0 <= n <= |statements|
      invariant unique == Deduped(ops, statements[..n], eps)
    {
      var s := statements[n];
      var k := 0;
      var broke := false;
      while k < |unique| && !broke
        invariant 0 <= k <= |unique|
        decreases |unique| - k, if broke then 0 else 1
        invariant !broke ==> (k > 0 ==> ops.isLineOrArc(s)) && forall m :: 0 <= m < k ==> !ops.isEqual(s, unique[m], eps)
        invariant broke ==> !Keeps(ops, unique, s, eps)
      {
        if !ops.isLineOrArc(s) || ops.isEqual(s, unique[k], eps) {
          broke := true;
        } else {
          k := k + 1;
        }
      }
      assert statements[..n + 1][..n] == statements[..n];
      assert statements[..n + 1][n] == s;
      if !broke {
        assert Keeps(ops, unique, s, eps);
        unique := unique + [s];
      }
      n := n + 1;
    }
    assert statements[..n] == statements;
  }

  /** Distinct, valid path objects. */
  ghost predicate DistinctValid<S>(paths: seq<DxfPath<S>>)
    reads set p | p in paths
  {
    (forall p :: p in paths ==> p.Valid()) && Distinct(paths)
  }

  ghost predicate Distinct<S>(paths: seq<DxfPath<S>>)
  {
    forall a, b :: 0 <= a < b < |paths| ==> paths[a] != paths[b]
  }

  /**
   * One pass of generate_closed_paths: each path is offered to the later
   * paths in turn, and the paths no later one merged are carried over, in
   * order.
   */
  method MergePass<S>(ops: SegOps<S>, paths: seq<DxfPath<S>>, eps: real) returns (working: seq<DxfPath<S>>)
    requires DistinctValid(paths)
    modifies set p | p in paths
    ensures DistinctValid(paths) && DistinctValid(working)
    ensures |working| <= |paths| && forall p :: p in working ==> p in paths
  {
    working := [];
    var i := 0;
    while i < |paths|
      invariant 0 <= i <= |paths|
      invariant DistinctValid(paths)
      invariant |working| <= i
      invariant forall p :: p in working ==> exists k :: 0 <= k < i && paths[k] == p
      invariant Distinct(working)
      invariant forall p :: p in working ==> p in paths
    {
      var mergee := paths[i];
      var merged := OfferToLater(ops, paths, i, eps);
      if !merged {
        forall p | p in working ensures p != mergee {
          var k :| 0 <= k < i && paths[k] == p;
        }
        ghost var before := working;
        working := working + [mergee];
        forall a, b | 0 <= a < b < |working| ensures working[a] != working[b] {
          assert working[a] == before[a] && before[a] in before;
        }
      }
      i := i + 1;
    }
  }

  /** The inner loop: offer paths[i] to each later path until one merges it. */
  method OfferToLater<S>(ops: SegOps<S>, paths: seq<DxfPath<S>>, i: nat, eps: real) returns (merged: bool)
    requires i < |paths| && DistinctValid(paths)
    modifies set p | p in paths
    ensures DistinctValid(paths)
  {
    var mergee := paths[i];
    var j := i + 1;
    merged := false;
    while j < |paths| && !merged
      invariant i + 1 <= j <= |paths|
      invariant DistinctValid(paths)
    {
      merged := paths[j].Merge(ops, mergee, eps);
      j := j + 1;
    }
  }

  /**
   * generate_closed_paths: one path per unique segment, then passes in
   * which each path is offered to every later path until one merges it;
   * a path nobody merges is carried to the next pass. The passes stop when
   * one leaves the count unchanged (each continuing pass has lowered it),
   * and only the closed paths are returned.
   */
  method GenerateClosedPaths<S>(ops: SegOps<S>, statements: seq<S>, eps: real)
    returns (closed: seq<DxfPath<S>>)
    ensures forall p :: p in closed ==> p.Valid() && IsClosed(ops, p.statements, p.errorRange)
    ensures |closed| <= |Deduped(ops, statements, eps)|
  {
    var unique := Dedupe(ops, statements, eps);
    var paths: seq<DxfPath<S>> := [];
    var n := 0;
    while n < |unique|
      invariant 0 <= n <= |unique| && |paths| == n
      invariant DistinctValid(paths)
      invariant forall p :: p in paths ==> fresh(p)
    {
      var p := new DxfPath(unique[n], eps);
      paths := paths + [p];
      n := n + 1;
    }

    ghost var created := set p | p in paths;
    var prev := 0;
    while prev != |paths|
      invariant DistinctValid(paths)
      invariant forall p :: p in paths ==> p in created
      invariant |paths| <= |unique|
      modifies created
      decreases |paths| + (if prev != |paths| then 1 else 0)
    {
      var working := MergePass(ops, paths, eps);
      prev := |paths|;
      paths := working;
    }

    closed := [];
    var k := 0;
    while k < |paths|
      invariant 0 <= k <= |paths|
      invariant |closed| <= k
      invariant DistinctValid(paths)
      invariant forall p :: p in closed ==> p.Valid() && IsClosed(ops, p.statements, p.errorRange)
    {
      assert paths[k] in paths;
      if IsClosed(ops, paths[k].statements, paths[k].errorRange) {
        closed := closed + [paths[k]];
      }
      k := k + 1;
    }
    DedupedProperties(ops, statements, eps);
  }
}

=== FILE: excellon.dfy ===
/**
 * Excellon drill files: the clean-up of statements the drawing library
 * could not classify, the drill/rout state machine that turns the
 * statement list into hits, slots and rout paths, the rout paths
 * themselves, the guarded unit conversion and rotation of a drill file,
 * and the serialisers of coordinate and unit statements.
 */
module Excellon {
  import opened Common

  /** G00 (rapid move), G01 (linear), G02 (clockwise arc), G03 (counter-clockwise arc). */
  datatype RoutMode = G00 | G01 | G02 | G03

  function ModeCode(m: RoutMode): string
  {
    match m
    case G00 => "G00"
    case G01 => "G01"
    case G02 => "G02"
    case G03 => "G03"
  }

  /** A drill tool; only its number and diameter matter here. */
  datatype Tool = Tool(number: int, diameter: real)

  /** CoordinateStmtEx: every field may be absent. */
  datatype Coordinate = Coordinate(x: Option<real>, y: Option<real>, radius: Option<real>,
                                   i: Option<real>, j: Option<real>)

  /** The statements the model distinguishes; everything else is Other. */
  datatype ExStmt =
    | ToolDefinition(tool: Tool)
    | ToolSelection(number: int)
    | DrillMode
    | RouteMode
    | LinearMode
    | CircularCWMode
    | CircularCCWMode
    | ZAxisRoutPosition
    | RetractWithClamping
    | RetractWithoutClamping
    | Slot(xStart: Option<real>, yStart: Option<real>, xEnd: Option<real>, yEnd: Option<real>)
    | CoordinateStmt(coord: Coordinate)
    | Unknown(text: string)
    | Other(name: string)

  /** DrillRout.Node; the mode is None when no route mode was ever set. */
  datatype Node = Node(mode: Option<RoutMode>, position: Point, radius: Option<real>,
                       centerOffset: Option<Point>)

  /** DrillHitEx, DrillSlotEx (G85) and DrillRout. */
  datatype Hit =
    | DrillHit(tool: Option<Tool>, position: Point)
    | DrillSlot(tool: Option<Tool>, start: Point, end: Point)
    | Rout(tool: Option<Tool>, nodes: seq<Node>)

  // ---------------------------------------------------------------------
  // correct_statements
  // ---------------------------------------------------------------------

  /** The characters Python counts as whitespace, which str.strip() removes. */
  predicate IsSpace(c: char)
  {
    ('\t' <= c <= '\r') || ('\U{001C}' <= c <= ' ') || c == '\U{0085}' || c == '\U{00A0}' || c == '\U{1680}' ||
    ('\U{2000}' <= c <= '\U{200A}') || c == '\U{2028}' || c == '\U{2029}' || c == '\U{202F}' ||
    c == '\U{205F}' || c == '\U{3000}'
  }

  function TrimStart(s: string): (r: string)
    ensures |r| <= |s| && (r == [] || !IsSpace(r[0]))
  {
    if s != [] && IsSpace(s[0]) then TrimStart(s[1..]) else s
  }

  function TrimEnd(s: string): (r: string)
    ensures |r| <= |s| && (r == [] || !IsSpace(r[|r| - 1]))
  {
    if s != [] && IsSpace(s[|s| - 1]) then TrimEnd(s[..|s| - 1]) else s
  }

  /** str.strip(). */
  function Strip(s: string): string
  {
    TrimEnd(TrimStart(s))
  }

  predicate StartsWith(s: string, p: string)
  {
    |p| <= |s| && s[..|p|] == p
  }

  predicate IsCoordinateLetter(c: char)
  {
    c == 'X' || c == 'Y' || c == 'A' || c == 'I'
  }

  /**
   * One statement of correct_statements. A line the library left unknown
   * is re-read: G02/G03 become the circular mode statements, followed by
   * the coordinate written after the code if there is one; a line starting
   * with X, Y, A or I becomes a coordinate (`parse` is
   * CoordinateStmtEx.from_excellon with the file's settings); an empty line
   * fails (IndexError); anything else passes through.
   */
  function CorrectStatement(stmt: ExStmt, parse: string -> Coordinate): Result<seq<ExStmt>>
  {
    match stmt
    case Unknown(text) =>
      var line := Strip(text);
      if StartsWith(line, "G02") then
        Ok([CircularCWMode] + (if |line| > 3 then [CoordinateStmt(parse(line[3..]))] else []))
      else if StartsWith(line, "G03") then
        Ok([CircularCCWMode] + (if |line| > 3 then [CoordinateStmt(parse(line[3..]))] else []))
      else if line == [] then Fail("IndexError")
      else if IsCoordinateLetter(line[0]) then Ok([CoordinateStmt(parse(line))])
      else Ok([stmt])
    case _ => Ok([stmt])
  }

  /** correct_statements over the whole list; the first failure aborts. */
  function CorrectStatements(stmts: seq<ExStmt>, parse: string -> Coordinate): Result<seq<ExStmt>>
  {
    if stmts == [] then Ok([])
    else match CorrectStatements(stmts[..|stmts| - 1], parse)
      case Fail(e) => Fail(e)
      case Ok(init) =>
        match CorrectStatement(stmts[|stmts| - 1], parse)
        case Fail(e) => Fail(e)
        case Ok(more) => Ok(init + more)
  }

  /** An unknown statement that re-reading would still have changed. */
  predicate Recognisable(stmt: ExStmt)
  {
    stmt.Unknown? &&
    var line := Strip(stmt.text);
    StartsWith(line, "G02") || StartsWith(line, "G03") || line == [] || IsCoordinateLetter(line[0])
  }

  /**
   * After the clean-up no unknown statement is left that starts with G02,
   * G03, X, Y, A or I, and a list without unknown statements is returned
   * as it is.
   */
  lemma {:induction false} CorrectStatementsClean(stmts: seq<ExStmt>, parse: string -> Coordinate)
    ensures CorrectStatements(stmts, parse).Ok? ==>
              forall k :: 0 <= k < |CorrectStatements(stmts, parse).value| ==>
                !Recognisable(CorrectStatements(stmts, parse).value[k])
    ensures (forall k :: 0 <= k < |stmts| ==> !stmts[k].Unknown?) ==> CorrectStatements(stmts, parse) == Ok(stmts)
  {
    CorrectStatementsLeaveNone(stmts, parse);
    CorrectStatementsKeep(stmts, parse);
  }

  /** One statement's clean-up leaves nothing that re-reading would change. */
  lemma CorrectStatementClean(stmt: ExStmt, parse: string -> Coordinate)
    ensures CorrectStatement(stmt, parse).Ok? ==>
              forall k :: 0 <= k < |CorrectStatement(stmt, parse).value| ==>
                !Recognisable(CorrectStatement(stmt, parse).value[k])
  {
  }

  lemma {:induction false} CorrectStatementsLeaveNone(stmts: seq<ExStmt>, parse: string -> Coordinate)
    ensures CorrectStatements(stmts, parse).Ok? ==>
              forall k :: 0 <= k < |CorrectStatements(stmts, parse).value| ==>
                !Recognisable(CorrectStatements(stmts, parse).value[k])
  {
    if stmts != [] {
      CorrectStatementsLeaveNone(stmts[..|stmts| - 1], parse);
      CorrectStatementClean(stmts[|stmts| - 1], parse);
    }
  }

  lemma {:induction false} CorrectStatementsKeep(stmts: seq<ExStmt>, parse: string -> Coordinate)
    ensures (forall k :: 0 <= k < |stmts| ==> !stmts[k].Unknown?) ==> CorrectStatements(stmts, parse) == Ok(stmts)
  {
    if stmts != [] {
      var init := stmts[..|stmts| - 1];
      CorrectStatementsKeep(init, parse);
      assert init + [stmts[|stmts| - 1]] == stmts;
    }
  }

  // ---------------------------------------------------------------------
  // Serialising mode, coordinate and unit statements
  // ---------------------------------------------------------------------

  /** to_excellon of the circular mode statements as written: both print G02. */
  function CircularModeToExcellonAsWritten(stmt: ExStmt): string
    requires stmt.CircularCWMode? || stmt.CircularCCWMode?
  {
    "G02"
  }

  /** to_excellon of the circular mode statements: G02 clockwise, G03 counter-clockwise. */
  function CircularModeToExcellon(stmt: ExStmt): string
    requires stmt.CircularCWMode? || stmt.CircularCCWMode?
  {
    if stmt.CircularCWMode? then "G02" else "G03"
  }

  /**
   * Printing a circular mode statement and reading the line back gives the
   * same statement; as written, a counter-clockwise statement comes back
   * clockwise.
   */
  lemma CircularModeRoundTrip(stmt: ExStmt, parse: string -> Coordinate)
    requires stmt.CircularCWMode? || stmt.CircularCCWMode?
    ensures CorrectStatement(Unknown(CircularModeToExcellon(stmt)), parse) == Ok([stmt])
    ensures CorrectStatement(Unknown(CircularModeToExcellonAsWritten(CircularCCWMode)), parse) == Ok([CircularCWMode])
  {
    var g2, g3 := "G02", "G03";
    assert TrimStart(g2) == g2 && TrimEnd(g2) == g2;
    assert TrimStart(g3) == g3 && TrimEnd(g3) == g3;
    assert g2[..3] == g2 && g3[..3] == g3;
    assert g3[..3] != g2 by { assert g3[2] != g2[2]; }
    assert Strip(g2) == g2 && Strip(g3) == g3;
    assert StartsWith(g2, "G02") && StartsWith(g3, "G03") && !StartsWith(g3, "G02");
    assert [CircularCWMode] + [] == [CircularCWMode];
    assert [CircularCCWMode] + [] == [CircularCCWMode];
  }

  predicate IsLetter(c: char)
  {
    'A' <= c <= 'Z'
  }

  predicate LetterFree(s: string)
  {
    forall k :: 0 <= k < |s| ==> !IsLetter(s[k])
  }

  /**
   * CoordinateStmtEx.to_excellon: X then Y when present, then A when a
   * radius is present, otherwise I and J when both are present. `fmt` is
   * write_gerber_value with the file's settings.
   */
  function CoordinateToExcellon(c: Coordinate, fmt: real -> string): string
  {
    Part('X', c.x, fmt) + Part('Y', c.y, fmt) + ArcPart(c, fmt)
  }

  /** A letter and its value, or nothing when the value is absent. */
  function Part(l: char, v: Option<real>, fmt: real -> string): string
  {
    if v.Some? then [l] + fmt(v.value) else ""
  }

  /** A when a radius is present, otherwise I and J when both are present. */
  function ArcPart(c: Coordinate, fmt: real -> string): string
  {
    if c.radius.Some? then Part('A', c.radius, fmt)
    else if c.i.Some? && c.j.Some? then Part('I', c.i, fmt) + Part('J', c.j, fmt)
    else ""
  }

  /** What the printed form can carry: I/J only without a radius, and only as a pair. */
  function Printable(c: Coordinate): Coordinate
  {
    if c.radius.None? && c.i.Some? && c.j.Some? then c
    else c.(i := None, j := None)
  }

  /** Length of the leading run of non-letters. */
  function DigitsLength(s: string): (n: nat)
    ensures n <= |s|
  {
    if s == [] || IsLetter(s[0]) then 0 else 1 + DigitsLength(s[1..])
  }

  /** Split a printed coordinate into (letter, digits) fields. */
  function Fields(s: string): seq<(char, string)>
    decreases |s|
  {
    if s == [] then []
    else
      var n := DigitsLength(s[1..]);
      [(s[0], s[1..1 + n])] + Fields(s[1 + n..])
  }

  function SetField(c: Coordinate, f: (char, string), parse: string -> real): Coordinate
  {
    var v := Some(parse(f.1));
    if f.0 == 'X' then c.(x := v)
    else if f.0 == 'Y' then c.(y := v)
    else if f.0 == 'A' then c.(radius := v)
    else if f.0 == 'I' then c.(i := v)
    else if f.0 == 'J' then c.(j := v)
    else c
  }

  function ApplyFields(c: Coordinate, fs: seq<(char, string)>, parse: string -> real): Coordinate
    decreases |fs|
  {
    if fs == [] then c else ApplyFields(SetField(c, fs[0], parse), fs[1..], parse)
  }

  /** Read a printed coordinate back, with `parse` the inverse of the number format. */
  function DecodeCoordinate(s: string, parse: string -> real): Coordinate
  {
    ApplyFields(Coordinate(None, None, None, None, None), Fields(s), parse)
  }

  lemma {:induction false} DigitsLengthOf(d: string, rest: string)
    requires LetterFree(d) && (rest == [] || IsLetter(rest[0]))
    ensures DigitsLength(d + rest) == |d|
    decreases |d|
  {
    if d == [] {
      assert d + rest == rest;
    } else {
      assert (d + rest)[1..] == d[1..] + rest;
      DigitsLengthOf(d[1..], rest);
    }
  }

  lemma {:induction false} FieldsCons(l: char, d: string, rest: string)
    requires LetterFree(d) && (rest == [] || IsLetter(rest[0]))
    ensures Fields([l] + d + rest) == [(l, d)] + Fields(rest)
  {
    var s := [l] + d + rest;
    assert s[1..] == d + rest;
    DigitsLengthOf(d, rest);
    assert s[1..1 + |d|] == d;
    assert s[1 + |d|..] == rest;
  }

  lemma ApplyFieldsCons(c: Coordinate, f: (char, string), fs: seq<(char, string)>, parse: string -> real)
    ensures ApplyFields(c, [f] + fs, parse) == ApplyFields(SetField(c, f, parse), fs, parse)
  {
    assert ([f] + fs)[1..] == fs;
  }

  function PartFields(l: char, v: Option<real>, fmt: real -> string): seq<(char, string)>
  {
    if v.Some? then [(l, fmt(v.value))] else []
  }

  function ArcFields(c: Coordinate, fmt: real -> string): seq<(char, string)>
  {
    if c.radius.Some? then PartFields('A', c.radius, fmt)
    else if c.i.Some? && c.j.Some? then PartFields('I', c.i, fmt) + PartFields('J', c.j, fmt)
    else []
  }

  lemma NoLetterIn(fmt: real -> string, v: real)
    requires forall v: real :: LetterFree(fmt(v))
    ensures LetterFree(fmt(v))
  {
  }

  lemma PartFieldsOf(l: char, w: Option<real>, fmt: real -> string, rest: string)
    requires forall v: real :: LetterFree(fmt(v))
    requires rest == [] || IsLetter(rest[0])
    ensures Fields(Part(l, w, fmt) + rest) == PartFields(l, w, fmt) + Fields(rest)
  {
    if w.Some? {
      var d := fmt(w.value);
      NoLetterIn(fmt, w.value);
      assert Part(l, w, fmt) + rest == [l] + d + rest;
      FieldsCons(l, d, rest);
    } else {
      assert Part(l, w, fmt) + rest == rest;
    }
  }

  lemma ArcFieldsOf(c: Coordinate, fmt: real -> string)
    requires forall v: real :: LetterFree(fmt(v))
    ensures Fields(ArcPart(c, fmt)) == ArcFields(c, fmt)
  {
    if c.radius.Some? {
      PartFieldsOf('A', c.radius, fmt, []);
      assert Part('A', c.radius, fmt) + [] == Part('A', c.radius, fmt);
    } else if c.i.Some? && c.j.Some? {
      PartFieldsOf('J', c.j, fmt, []);
      assert Part('J', c.j, fmt) + [] == Part('J', c.j, fmt);
      PartFieldsOf('I', c.i, fmt, Part('J', c.j, fmt));
    }
  }

  /** The printed coordinate splits into the fields it was printed from, in order. */
  lemma CoordinateFields(c: Coordinate, fmt: real -> string)
    requires forall v: real :: LetterFree(fmt(v))
    ensures Fields(CoordinateToExcellon(c, fmt)) ==
            PartFields('X', c.x, fmt) + PartFields('Y', c.y, fmt) + ArcFields(c, fmt)
  {
    var pa := ArcPart(c, fmt);
    ArcFieldsOf(c, fmt);
    PartFieldsOf('Y', c.y, fmt, pa);
    var py := Part('Y', c.y, fmt) + pa;
    PartFieldsOf('X', c.x, fmt, py);
    Associative(Part('X', c.x, fmt), Part('Y', c.y, fmt), pa);
    Associative(PartFields('X', c.x, fmt), PartFields('Y', c.y, fmt), ArcFields(c, fmt));
  }

  lemma ApplyPart(c: Coordinate, l: char, v: Option<real>, fs: seq<(char, string)>,
                  fmt: real -> string, parse: string -> real)
    requires forall v: real :: parse(fmt(v)) == v
    requires l == 'X' || l == 'Y' || l == 'A' || l == 'I' || l == 'J'
    ensures ApplyFields(c, PartFields(l, v, fmt) + fs, parse) ==
            ApplyFields(if v.None? then c
                        else if l == 'X' then c.(x := v) else if l == 'Y' then c.(y := v)
                        else if l == 'A' then c.(radius := v) else if l == 'I' then c.(i := v)
                        else c.(j := v), fs, parse)
  {
    if v.Some? {
      assert parse(fmt(v.value)) == v.value;
      ApplyFieldsCons(c, (l, fmt(v.value)), fs, parse);
    } else {
      assert PartFields(l, v, fmt) + fs == fs;
    }
  }

  /**
   * Reading back a printed coordinate gives the coordinate, except for the
   * centre offset that the printer drops (when a radius is present or only
   * one of I and J is), provided the number format prints no letters and
   * `parse` inverts it.
   */
  lemma CoordinateRoundTrip(c: Coordinate, fmt: real -> string, parse: string -> real)
    requires forall v: real :: LetterFree(fmt(v))
    requires forall v: real :: parse(fmt(v)) == v
    ensures DecodeCoordinate(CoordinateToExcellon(c, fmt), parse) == Printable(c)
  {
    CoordinateFields(c, fmt);
    var c0 := Coordinate(None, None, None, None, None);
    var fa := ArcFields(c, fmt);
    var fy := PartFields('Y', c.y, fmt);
    Associative(PartFields('X', c.x, fmt), fy, fa);
    ApplyPart(c0, 'X', c.x, fy + fa, fmt, parse);
    var c1 := c0.(x := c.x);
    ApplyPart(c1, 'Y', c.y, fa, fmt, parse);
    ArcRoundTrip(c, fmt, parse);
  }

  /** The arc fields, read into a coordinate that has only x and y, complete it. */
  lemma ArcRoundTrip(c: Coordinate, fmt: real -> string, parse: string -> real)
    requires forall v: real :: parse(fmt(v)) == v
    ensures ApplyFields(Coordinate(c.x, c.y, None, None, None), ArcFields(c, fmt), parse) == Printable(c)
  {
    var c2 := Coordinate(c.x, c.y, None, None, None);
    if c.radius.Some? {
      ApplyPart(c2, 'A', c.radius, [], fmt, parse);
      assert ArcFields(c, fmt) + [] == ArcFields(c, fmt);
    } else if c.i.Some? && c.j.Some? {
      ApplyPart(c2, 'I', c.i, PartFields('J', c.j, fmt), fmt, parse);
      ApplyPart(c2.(i := c.i), 'J', c.j, [], fmt, parse);
      assert PartFields('J', c.j, fmt) + [] == PartFields('J', c.j, fmt);
    }
  }

  function ZeroCode(z: ZeroSuppression): string
  {
    if z == Leading then "LZ" else "TZ"
  }

  /** '0' * n */
  function Zeros(n: int): (s: string)
    ensures |s| == (if n < 0 then 0 else n)
    ensures forall k :: 0 <= k < |s| ==> s[k] == '0'
    decreases n
  {
    if n <= 0 then "" else Zeros(n - 1) + "0"
  }

  /**
   * UnitStmtEx.to_excellon with the file's number format: the short
   * `INCH,LZ`/`INCH,TZ` for inch in format 2.4, otherwise the units, the
   * zero suppression and the format written as zeros (`METRIC,TZ,000.000`).
   */
  function UnitToExcellon(units: Units, zeros: ZeroSuppression, format: (int, int)): string
  {
    if units == Inch && format == (2, 4) then "INCH," + ZeroCode(zeros)
    else (if units == Inch then "INCH," else "METRIC,") + ZeroCode(zeros) +
         ("," + Zeros(format.0) + "." + Zeros(format.1))
  }

  function LeadingZeros(s: string): (n: nat)
    ensures n <= |s|
  {
    if s != [] && s[0] == '0' then 1 + LeadingZeros(s[1..]) else 0
  }

  /** Read a unit statement back: units, zero suppression and number format. */
  function DecodeUnit(s: string): Option<(Units, ZeroSuppression, (int, int))>
  {
    var units := if StartsWith(s, "INCH,") then Some(Inch) else if StartsWith(s, "METRIC,") then Some(Metric) else None;
    if units.None? then None else DecodeUnitRest(units.value, s[if units.value == Inch then 5 else 7..])
  }

  /** The part of a unit statement after its units: `LZ` or `TZ`, then the format if any. */
  function DecodeUnitRest(units: Units, rest: string): Option<(Units, ZeroSuppression, (int, int))>
  {
    if |rest| < 2 || (rest[..2] != "LZ" && rest[..2] != "TZ") then None
    else
      var zeros := if rest[..2] == "LZ" then Leading else Trailing;
      var tail := rest[2..];
      if tail == [] then (if units == Inch then Some((Inch, zeros, (2, 4))) else None)
      else if tail[0] != ',' then None
      else
        var a := LeadingZeros(tail[1..]);
        if a + 1 >= |tail| || tail[1 + a] != '.' then None
        else Some((units, zeros, (a, |tail| - a - 2)))
  }

  lemma {:induction false} LeadingZerosOf(n: nat, rest: string)
    requires rest == [] || rest[0] != '0'
    ensures LeadingZeros(Zeros(n) + rest) == n
    decreases n
  {
    if n > 0 {
      assert Zeros(n) + rest == "0" + (Zeros(n - 1) + rest) by {
        assert Zeros(n) == "0" + Zeros(n - 1) by {
          ZerosShift(n);
        }
      }
      assert ("0" + (Zeros(n - 1) + rest))[1..] == Zeros(n - 1) + rest;
      LeadingZerosOf(n - 1, rest);
    } else {
      assert Zeros(n) + rest == rest;
    }
  }

  lemma ZerosShift(n: nat)
    requires n > 0
    ensures Zeros(n) == "0" + Zeros(n - 1)
  {
    var a, b := Zeros(n), "0" + Zeros(n - 1);
    assert |a| == |b|;
    forall k | 0 <= k < |a| ensures a[k] == b[k] { }
  }

  /**
   * The unit statement reads back as the units, zero suppression and
   * format it was printed from (any format with non-negative digit counts).
   */
  lemma UnitRoundTrip(units: Units, zeros: ZeroSuppression, format: (int, int))
    requires format.0 >= 0 && format.1 >= 0
    ensures DecodeUnit(UnitToExcellon(units, zeros, format)) == Some((units, zeros, format))
  {
    if units == Inch && format == (2, 4) {
      ShortUnitRoundTrip(zeros);
    } else {
      LongUnitRoundTrip(units, zeros, format.0, format.1);
    }
  }

  lemma ShortUnitRoundTrip(zeros: ZeroSuppression)
    ensures DecodeUnit("INCH," + ZeroCode(zeros)) == Some((Inch, zeros, (2, 4)))
  {
    var s, zc := "INCH," + ZeroCode(zeros), ZeroCode(zeros);
    assert StartsWith(s, "INCH,");
    assert s[5..] == zc;
    assert zc[..2] == zc && zc[2..] == [];
  }

  /** The format part `,000.0000` gives back both digit counts. */
  lemma FormatTail(a: nat, b: nat)
    ensures var tail := "," + Zeros(a) + "." + Zeros(b);
            tail[0] == ',' && LeadingZeros(tail[1..]) == a && a + 1 < |tail| && tail[1 + a] == '.' &&
            |tail| - a - 2 == b
  {
    var tail := "," + Zeros(a) + "." + Zeros(b);
    assert tail[1..] == Zeros(a) + ("." + Zeros(b));
    LeadingZerosOf(a, "." + Zeros(b));
  }

  /** The long form: units, zero suppression and the format written as zeros. */
  lemma LongUnitRoundTrip(units: Units, zeros: ZeroSuppression, a: nat, b: nat)
    requires !(units == Inch && (a, b) == (2, 4))
    ensures DecodeUnit(UnitToExcellon(units, zeros, (a, b))) == Some((units, zeros, (a, b)))
  {
    var p := if units == Inch then "INCH," else "METRIC,";
    var zc, tail := ZeroCode(zeros), "," + Zeros(a) + "." + Zeros(b);
    var rest := zc + tail;
    assert UnitToExcellon(units, zeros, (a, b)) == p + zc + tail;
    Associative(p, zc, tail);
    if units == Inch {
      InchPrefix(rest);
    } else {
      MetricPrefix(rest);
    }
    RestRoundTrip(units, zeros, a, b);
  }

  lemma InchPrefix(rest: string)
    ensures DecodeUnit("INCH," + rest) == DecodeUnitRest(Inch, rest)
  {
    var s := "INCH," + rest;
    assert s[..5] == "INCH,";
    assert s[5..] == rest;
  }

  lemma MetricPrefix(rest: string)
    ensures DecodeUnit("METRIC," + rest) == DecodeUnitRest(Metric, rest)
  {
    var s := "METRIC," + rest;
    assert s[..5] != "INCH," by { assert s[0] == 'M'; }
    assert s[..7] == "METRIC,";
    assert s[7..] == rest;
  }

  lemma RestRoundTrip(units: Units, zeros: ZeroSuppression, a: nat, b: nat)
    ensures DecodeUnitRest(units, ZeroCode(zeros) + ("," + Zeros(a) + "." + Zeros(b))) == Some((units, zeros, (a, b)))
  {
    var zc, tail := ZeroCode(zeros), "," + Zeros(a) + "." + Zeros(b);
    FormatTail(a, b);
    assert (zc + tail)[..2] == zc;
    assert (zc + tail)[2..] == tail;
  }

  // ---------------------------------------------------------------------
  // Rout paths and hits
  // ---------------------------------------------------------------------

  /** The DrillRout constructor: the first node always becomes a G00 move. */
  function MakeRout(tool: Tool, nodes: seq<Node>): (h: Hit)
    requires |nodes| >= 1
    ensures h.Rout? && h.tool == Some(tool) && |h.nodes| == |nodes|
    ensures h.nodes[0].mode == Some(G00)
    ensures h.nodes[0].position == nodes[0].position && h.nodes[1..] == nodes[1..]
  {
    Rout(Some(tool), nodes[0 := nodes[0].(mode := Some(G00))])
  }

  /** DrillRout.offset: every node moves by (dx, dy); radius and centre offset stay. */
  function OffsetNodes(nodes: seq<Node>, dx: real, dy: real): (r: seq<Node>)
    ensures |r| == |nodes|
    ensures forall k :: 0 <= k < |nodes| ==>
              r[k] == nodes[k].(position := Add(nodes[k].position, Point(dx, dy)))
  {
    if nodes == [] then []
    else [nodes[0].(position := Add(nodes[0].position, Point(dx, dy)))] + OffsetNodes(nodes[1..], dx, dy)
  }

  /** Offsetting back by the opposite amount restores the rout. */
  lemma OffsetNodesInverse(nodes: seq<Node>, dx: real, dy: real)
    ensures OffsetNodes(OffsetNodes(nodes, dx, dy), -dx, -dy) == nodes
  {
    var r := OffsetNodes(OffsetNodes(nodes, dx, dy), -dx, -dy);
    assert |r| == |nodes|;
    forall k | 0 <= k < |nodes| ensures r[k] == nodes[k] { }
  }

  function NodeRotated(n: Node, angle: real, center: Point, R: Rotation): Node
  {
    n.(position := R(angle, center, n.position),
       centerOffset := if n.centerOffset.Some? then Some(R(angle, Point(0.0, 0.0), n.centerOffset.value)) else None)
  }

  /**
   * rotate of one hit: positions about the centre; a rout's centre
   * offsets, which are relative, about the origin.
   */
  function RotateHit(h: Hit, angle: real, center: Point, R: Rotation): (r: Hit)
    ensures r.tool == h.tool
  {
    match h
    case DrillHit(t, p) => DrillHit(t, R(angle, center, p))
    case DrillSlot(t, s, e) => DrillSlot(t, R(angle, center, s), R(angle, center, e))
    case Rout(t, nodes) => Rout(t, seq(|nodes|, k requires 0 <= k < |nodes| => NodeRotated(nodes[k], angle, center, R)))
  }

  /** Rotating back by the opposite angle restores a hit when R(-a) undoes R(a). */
  lemma RotateHitInverse(h: Hit, angle: real, center: Point, R: Rotation)
    requires forall c: Point, p: Point :: R(-angle, c, R(angle, c, p)) == p
    ensures RotateHit(RotateHit(h, angle, center, R), -angle, center, R) == h
  {
    if h.Rout? {
      var r := RotateHit(RotateHit(h, angle, center, R), -angle, center, R);
      assert |r.nodes| == |h.nodes|;
      forall k | 0 <= k < |h.nodes| ensures r.nodes[k] == h.nodes[k] { }
    }
  }

  function NodeConverted(n: Node, f: real -> real): Node
  {
    n.(position := Point(f(n.position.x), f(n.position.y)),
       radius := if n.radius.Some? then Some(f(n.radius.value)) else None,
       centerOffset := if n.centerOffset.Some? then Some(Point(f(n.centerOffset.value.x), f(n.centerOffset.value.y))) else None)
  }

  /** to_inch / to_metric of one hit: every length goes through f. */
  function ConvertHit(h: Hit, f: real -> real): (r: Hit)
    ensures r.tool == h.tool
  {
    match h
    case DrillHit(t, p) => DrillHit(t, Point(f(p.x), f(p.y)))
    case DrillSlot(t, s, e) => DrillSlot(t, Point(f(s.x), f(s.y)), Point(f(e.x), f(e.y)))
    case Rout(t, nodes) => Rout(t, seq(|nodes|, k requires 0 <= k < |nodes| => NodeConverted(nodes[k], f)))
  }

  /** Inch then metric gives back every hit. */
  lemma ConvertHitRoundTrip(h: Hit)
    ensures ConvertHit(ConvertHit(h, ToInchValue), ToMetricValue) == h
    ensures ConvertHit(ConvertHit(h, ToMetricValue), ToInchValue) == h
  {
    forall v: real ensures ToMetricValue(ToInchValue(v)) == v && ToInchValue(ToMetricValue(v)) == v {
      MetricInchRoundTrip(v);
    }
    if h.Rout? {
      var a := ConvertHit(ConvertHit(h, ToInchValue), ToMetricValue);
      var b := ConvertHit(ConvertHit(h, ToMetricValue), ToInchValue);
      forall k | 0 <= k < |h.nodes| ensures a.nodes[k] == h.nodes[k] && b.nodes[k] == h.nodes[k] { }
    }
  }

  function CoordinateOfNode(n: Node): Coordinate
  {
    Coordinate(Some(n.position.x), Some(n.position.y), n.radius,
               if n.centerOffset.Some? then Some(n.centerOffset.value.x) else None,
               if n.centerOffset.Some? then Some(n.centerOffset.value.y) else None)
  }

  /** Node.to_excellon: the mode code then the coordinate; a node without a mode fails (None + str). */
  function NodeToExcellon(n: Node, fmt: real -> string): Result<string>
  {
    if n.mode.None? then Fail("TypeError")
    else Ok(ModeCode(n.mode.value) + CoordinateToExcellon(CoordinateOfNode(n), fmt))
  }

  /** The lines of the later nodes, each followed by a newline. */
  function LaterNodes(nodes: seq<Node>, fmt: real -> string): Result<string>
  {
    if nodes == [] then Ok("")
    else match LaterNodes(nodes[..|nodes| - 1], fmt)
      case Fail(e) => Fail(e)
      case Ok(s) =>
        match NodeToExcellon(nodes[|nodes| - 1], fmt)
        case Fail(e) => Fail(e)
        case Ok(line) => Ok(s + line + "\n")
  }

  /** DrillRout.to_excellon: first node, M15 (plunge), the others, M16 (retract), G05. */
  function RoutToExcellon(nodes: seq<Node>, fmt: real -> string): Result<string>
    requires |nodes| >= 1
  {
    match NodeToExcellon(nodes[0], fmt)
    case Fail(e) => Fail(e)
    case Ok(first) =>
      match LaterNodes(nodes[1..], fmt)
      case Fail(e) => Fail(e)
      case Ok(rest) => Ok(first + "\nM15\n" + rest + "M16\nG05")
  }

  lemma {:induction false} LaterNodesOk(nodes: seq<Node>, fmt: real -> string)
    ensures LaterNodes(nodes, fmt).Ok? <==> forall k :: 0 <= k < |nodes| ==> nodes[k].mode.Some?
  {
    if nodes != [] {
      LaterNodesOk(nodes[..|nodes| - 1], fmt);
      assert forall k :: 0 <= k < |nodes| - 1 ==> nodes[..|nodes| - 1][k] == nodes[k];
    }
  }

  /**
   * A rout made by the constructor prints exactly when every node after
   * the first has a mode; the first one always prints as a G00 move.
   */
  lemma RoutPrintable(tool: Tool, nodes: seq<Node>, fmt: real -> string)
    requires |nodes| >= 1
    ensures RoutToExcellon(MakeRout(tool, nodes).nodes, fmt).Ok? <==>
            forall k :: 1 <= k < |nodes| ==> nodes[k].mode.Some?
  {
    var h := MakeRout(tool, nodes);
    LaterNodesOk(h.nodes[1..], fmt);
    assert forall k :: 1 <= k < |nodes| ==> h.nodes[1..][k - 1] == nodes[k];
  }

  // ---------------------------------------------------------------------
  // generate_hits
  // ---------------------------------------------------------------------

  /** The coordinate context: the current position and arc parameters. */
  datatype Ctx = Ctx(notation: Notation, x: real, y: real, radius: Option<real>, centerOffset: Option<Point>)

  function Place(notation: Notation, current: real, v: Option<real>): real
  {
    if v.None? then current else if notation == Absolute then v.value else current + v.value
  }

  /**
   * CoordinateCtx.update: supplied coordinates replace the position in
   * absolute notation and are added to it in incremental notation; radius
   * and centre offset are overwritten only when supplied.
   */
  function CtxUpdate(c: Ctx, x: Option<real>, y: Option<real>, radius: Option<real>, centerOffset: Option<Point>): Ctx
  {
    Ctx(c.notation, Place(c.notation, c.x, x), Place(c.notation, c.y, y),
        if radius.Some? then radius else c.radius,
        if centerOffset.Some? then centerOffset else c.centerOffset)
  }

  /**
   * CoordinateCtx.node: arcs take the explicit centre offset when the
   * statement gave one, otherwise the remembered radius and offset; other
   * moves carry neither.
   */
  function CtxNode(c: Ctx, mode: Option<RoutMode>, centerOffset: Option<Point>): Node
  {
    var arc := mode == Some(G02) || mode == Some(G03);
    Node(mode, Point(c.x, c.y),
         if arc && centerOffset.None? then c.radius else None,
         if !arc then None else if centerOffset.None? then c.centerOffset else centerOffset)
  }

  /** The coordinate context of generate_hits. */
  class CoordinateCtx {
    const notation: Notation
    var x: real
    var y: real
    var radius: Option<real>
    var centerOffset: Option<Point>

    function Value(): Ctx
      reads this
    {
      Ctx(notation, x, y, radius, centerOffset)
    }

    constructor (notation: Notation)
      ensures Value() == Ctx(notation, 0.0, 0.0, None, None)
    {
      this.notation := notation;
      x, y := 0.0, 0.0;
      radius, centerOffset := None, None;
    }

    method Update(x: Option<real>, y: Option<real>, radius: Option<real>, centerOffset: Option<Point>)
      modifies this
      ensures Value() == CtxUpdate(old(Value()), x, y, radius, centerOffset)
    {
      if notation == Absolute {
        if x.Some? { this.x := x.value; }
        if y.Some? { this.y := y.value; }
      } else {
        if x.Some? { this.x := this.x + x.value; }
        if y.Some? { this.y := this.y + y.value; }
      }
      if radius.Some? { this.radius := radius; }
      if centerOffset.Some? { this.centerOffset := centerOffset; }
    }

    method MakeNode(mode: Option<RoutMode>, centerOffset: Option<Point>) returns (n: Node)
      ensures n == CtxNode(Value(), mode, centerOffset)
      ensures n.position == Point(x, y)
    {
      var r: Option<real> := None;
      var offset: Option<Point> := None;
      if mode == Some(G02) || mode == Some(G03) {
        if centerOffset.None? {
          r := radius;
          offset := this.centerOffset;
        } else {
          offset := centerOffset;
        }
      }
      n := Node(mode, Point(x, y), r, offset);
    }
  }

  datatype Status = StatDrill | StatRoutUp | StatRoutDown

  /** The variables of generate_hits, and the hits yielded so far. */
  datatype HitsState = HitsState(status: Status, tool: Option<Tool>, mode: Option<RoutMode>,
                                 ctx: Ctx, nodes: seq<Node>, hits: seq<Hit>)

  function InitialState(notation: Notation): HitsState
  {
    HitsState(StatDrill, None, None, Ctx(notation, 0.0, 0.0, None, None), [], [])
  }

  /** The tool registered under a number (file.tools[n]). */
  function FindTool(tools: seq<Tool>, n: int): Option<Tool>
  {
    if tools == [] then None
    else if tools[0].number == n then Some(tools[0])
    else FindTool(tools[1..], n)
  }

  /** make_rout: a rout only when routing down with nodes and a tool. */
  function RoutOf(status: Status, tool: Option<Tool>, nodes: seq<Node>): seq<Hit>
  {
    if status != StatRoutDown || |nodes| == 0 || tool.None? then []
    else [MakeRout(tool.value, nodes)]
  }

  function Flush(s: HitsState): seq<Hit>
  {
    RoutOf(s.status, s.tool, s.nodes)
  }

  predicate IsRetract(stmt: ExStmt)
  {
    stmt.RetractWithClamping? || stmt.RetractWithoutClamping?
  }

  function CenterOffsetOf(c: Coordinate): Option<Point>
  {
    if c.i.Some? && c.j.Some? then Some(Point(c.i.value, c.j.value)) else None
  }

  /** One statement of the generate_hits loop; an unknown tool fails (KeyError). */
  function Step(tools: seq<Tool>, s: HitsState, stmt: ExStmt): Result<HitsState>
  {
    match stmt
    case ToolSelection(n) =>
      if FindTool(tools, n).None? then Fail("KeyError") else Ok(s.(tool := FindTool(tools, n)))
    case DrillMode =>
      Ok(s.(hits := s.hits + Flush(s), nodes := [], status := StatDrill, mode := None))
    case RouteMode =>
      Ok(if s.status == StatDrill then s.(status := StatRoutUp, mode := Some(G00)) else s.(mode := Some(G01)))
    case LinearMode => Ok(s.(mode := Some(G01)))
    case CircularCWMode => Ok(s.(mode := Some(G02)))
    case CircularCCWMode => Ok(s.(mode := Some(G03)))
    case ZAxisRoutPosition =>
      Ok(if s.status == StatRoutUp then s.(status := StatRoutDown) else s)
    case RetractWithClamping =>
      Ok(s.(hits := s.hits + Flush(s), nodes := [], status := StatRoutUp))
    case RetractWithoutClamping =>
      Ok(s.(hits := s.hits + Flush(s), nodes := [], status := StatRoutUp))
    case Slot(xs, ys, xe, ye) =>
      var c1 := CtxUpdate(s.ctx, xs, ys, None, None);
      var c2 := CtxUpdate(c1, xe, ye, None, None);
      Ok(s.(ctx := c2, hits := s.hits + [DrillSlot(s.tool, Point(c1.x, c1.y), Point(c2.x, c2.y))]))
    case CoordinateStmt(c) =>
      var co := CenterOffsetOf(c);
      var ctx := CtxUpdate(s.ctx, c.x, c.y, c.radius, co);
      var s1 := s.(ctx := ctx);
      if c.x.None? && c.y.None? then Ok(s1)
      else if s.status == StatDrill then Ok(s1.(hits := s.hits + [DrillHit(s.tool, Point(ctx.x, ctx.y))]))
      else if s.status == StatRoutUp then Ok(s1.(nodes := [CtxNode(ctx, Some(G00), None)]))
      else Ok(s1.(nodes := s.nodes + [CtxNode(ctx, s.mode, co)]))
    case Unknown(_) => Ok(s)
    case ToolDefinition(_) => Ok(s)
    case Other(_) => Ok(s)
  }

  /** The loop over a list of statements; the first failure aborts. */
  function Run(tools: seq<Tool>, s0: HitsState, stmts: seq<ExStmt>): Result<HitsState>
  {
    if stmts == [] then Ok(s0)
    else match Run(tools, s0, stmts[..|stmts| - 1])
      case Fail(e) => Fail(e)
      case Ok(s) => Step(tools, s, stmts[|stmts| - 1])
  }

  /** generate_hits: what the loop yields, or the failure. */
  function HitsOf(tools: seq<Tool>, notation: Notation, stmts: seq<ExStmt>): Result<seq<Hit>>
  {
    match Run(tools, InitialState(notation), stmts)
    case Fail(e) => Fail(e)
    case Ok(s) => Ok(s.hits)
  }

  lemma {:induction false} RunFailSticks(tools: seq<Tool>, s0: HitsState, stmts: seq<ExStmt>, k: nat)
    requires k <= |stmts| && Run(tools, s0, stmts[..k]).Fail?
    ensures Run(tools, s0, stmts).Fail?
    decreases |stmts| - k
  {
    if k < |stmts| {
      assert stmts[..k + 1][..k] == stmts[..k];
      RunFailSticks(tools, s0, stmts, k + 1);
    } else {
      assert stmts[..k] == stmts;
    }
  }

  /** generate_hits as a loop over the statements with a coordinate context object. */
  method GenerateHits(tools: seq<Tool>, notation: Notation, statements: seq<ExStmt>) returns (r: Result<seq<Hit>>)
    ensures r.Ok? <==> HitsOf(tools, notation, statements).Ok?
    ensures r.Ok? ==> r.value == HitsOf(tools, notation, statements).value
  {
    var status := StatDrill;
    var currentTool: Option<Tool> := None;
    var routMode: Option<RoutMode> := None;
    var ctx := new CoordinateCtx(notation);
    var routNodes: seq<Node> := [];
    var hits: seq<Hit> := [];
    for i := 0 to |statements|
      invariant Run(tools, InitialState(notation), statements[..i]) ==
                Ok(HitsState(status, currentTool, routMode, ctx.Value(), routNodes, hits))
    {
      var stmt := statements[i];
      ghost var before := HitsState(status, currentTool, routMode, ctx.Value(), routNodes, hits);
      assert statements[..i + 1][..i] == statements[..i];
      match stmt {
        case ToolSelection(n) =>
          currentTool := FindTool(tools, n);
          if currentTool.None? {
            RunFailSticks(tools, InitialState(notation), statements, i + 1);
            return Fail("KeyError");
          }
        case DrillMode =>
          var rout := RoutOf(status, currentTool, routNodes);
          routNodes := [];
          hits := hits + rout;
          status := StatDrill;
          routMode := None;
        case RouteMode =>
          if status == StatDrill {
            status := StatRoutUp;
            routMode := Some(G00);
          } else {
            routMode := Some(G01);
          }
        case LinearMode =>
          routMode := Some(G01);
        case CircularCWMode =>
          routMode := Some(G02);
        case CircularCCWMode =>
          routMode := Some(G03);
        case ZAxisRoutPosition =>
          if status == StatRoutUp {
            status := StatRoutDown;
          }
        case RetractWithClamping =>
          var rout := RoutOf(status, currentTool, routNodes);
          routNodes := [];
          hits := hits + rout;
          status := StatRoutUp;
        case RetractWithoutClamping =>
          var rout := RoutOf(status, currentTool, routNodes);
          routNodes := [];
          hits := hits + rout;
          status := StatRoutUp;
        case Slot(xs, ys, xe, ye) =>
          ctx.Update(xs, ys, None, None);
          var start := Point(ctx.x, ctx.y);
          ctx.Update(xe, ye, None, None);
          var end := Point(ctx.x, ctx.y);
          hits := hits + [DrillSlot(currentTool, start, end)];
        case CoordinateStmt(c) =>
          var co := CenterOffsetOf(c);
          ctx.Update(c.x, c.y, c.radius, co);
          if c.x.Some? || c.y.Some? {
            if status == StatDrill {
              hits := hits + [DrillHit(currentTool, Point(ctx.x, ctx.y))];
            } else if status == StatRoutUp {
              var n := ctx.MakeNode(Some(G00), None);
              routNodes := [n];
            } else {
              var n := ctx.MakeNode(routMode, co);
              routNodes := routNodes + [n];
            }
          }
        case Unknown(_) =>
        case ToolDefinition(_) =>
        case Other(_) =>
      }
    }
    assert statements[..|statements|] == statements;
    return Ok(hits);
  }

  // --- properties of generate_hits ---

  /** Every rout starts with a G00 node and has a tool. */
  ghost predicate WellFormedRouts(hits: seq<Hit>)
  {
    forall k :: 0 <= k < |hits| && hits[k].Rout? ==>
      |hits[k].nodes| >= 1 && hits[k].nodes[0].mode == Some(G00) && hits[k].tool.Some?
  }

  /**
   * Every rout yielded is non-empty, starts with a G00 move and has a
   * tool; and every rout is yielded by a drill-mode or retract statement.
   */
  lemma {:induction false} RoutsWellFormed(tools: seq<Tool>, notation: Notation, stmts: seq<ExStmt>)
    requires HitsOf(tools, notation, stmts).Ok?
    ensures WellFormedRouts(HitsOf(tools, notation, stmts).value)
  {
    if stmts != [] {
      var init := stmts[..|stmts| - 1];
      RoutsWellFormed(tools, notation, init);
    }
  }

  /**
   * One statement yields at most one hit: a rout only for a drill-mode or
   * retract statement while routing down with nodes and a tool (the node
   * list is cleared either way), a drill hit only for a coordinate with x
   * or y in drill status, a slot only for a slot statement.
   */
  lemma StepYields(tools: seq<Tool>, s: HitsState, stmt: ExStmt)
    requires Step(tools, s, stmt).Ok?
    ensures var t := Step(tools, s, stmt).value;
            (|t.hits| == |s.hits| || |t.hits| == |s.hits| + 1) && t.hits[..|s.hits|] == s.hits &&
            (|t.hits| > |s.hits| && t.hits[|s.hits|].Rout? ==>
               (stmt.DrillMode? || IsRetract(stmt)) && s.status == StatRoutDown && |s.nodes| > 0 && s.tool.Some?) &&
            (|t.hits| > |s.hits| && t.hits[|s.hits|].DrillHit? ==>
               stmt.CoordinateStmt? && (stmt.coord.x.Some? || stmt.coord.y.Some?) && s.status == StatDrill) &&
            (|t.hits| > |s.hits| && t.hits[|s.hits|].DrillSlot? ==> stmt.Slot?) &&
            (stmt.DrillMode? || IsRetract(stmt) ==> t.nodes == [])
  {
  }

  /**
   * Status transitions: a drill-mode statement sets drill status, a route
   * mode statement moves drill status to rout-up, a Z plunge moves only
   * rout-up to rout-down, a retract always sets rout-up; nothing else
   * changes the status.
   */
  lemma StepStatus(tools: seq<Tool>, s: HitsState, stmt: ExStmt)
    requires Step(tools, s, stmt).Ok?
    ensures var st := Step(tools, s, stmt).value.status;
            st == (if stmt.DrillMode? then StatDrill
                   else if stmt.RouteMode? && s.status == StatDrill then StatRoutUp
                   else if stmt.ZAxisRoutPosition? && s.status == StatRoutUp then StatRoutDown
                   else if IsRetract(stmt) then StatRoutUp
                   else s.status)
  {
  }

  /** The x (or y) values a statement supplies to the context, in order. */
  function Supplied(stmt: ExStmt, isX: bool): seq<real>
  {
    match stmt
    case Slot(xs, ys, xe, ye) =>
      var a := if isX then xs else ys;
      var b := if isX then xe else ye;
      (if a.Some? then [a.value] else []) + (if b.Some? then [b.value] else [])
    case CoordinateStmt(c) =>
      var a := if isX then c.x else c.y;
      if a.Some? then [a.value] else []
    case _ => []
  }

  function AllSupplied(stmts: seq<ExStmt>, isX: bool): seq<real>
  {
    if stmts == [] then [] else AllSupplied(stmts[..|stmts| - 1], isX) + Supplied(stmts[|stmts| - 1], isX)
  }

  function Sum(vs: seq<real>): real
  {
    if vs == [] then 0.0 else Sum(vs[..|vs| - 1]) + vs[|vs| - 1]
  }

  lemma {:induction false} SumAppend(a: seq<real>, b: seq<real>)
    ensures Sum(a + b) == Sum(a) + Sum(b)
    decreases |b|
  {
    if b == [] {
      assert a + b == a;
    } else {
      assert (a + b)[..|a + b| - 1] == a + b[..|b| - 1];
      SumAppend(a, b[..|b| - 1]);
    }
  }

  function Axis(c: Ctx, isX: bool): real
  {
    if isX then c.x else c.y
  }

  /** The position an axis reaches from `current` when the values `vs` are supplied in turn. */
  function Reached(notation: Notation, current: real, vs: seq<real>): real
  {
    if notation == Absolute then (if vs == [] then current else vs[|vs| - 1]) else current + Sum(vs)
  }

  lemma ReachedAppend(notation: Notation, current: real, a: seq<real>, b: seq<real>)
    ensures Reached(notation, Reached(notation, current, a), b) == Reached(notation, current, a + b)
  {
    SumAppend(a, b);
    if b == [] {
      assert a + b == a;
    }
  }

  lemma PlaceReached(notation: Notation, current: real, v: Option<real>)
    ensures Place(notation, current, v) == Reached(notation, current, if v.Some? then [v.value] else [])
  {
    if v.Some? {
      assert Sum([v.value]) == Sum([]) + v.value;
    }
  }

  /** One statement moves an axis as the values it supplies dictate. */
  lemma StepPosition(tools: seq<Tool>, s: HitsState, stmt: ExStmt, isX: bool)
    requires Step(tools, s, stmt).Ok?
    ensures Step(tools, s, stmt).value.ctx.notation == s.ctx.notation
    ensures Axis(Step(tools, s, stmt).value.ctx, isX) == Reached(s.ctx.notation, Axis(s.ctx, isX), Supplied(stmt, isX))
  {
    var n := s.ctx.notation;
    match stmt {
      case Slot(xs, ys, xe, ye) =>
        var a := if isX then xs else ys;
        var b := if isX then xe else ye;
        PlaceReached(n, Axis(s.ctx, isX), a);
        PlaceReached(n, Place(n, Axis(s.ctx, isX), a), b);
        ReachedAppend(n, Axis(s.ctx, isX), if a.Some? then [a.value] else [], if b.Some? then [b.value] else []);
      case CoordinateStmt(c) =>
        PlaceReached(n, Axis(s.ctx, isX), if isX then c.x else c.y);
      case _ =>
    }
  }

  /**
   * The position after a run of statements: in absolute notation the last
   * value supplied for each axis (0 if none was), in incremental notation
   * the sum of all values supplied.
   */
  lemma {:induction false} RunPosition(tools: seq<Tool>, notation: Notation, stmts: seq<ExStmt>, isX: bool)
    requires Run(tools, InitialState(notation), stmts).Ok?
    ensures Run(tools, InitialState(notation), stmts).value.ctx.notation == notation
    ensures var vs := AllSupplied(stmts, isX);
            var c := Run(tools, InitialState(notation), stmts).value.ctx;
            Axis(c, isX) == (if notation == Absolute then (if vs == [] then 0.0 else vs[|vs| - 1]) else Sum(vs))
  {
    if stmts != [] {
      var init := stmts[..|stmts| - 1];
      RunPosition(tools, notation, init, isX);
      var s := Run(tools, InitialState(notation), init).value;
      StepPosition(tools, s, stmts[|stmts| - 1], isX);
      ReachedAppend(notation, 0.0, AllSupplied(init, isX), Supplied(stmts[|stmts| - 1], isX));
    }
  }

  // ---------------------------------------------------------------------
  // ExcellonFileEx
  // ---------------------------------------------------------------------

  function ConvertTool(t: Tool, f: real -> real): Tool
  {
    t.(diameter := f(t.diameter))
  }

  /** Every statement through the drawing library's conversion. */
  function ConvertStatements(ss: seq<ExStmt>, convertStmt: ExStmt -> ExStmt): (r: seq<ExStmt>)
    ensures |r| == |ss| && forall k :: 0 <= k < |ss| ==> r[k] == convertStmt(ss[k])
  {
    seq(|ss|, k requires 0 <= k < |ss| => convertStmt(ss[k]))
  }

  /** Every tool's diameter through f. */
  function ConvertTools(ts: seq<Tool>, f: real -> real): (r: seq<Tool>)
    ensures |r| == |ts| && forall k :: 0 <= k < |ts| ==> r[k] == ConvertTool(ts[k], f)
  {
    seq(|ts|, k requires 0 <= k < |ts| => ConvertTool(ts[k], f))
  }

  /** Every hit's lengths through f. */
  function ConvertHits(hs: seq<Hit>, f: real -> real): (r: seq<Hit>)
    ensures |r| == |hs| && forall k :: 0 <= k < |hs| ==> r[k] == ConvertHit(hs[k], f)
  {
    seq(|hs|, k requires 0 <= k < |hs| => ConvertHit(hs[k], f))
  }

  /**
   * Converting a file's tools and hits to inch and back to metric, or the
   * other way, gives them back; the tools keep their numbers.
   */
  lemma ConvertFileRoundTrip(ts: seq<Tool>, hs: seq<Hit>)
    ensures ConvertTools(ConvertTools(ts, ToInchValue), ToMetricValue) == ts
    ensures ConvertTools(ConvertTools(ts, ToMetricValue), ToInchValue) == ts
    ensures ConvertHits(ConvertHits(hs, ToInchValue), ToMetricValue) == hs
    ensures ConvertHits(ConvertHits(hs, ToMetricValue), ToInchValue) == hs
  {
    forall k | 0 <= k < |ts|
      ensures ConvertTools(ConvertTools(ts, ToInchValue), ToMetricValue)[k] == ts[k]
      ensures ConvertTools(ConvertTools(ts, ToMetricValue), ToInchValue)[k] == ts[k]
    {
      MetricInchRoundTrip(ts[k].diameter);
    }
    forall k | 0 <= k < |hs|
      ensures ConvertHits(ConvertHits(hs, ToInchValue), ToMetricValue)[k] == hs[k]
      ensures ConvertHits(ConvertHits(hs, ToMetricValue), ToInchValue)[k] == hs[k]
    {
      ConvertHitRoundTrip(hs[k]);
    }
  }

  /** A drill file: its statements, tools, hits and settings. */
  class ExcellonFileEx {
    var statements: seq<ExStmt>
    var tools: seq<Tool>
    var hits: seq<Hit>
    var settings: Settings

    constructor (statements: seq<ExStmt>, tools: seq<Tool>, hits: seq<Hit>, settings: Settings)
      ensures this.statements == statements && this.tools == tools && this.hits == hits && this.settings == settings
    {
      this.statements := statements;
      this.tools := tools;
      this.hits := hits;
      this.settings := settings;
    }

    /**
     * from_file: clean up the parsed statements, extract the hits, and wrap
     * the result; fails when the clean-up or the extraction does.
     */
    static method FromFile(statements: seq<ExStmt>, tools: seq<Tool>, settings: Settings,
                           parse: string -> Coordinate) returns (r: Result<ExcellonFileEx>)
      ensures r.Ok? <==> CorrectStatements(statements, parse).Ok? &&
                         HitsOf(tools, settings.notation, CorrectStatements(statements, parse).value).Ok?
      ensures r.Ok? ==> fresh(r.value) &&
                        r.value.statements == CorrectStatements(statements, parse).value &&
                        r.value.hits == HitsOf(tools, settings.notation, r.value.statements).value &&
                        r.value.tools == tools && r.value.settings == settings
    {
      var corrected := CorrectStatements(statements, parse);
      if corrected.Fail? {
        return Fail(corrected.error);
      }
      var hits := GenerateHits(tools, settings.notation, corrected.value);
      if hits.Fail? {
        return Fail(hits.error);
      }
      var file := new ExcellonFileEx(corrected.value, tools, hits.value, settings);
      return Ok(file);
    }

    /** rotate: a whole number of turns does nothing; otherwise every hit turns. */
    method Rotate(angle: real, center: Point, R: Rotation)
      modifies this
      ensures statements == old(statements) && tools == old(tools) && settings == old(settings)
      ensures |hits| == |old(hits)|
      ensures IsFullTurn(angle) ==> hits == old(hits)
      ensures !IsFullTurn(angle) ==> forall k :: 0 <= k < |hits| ==> hits[k] == RotateHit(old(hits)[k], angle, center, R)
    {
      if IsFullTurn(angle) {
        return;
      }
      for k := 0 to |hits|
        invariant |hits| == |old(hits)|
        invariant forall n :: 0 <= n < k ==> hits[n] == RotateHit(old(hits)[n], angle, center, R)
        invariant forall n :: k <= n < |hits| ==> hits[n] == old(hits)[n]
        invariant statements == old(statements) && tools == old(tools) && settings == old(settings)
      {
        hits := hits[k := RotateHit(hits[k], angle, center, R)];
      }
    }

    /**
     * to_inch / to_metric (target units and length conversion f): only
     * when the file is in the other units, every statement (through the
     * drawing library's conversion `convertStmt`), tool diameter and hit is
     * converted and the units flag flips; otherwise nothing changes, so a
     * second call is a no-op.
     */
    method ConvertUnits(target: Units, f: real -> real, convertStmt: ExStmt -> ExStmt)
      modifies this
      ensures settings == old(settings).(units := target)
      ensures old(settings.units) == target ==>
                statements == old(statements) && tools == old(tools) && hits == old(hits)
      ensures old(settings.units) != target ==>
                |statements| == |old(statements)| && |tools| == |old(tools)| && |hits| == |old(hits)| &&
                (forall k :: 0 <= k < |statements| ==> statements[k] == convertStmt(old(statements)[k])) &&
                (forall k :: 0 <= k < |tools| ==> tools[k] == ConvertTool(old(tools)[k], f)) &&
                (forall k :: 0 <= k < |hits| ==> hits[k] == ConvertHit(old(hits)[k], f))
    {
      if settings.units == target {
        return;
      }
      for k := 0 to |statements|
        invariant |statements| == |old(statements)|
        invariant forall n :: 0 <= n < k ==> statements[n] == convertStmt(old(statements)[n])
        invariant forall n :: k <= n < |statements| ==> statements[n] == old(statements)[n]
        invariant tools == old(tools) && hits == old(hits) && settings == old(settings)
      {
        statements := statements[k := convertStmt(statements[k])];
      }
      for k := 0 to |tools|
        invariant |tools| == |old(tools)|
        invariant forall n :: 0 <= n < k ==> tools[n] == ConvertTool(old(tools)[n], f)
        invariant forall n :: k <= n < |tools| ==> tools[n] == old(tools)[n]
        invariant hits == old(hits) && settings == old(settings)
        invariant |statements| == |old(statements)|
        invariant forall n :: 0 <= n < |statements| ==> statements[n] == convertStmt(old(statements)[n])
      {
        tools := tools[k := ConvertTool(tools[k], f)];
      }
      for k := 0 to |hits|
        invariant |hits| == |old(hits)|
        invariant forall n :: 0 <= n < k ==> hits[n] == ConvertHit(old(hits)[n], f)
        invariant forall n :: k <= n < |hits| ==> hits[n] == old(hits)[n]
        invariant settings == old(settings)
        invariant |statements| == |old(statements)| && |tools| == |old(tools)|
        invariant forall n :: 0 <= n < |statements| ==> statements[n] == convertStmt(old(statements)[n])
        invariant forall n :: 0 <= n < |tools| ==> tools[n] == ConvertTool(old(tools)[n], f)
      {
        hits := hits[k := ConvertHit(hits[k], f)];
      }
      settings := settings.(units := target);
    }

    method ToInch(convertStmt: ExStmt -> ExStmt)
      modifies this
      ensures settings == old(settings).(units := Inch)
      ensures old(settings.units) == Inch ==>
                statements == old(statements) && tools == old(tools) && hits == old(hits)
      ensures old(settings.units) == Metric ==>
                statements == ConvertStatements(old(statements), convertStmt) &&
                tools == ConvertTools(old(tools), ToInchValue) && hits == ConvertHits(old(hits), ToInchValue)
    {
      ConvertUnits(Inch, ToInchValue, convertStmt);
    }

    method ToMetric(convertStmt: ExStmt -> ExStmt)
      modifies this
      ensures settings == old(settings).(units := Metric)
      ensures old(settings.units) == Metric ==>
                statements == old(statements) && tools == old(tools) && hits == old(hits)
      ensures old(settings.units) == Inch ==>
                statements == ConvertStatements(old(statements), convertStmt) &&
                tools == ConvertTools(old(tools), ToMetricValue) && hits == ConvertHits(old(hits), ToMetricValue)
    {
      ConvertUnits(Metric, ToMetricValue, convertStmt);
    }
  }
}

=== FILE: rs274x.dfy ===
/**
 * RS-274X (Gerber) files: the statement list, its offset, its rotation
 * with the re-derivation of arc centre offsets, and the replacement of the
 * standard R/O/P apertures by aperture macros that rotation needs.
 */
module Rs274x {
  import opened Common

  /** The four macros that replace the standard apertures. */
  datatype StdMacro = Rectangle | LandscapeObround | PortraitObround | Polygon

  /**
   * The body of an aperture macro: one of the four standard macros in given
   * units, or a macro read from a file (its primitives belong to the
   * drawing library and are not modelled).
   */
  datatype MacroBody = Standard(kind: StdMacro, units: Units) | Custom(text: string)

  /** The Gerber statements, grouped by what the transforms and the composition do with them. */
  datatype GStmt =
    | Comment(comment: string)
    | MacroDef(name: string, body: MacroBody)                 // %AM...%
    | ApertureDef(d: int, shape: string, modifiers: seq<real>) // %AD...%, first modifier tuple
    | LevelPolarity(dark: bool)                               // %LP...%
    | OtherParam(param: string)                               // FS, MO, IP, ...
    | Eof                                                     // M02
    | Deprecated(text: string)
    | ApertureSelect(d: int)                                  // Dnn*
    | Coord(x: Option<real>, y: Option<real>, i: Option<real>, j: Option<real>)
    | OtherDrawing(text: string)                              // G01, G75, G36, ...

  /** The offset of a coordinate statement: present x and y move, absent ones stay absent. */
  function OffsetCoord(s: GStmt, dx: real, dy: real): (r: GStmt)
    requires s.Coord?
    ensures r.Coord? && r.i == s.i && r.j == s.j
    ensures r.x.Some? <==> s.x.Some?
    ensures r.y.Some? <==> s.y.Some?
    ensures s.x.Some? ==> r.x.value == s.x.value + dx
    ensures s.y.Some? ==> r.y.value == s.y.value + dy
  {
    Coord(if s.x.Some? then Some(s.x.value + dx) else None,
          if s.y.Some? then Some(s.y.value + dy) else None, s.i, s.j)
  }

  lemma OffsetCoordInverse(s: GStmt, dx: real, dy: real)
    requires s.Coord?
    ensures OffsetCoord(OffsetCoord(s, dx, dy), -dx, -dy) == s
  {
  }

  // ---------------------------------------------------------------------
  // Rotation
  // ---------------------------------------------------------------------

  /**
   * The pen bookkeeping of the rotation loop: the unrotated position of
   * the last coordinate that had both x and y, and that position rotated.
   */
  datatype Pen = Pen(last: Point, lastR: Point)

  const ORIGIN_PEN := Pen(Point(0.0, 0.0), Point(0.0, 0.0))

  /**
   * One statement of the rotation loop. A macro is rotated by `rotMacro`
   * (the macro's own rotation belongs to the drawing library); a coordinate
   * with both x and y is rotated, and when it also has I and J, its arc
   * centre (previous position plus I/J) is rotated as a point and
   * re-expressed relative to the rotated previous position. Everything else,
   * including a coordinate missing x or y, is left as it is.
   */
  function RotateStmt(s: GStmt, pen: Pen, angle: real, center: Point, R: Rotation,
                      rotMacro: (MacroBody, real, Point) -> MacroBody): (GStmt, Pen)
  {
    match s
    case MacroDef(name, body) => (MacroDef(name, rotMacro(body, angle, center)), pen)
    case Coord(x, y, i, j) =>
      if x.Some? && y.Some? then
        var p := Point(x.value, y.value);
        var rp := R(angle, center, p);
        if i.Some? && j.Some? then
          var c := R(angle, center, Add(pen.last, Point(i.value, j.value)));
          (Coord(Some(rp.x), Some(rp.y), Some(c.x - pen.lastR.x), Some(c.y - pen.lastR.y)), Pen(p, rp))
        else (Coord(Some(rp.x), Some(rp.y), i, j), Pen(p, rp))
      else (s, pen)
    case _ => (s, pen)
  }

  /** The rotation loop over a statement list, from a given pen. */
  function RotateAll(stmts: seq<GStmt>, pen: Pen, angle: real, center: Point, R: Rotation,
                     rotMacro: (MacroBody, real, Point) -> MacroBody): (r: seq<GStmt>)
    ensures |r| == |stmts|
    decreases |stmts|
  {
    if stmts == [] then []
    else
      var (t, pen') := RotateStmt(stmts[0], pen, angle, center, R, rotMacro);
      [t] + RotateAll(stmts[1..], pen', angle, center, R, rotMacro)
  }

  lemma RotateAllUnfold(stmts: seq<GStmt>, pen: Pen, angle: real, center: Point, R: Rotation,
                        rotMacro: (MacroBody, real, Point) -> MacroBody)
    requires stmts != []
    ensures RotateAll(stmts, pen, angle, center, R, rotMacro) ==
            [RotateStmt(stmts[0], pen, angle, center, R, rotMacro).0] +
            RotateAll(stmts[1..], RotateStmt(stmts[0], pen, angle, center, R, rotMacro).1, angle, center, R, rotMacro)
  {
  }

  /** The pen after a list of statements. */
  function PenAfter(stmts: seq<GStmt>, pen: Pen, angle: real, center: Point, R: Rotation,
                    rotMacro: (MacroBody, real, Point) -> MacroBody): Pen
    decreases |stmts|
  {
    if stmts == [] then pen
    else PenAfter(stmts[1..], RotateStmt(stmts[0], pen, angle, center, R, rotMacro).1, angle, center, R, rotMacro)
  }

  predicate IsFullCoord(s: GStmt)
  {
    s.Coord? && s.x.Some? && s.y.Some?
  }

  /** The position of the last coordinate with both x and y. */
  function LastFull(stmts: seq<GStmt>): Option<Point>
  {
    if stmts == [] then None
    else if IsFullCoord(stmts[|stmts| - 1]) then Some(Point(stmts[|stmts| - 1].x.value, stmts[|stmts| - 1].y.value))
    else LastFull(stmts[..|stmts| - 1])
  }

  lemma {:induction false} PenAfterAppend(a: seq<GStmt>, s: GStmt, pen: Pen, angle: real, center: Point, R: Rotation,
                                          rotMacro: (MacroBody, real, Point) -> MacroBody)
    ensures PenAfter(a + [s], pen, angle, center, R, rotMacro) ==
            RotateStmt(s, PenAfter(a, pen, angle, center, R, rotMacro), angle, center, R, rotMacro).1
    decreases |a|
  {
    if a == [] {
      assert a + [s] == [s];
    } else {
      assert (a + [s])[1..] == a[1..] + [s];
      PenAfterAppend(a[1..], s, RotateStmt(a[0], pen, angle, center, R, rotMacro).1, angle, center, R, rotMacro);
    }
  }

  /**
   * The loop invariant of rotate: after any prefix the pen holds the last
   * full position and its rotation, or the origin twice when there was none.
   */
  lemma {:induction false} PenTracksLastFull(stmts: seq<GStmt>, angle: real, center: Point, R: Rotation,
                                             rotMacro: (MacroBody, real, Point) -> MacroBody)
    ensures PenAfter(stmts, ORIGIN_PEN, angle, center, R, rotMacro) ==
            (if LastFull(stmts).None? then ORIGIN_PEN
             else Pen(LastFull(stmts).value, R(angle, center, LastFull(stmts).value)))
    decreases |stmts|
  {
    if stmts != [] {
      var init := stmts[..|stmts| - 1];
      PenTracksLastFull(init, angle, center, R, rotMacro);
      PenAfterAppend(init, stmts[|stmts| - 1], ORIGIN_PEN, angle, center, R, rotMacro);
      assert init + [stmts[|stmts| - 1]] == stmts;
    }
  }

  lemma {:induction false} RotateAllAt(stmts: seq<GStmt>, pen: Pen, k: nat, angle: real, center: Point, R: Rotation,
                                       rotMacro: (MacroBody, real, Point) -> MacroBody)
    requires k < |stmts|
    ensures RotateAll(stmts, pen, angle, center, R, rotMacro)[k] ==
            RotateStmt(stmts[k], PenAfter(stmts[..k], pen, angle, center, R, rotMacro), angle, center, R, rotMacro).0
    decreases k
  {
    if k > 0 {
      RotateAllAt(stmts[1..], RotateStmt(stmts[0], pen, angle, center, R, rotMacro).1, k - 1, angle, center, R, rotMacro);
      assert stmts[1..][..k - 1] == stmts[..k][1..];
      assert stmts[1..][k - 1] == stmts[k];
    } else {
      assert stmts[..0] == [];
    }
  }

  /**
   * What rotation does to each arc statement: its new I/J is the rotated
   * centre minus the rotated previous position, where the previous
   * position is that of the last earlier statement with both x and y (the
   * origin, unrotated, when there is none). Statements of other kinds than
   * macros and full coordinates come out unchanged.
   */
  lemma ArcCentreRotated(stmts: seq<GStmt>, k: nat, angle: real, center: Point, R: Rotation,
                         rotMacro: (MacroBody, real, Point) -> MacroBody)
    requires k < |stmts|
    ensures var out := RotateAll(stmts, ORIGIN_PEN, angle, center, R, rotMacro)[k];
            var s := stmts[k];
            var prev := if LastFull(stmts[..k]).Some? then LastFull(stmts[..k]).value else Point(0.0, 0.0);
            var prevR := if LastFull(stmts[..k]).Some? then R(angle, center, prev) else Point(0.0, 0.0);
            (IsFullCoord(s) && s.i.Some? && s.j.Some? ==>
               out == Coord(Some(R(angle, center, Point(s.x.value, s.y.value)).x),
                            Some(R(angle, center, Point(s.x.value, s.y.value)).y),
                            Some(R(angle, center, Add(prev, Point(s.i.value, s.j.value))).x - prevR.x),
                            Some(R(angle, center, Add(prev, Point(s.i.value, s.j.value))).y - prevR.y))) &&
            (!IsFullCoord(s) && !s.MacroDef? ==> out == s)
  {
    RotateAllAt(stmts, ORIGIN_PEN, k, angle, center, R, rotMacro);
    PenTracksLastFull(stmts[..k], angle, center, R, rotMacro);
  }

  /**
   * One statement rotated by an angle from pen (a, b) and back by its
   * opposite from the swapped pen comes back, and the second pen is the
   * first one swapped.
   */
  lemma RotateStmtInverse(s: GStmt, a: Point, b: Point, angle: real, center: Point, R: Rotation,
                          rotMacro: (MacroBody, real, Point) -> MacroBody)
    requires forall c: Point, p: Point :: R(-angle, c, R(angle, c, p)) == p
    requires forall m: MacroBody :: rotMacro(rotMacro(m, angle, center), -angle, center) == m
    ensures var (t, pen') := RotateStmt(s, Pen(a, b), angle, center, R, rotMacro);
            RotateStmt(t, Pen(b, a), -angle, center, R, rotMacro) == (s, Pen(pen'.lastR, pen'.last))
  {
    if IsFullCoord(s) {
      var p := Point(s.x.value, s.y.value);
      var rp := R(angle, center, p);
      assert R(-angle, center, rp) == p;
      if s.i.Some? && s.j.Some? {
        var c := R(angle, center, Add(a, Point(s.i.value, s.j.value)));
        assert Add(b, Point(c.x - b.x, c.y - b.y)) == c;
        assert R(-angle, center, c) == Add(a, Point(s.i.value, s.j.value));
      }
    }
  }

  /**
   * Rotating by an angle and then by its opposite gives back every
   * statement, arcs included, when R(-a) undoes R(a) and the macros'
   * rotation is undone likewise.
   */
  lemma {:induction false} RotateAllInverse(stmts: seq<GStmt>, a: Point, b: Point, angle: real, center: Point, R: Rotation,
                                            rotMacro: (MacroBody, real, Point) -> MacroBody)
    requires forall c: Point, p: Point :: R(-angle, c, R(angle, c, p)) == p
    requires forall m: MacroBody :: rotMacro(rotMacro(m, angle, center), -angle, center) == m
    ensures RotateAll(RotateAll(stmts, Pen(a, b), angle, center, R, rotMacro), Pen(b, a), -angle, center, R, rotMacro) == stmts
    decreases |stmts|
  {
    if stmts != [] {
      var (t, pen') := RotateStmt(stmts[0], Pen(a, b), angle, center, R, rotMacro);
      RotateStmtInverse(stmts[0], a, b, angle, center, R, rotMacro);
      RotateAllInverse(stmts[1..], pen'.last, pen'.lastR, angle, center, R, rotMacro);
      var rest := RotateAll(stmts[1..], pen', angle, center, R, rotMacro);
      RotateAllUnfold(stmts, Pen(a, b), angle, center, R, rotMacro);
      var r1 := [t] + rest;
      assert r1[0] == t && r1[1..] == rest;
      RotateAllUnfold(r1, Pen(b, a), -angle, center, R, rotMacro);
      assert stmts == [stmts[0]] + stmts[1..];
    }
  }

  // ---------------------------------------------------------------------
  // Replacing the standard apertures by macros
  // ---------------------------------------------------------------------

  predicate IsStdAperture(s: GStmt)
  {
    s.ApertureDef? && (s.shape == "R" || s.shape == "O" || s.shape == "P")
  }

  /** The variables of the scanning loop of _generalize_aperture. */
  datatype Scan = Scan(need: bool, insertPoint: nat, lastAperture: nat, macros: set<string>)

  function ScanStep(sc: Scan, s: GStmt, idx: nat): Scan
  {
    var sc1 := if s.MacroDef? then sc.(macros := sc.macros + {s.name},
                                        insertPoint := if !sc.need then idx + 1 else sc.insertPoint)
               else sc;
    if IsStdAperture(s) then sc1.(need := true, lastAperture := idx) else sc1
  }

  /** The scan over a whole list. */
  function ScanAll(stmts: seq<GStmt>): (sc: Scan)
    ensures sc.insertPoint <= |stmts|
    ensures sc.need ==> sc.insertPoint <= sc.lastAperture < |stmts|
  {
    if stmts == [] then Scan(false, 0, 0, {})
    else ScanStep(ScanAll(stmts[..|stmts| - 1]), stmts[|stmts| - 1], |stmts| - 1)
  }

  function MacroNames(stmts: seq<GStmt>): set<string>
  {
    set k | 0 <= k < |stmts| && stmts[k].MacroDef? :: stmts[k].name
  }

  /**
   * What the scan finds: whether a standard aperture exists, the last
   * one, every macro name, and an insertion point just after a macro (or
   * at the start) that no standard aperture precedes and after which no
   * macro comes before the first standard aperture.
   */
  lemma {:induction false} ScanMeaning(stmts: seq<GStmt>)
    ensures var sc := ScanAll(stmts);
            (sc.need <==> exists k :: 0 <= k < |stmts| && IsStdAperture(stmts[k])) &&
            sc.macros == MacroNames(stmts) &&
            sc.insertPoint <= |stmts| &&
            (sc.insertPoint > 0 ==> stmts[sc.insertPoint - 1].MacroDef?) &&
            (forall k :: 0 <= k < sc.insertPoint ==> !IsStdAperture(stmts[k])) &&
            (forall k :: sc.insertPoint <= k < |stmts| && stmts[k].MacroDef? ==>
               exists m :: 0 <= m < k && IsStdAperture(stmts[m])) &&
            (sc.need ==> sc.insertPoint <= sc.lastAperture < |stmts| && IsStdAperture(stmts[sc.lastAperture]) &&
                         forall k :: sc.lastAperture < k < |stmts| ==> !IsStdAperture(stmts[k]))
  {
    ScanFindsApertures(stmts);
    ScanMacroNames(stmts);
    ScanInsertPoint(stmts);
  }

  /** The scan needs the macros exactly when a standard aperture exists, and finds the last one. */
  lemma {:induction false} ScanFindsApertures(stmts: seq<GStmt>)
    ensures var sc := ScanAll(stmts);
            (sc.need <==> exists k :: 0 <= k < |stmts| && IsStdAperture(stmts[k])) &&
            (sc.need ==> IsStdAperture(stmts[sc.lastAperture]) &&
                         forall k :: sc.lastAperture < k < |stmts| ==> !IsStdAperture(stmts[k]))
  {
    if stmts != [] {
      var init := stmts[..|stmts| - 1];
      ScanFindsApertures(init);
      assert forall k :: 0 <= k < |init| ==> init[k] == stmts[k];
      if ScanAll(init).need {
        assert exists m :: 0 <= m < |init| && IsStdAperture(stmts[m]);
      }
    }
  }

  /** The scan collects the name of every macro. */
  lemma {:induction false} ScanMacroNames(stmts: seq<GStmt>)
    ensures ScanAll(stmts).macros == MacroNames(stmts)
  {
    if stmts != [] {
      var init := stmts[..|stmts| - 1];
      var s := stmts[|stmts| - 1];
      ScanMacroNames(init);
      assert forall k :: 0 <= k < |init| ==> init[k] == stmts[k];
      assert MacroNames(stmts) == MacroNames(init) + (if s.MacroDef? then {s.name} else {});
    }
  }

  /**
   * The insertion point follows a macro (or is the start), no standard
   * aperture precedes it, and no macro after it comes before the first
   * standard aperture.
   */
  lemma {:induction false} ScanInsertPoint(stmts: seq<GStmt>)
    ensures var sc := ScanAll(stmts);
            (sc.insertPoint > 0 ==> stmts[sc.insertPoint - 1].MacroDef?) &&
            (forall k :: 0 <= k < sc.insertPoint ==> !IsStdAperture(stmts[k])) &&
            (forall k :: sc.insertPoint <= k < |stmts| && stmts[k].MacroDef? ==>
               exists m :: 0 <= m < k && IsStdAperture(stmts[m]))
  {
    if stmts != [] {
      var init := stmts[..|stmts| - 1];
      ScanInsertPoint(init);
      ScanFindsApertures(init);
      assert forall k :: 0 <= k < |init| ==> init[k] == stmts[k];
    }
  }

  /** The part of ScanMeaning about where standard apertures cannot be. */
  lemma ScanOutside(stmts: seq<GStmt>)
    ensures var sc := ScanAll(stmts);
            sc.need ==> (forall k :: 0 <= k < sc.insertPoint ==> !IsStdAperture(stmts[k])) &&
                        (forall k :: sc.lastAperture < k < |stmts| ==> !IsStdAperture(stmts[k]))
  {
    ScanFindsApertures(stmts);
    ScanInsertPoint(stmts);
  }

  /** The part of ScanMeaning saying that without a need there is no standard aperture. */
  lemma ScanNeed(stmts: seq<GStmt>)
    ensures ScanAll(stmts).need <==> exists k :: 0 <= k < |stmts| && IsStdAperture(stmts[k])
  {
    ScanFindsApertures(stmts);
  }

  const BASE_NAMES: seq<string> := ["MACR", "MACLO", "MACPO", "MACP"]

  /**
   * The four inserted macros: every insert goes to the same point, so they
   * end up in reverse order of creation (polygon first, rectangle last).
   */
  function NewMacros(names: seq<string>, units: Units): seq<GStmt>
    requires |names| == 4
  {
    [MacroDef(names[3], Standard(Polygon, units)), MacroDef(names[2], Standard(PortraitObround, units)),
     MacroDef(names[1], Standard(LandscapeObround, units)), MacroDef(names[0], Standard(Rectangle, units))]
  }

  /**
   * The new shape of an aperture: R to the rectangle macro, P to the
   * polygon macro, O to the landscape obround when its x size exceeds its y
   * size (a missing size counts as 0) and to the portrait obround otherwise.
   */
  function Generalize(s: GStmt, names: seq<string>): GStmt
    requires |names| == 4
  {
    if !s.ApertureDef? then s
    else if s.shape == "R" then s.(shape := names[0])
    else if s.shape == "O" then
      var x := if |s.modifiers| > 0 then s.modifiers[0] else 0.0;
      var y := if |s.modifiers| > 1 then s.modifiers[1] else 0.0;
      s.(shape := if x > y then names[1] else names[2])
    else if s.shape == "P" then s.(shape := names[3])
    else s
  }

  function GeneralizeEach(stmts: seq<GStmt>, names: seq<string>): (r: seq<GStmt>)
    requires |names| == 4
    ensures |r| == |stmts|
    ensures forall k :: 0 <= k < |stmts| ==> r[k] == Generalize(stmts[k], names)
  {
    if stmts == [] then []
    else GeneralizeEach(stmts[..|stmts| - 1], names) + [Generalize(stmts[|stmts| - 1], names)]
  }

  /** The names chosen: each base name or its first free `_k` form. */
  ghost predicate ChosenNames(taken: set<string>, names: seq<string>)
  {
    |names| == 4 && forall k :: 0 <= k < 4 ==> IsFirstFree(taken, BASE_NAMES[k], names[k])
  }

  /** _generalize_aperture as a function of the statements and the names chosen. */
  function Generalized(stmts: seq<GStmt>, names: seq<string>, units: Units): seq<GStmt>
    requires |names| == 4
  {
    var sc := ScanAll(stmts);
    if !sc.need then stmts else Placed(stmts, sc.insertPoint, sc.lastAperture, names, units)
  }

  /** The macros inserted at `ip` and the statements from `ip` to `la` generalized. */
  function Placed(stmts: seq<GStmt>, ip: nat, la: nat, names: seq<string>, units: Units): seq<GStmt>
    requires |names| == 4 && ip <= la < |stmts|
  {
    stmts[..ip] + NewMacros(names, units) + GeneralizeEach(stmts[ip..la + 1], names) + stmts[la + 1..]
  }

  /**
   * Where everything goes: the statements before the insertion point stay,
   * the four macros follow, and every later statement moves four places on,
   * with its aperture shape generalized.
   */
  lemma {:induction false} GeneralizedLayout(stmts: seq<GStmt>, names: seq<string>, units: Units)
    requires |names| == 4
    ensures var g := Generalized(stmts, names, units);
            var sc := ScanAll(stmts);
            (!sc.need ==> g == stmts) &&
            (sc.need ==>
               |g| == |stmts| + 4 &&
               (forall k :: 0 <= k < sc.insertPoint ==> g[k] == stmts[k]) &&
               g[sc.insertPoint..sc.insertPoint + 4] == NewMacros(names, units) &&
               (forall k :: sc.insertPoint + 4 <= k < |g| ==> g[k] == Generalize(stmts[k - 4], names)))
  {
    var sc := ScanAll(stmts);
    if sc.need {
      ScanOutside(stmts);
      PlacedLayout(stmts, sc.insertPoint, sc.lastAperture, names, units);
    }
  }

  /** GeneralizedLayout for given insertion point and last standard aperture. */
  lemma PlacedLayout(stmts: seq<GStmt>, ip: nat, la: nat, names: seq<string>, units: Units)
    requires |names| == 4 && ip <= la < |stmts|
    requires forall k :: la < k < |stmts| ==> !IsStdAperture(stmts[k])
    ensures var g := Placed(stmts, ip, la, names, units);
            |g| == |stmts| + 4 &&
            (forall k :: 0 <= k < ip ==> g[k] == stmts[k]) &&
            g[ip..ip + 4] == NewMacros(names, units) &&
            (forall k :: ip + 4 <= k < |g| ==> g[k] == Generalize(stmts[k - 4], names))
  {
    var head, nm := stmts[..ip], NewMacros(names, units);
    var mid := GeneralizeEach(stmts[ip..la + 1], names);
    var tail := stmts[la + 1..];
    var rest := mid + tail;
    var g := head + nm + mid + tail;
    assert g == (head + nm) + rest;
    assert g[ip..ip + 4] == nm;
    forall k | ip + 4 <= k < |g| ensures g[k] == Generalize(stmts[k - 4], names) {
      assert g[k] == rest[k - 4 - ip];
      if k - 4 > la {
        assert !IsStdAperture(stmts[k - 4]);
        assert rest[k - 4 - ip] == tail[k - 4 - la - 1];
      } else {
        assert rest[k - 4 - ip] == mid[k - 4 - ip];
      }
    }
  }

  /**
   * One statement: with names of at least four letters, the new shape is
   * never R, O or P, a standard aperture keeps its D code and takes one of
   * the names, and every other statement stays as it was.
   */
  lemma GeneralizeOne(s: GStmt, names: seq<string>)
    requires |names| == 4 && forall k :: 0 <= k < 4 ==> |names[k]| >= 4
    ensures !IsStdAperture(Generalize(s, names))
    ensures IsStdAperture(s) ==> Generalize(s, names).ApertureDef? && Generalize(s, names).d == s.d &&
                                 Generalize(s, names).shape in names
    ensures !IsStdAperture(s) ==> Generalize(s, names) == s
  {
    assert |names[0]| >= 4 && |names[1]| >= 4 && |names[2]| >= 4 && |names[3]| >= 4;
  }

  /** After the replacement no aperture has shape R, O or P. */
  lemma {:induction false} NoStandardApertureLeft(stmts: seq<GStmt>, names: seq<string>, units: Units)
    requires |names| == 4 && forall k :: 0 <= k < 4 ==> |names[k]| >= 4
    ensures var g := Generalized(stmts, names, units);
            forall k :: 0 <= k < |g| ==> !IsStdAperture(g[k])
  {
    var sc := ScanAll(stmts);
    var g := Generalized(stmts, names, units);
    GeneralizedLayout(stmts, names, units);
    ScanOutside(stmts);
    ScanNeed(stmts);
    if sc.need {
      var ip := sc.insertPoint;
      forall k | 0 <= k < |g| ensures !IsStdAperture(g[k]) {
        if k >= ip + 4 {
          GeneralizeOne(stmts[k - 4], names);
        } else if k >= ip {
          assert g[k] == g[ip..ip + 4][k - ip];
        }
      }
    }
  }

  /**
   * Every aperture that had a standard shape keeps its D code, moves four
   * places on, and now names one of the inserted macros, which come before it.
   */
  lemma {:induction false} StandardAperturesRenamed(stmts: seq<GStmt>, names: seq<string>, units: Units)
    requires |names| == 4 && forall k :: 0 <= k < 4 ==> |names[k]| >= 4
    ensures var g := Generalized(stmts, names, units);
            var sc := ScanAll(stmts);
            forall k :: 0 <= k < |stmts| && IsStdAperture(stmts[k]) ==>
               sc.insertPoint <= k && k + 4 < |g| && g[k + 4].ApertureDef? && g[k + 4].d == stmts[k].d &&
               exists m :: sc.insertPoint <= m < sc.insertPoint + 4 && g[m].MacroDef? && g[m].name == g[k + 4].shape
  {
    var sc := ScanAll(stmts);
    var g := Generalized(stmts, names, units);
    GeneralizedLayout(stmts, names, units);
    ScanOutside(stmts);
        ScanNeed(stmts);
    var ip := sc.insertPoint;
    forall k | 0 <= k < |stmts| && IsStdAperture(stmts[k])
      ensures ip <= k && k + 4 < |g| && g[k + 4].ApertureDef? && g[k + 4].d == stmts[k].d
      ensures exists m :: ip <= m < ip + 4 && g[m].MacroDef? && g[m].name == g[k + 4].shape
    {
      GeneralizeOne(stmts[k], names);
      var macros := g[ip..ip + 4];
      assert macros[0] == g[ip] && macros[1] == g[ip + 1] && macros[2] == g[ip + 2] && macros[3] == g[ip + 3];
    }
  }

  /** The first `n` names the naming loop picks. */
  ghost function FirstFreeNames(taken: set<string>, n: nat): (r: seq<string>)
    requires n <= 4
    ensures |r| == n
  {
    if n == 0 then [] else FirstFreeNames(taken, n - 1) + [FirstFree(taken, BASE_NAMES[n - 1])]
  }

  lemma {:induction false} FirstFreeNamesChosen(taken: set<string>)
    ensures ChosenNames(taken, FirstFreeNames(taken, 4))
  {
    var names := FirstFreeNames(taken, 4);
    assert FirstFreeNames(taken, 3) == names[..3];
    assert FirstFreeNames(taken, 2) == names[..2];
    assert FirstFreeNames(taken, 1) == names[..1];
    assert names[0] == FirstFree(taken, BASE_NAMES[0]);
  }

  /** The chosen names are at least as long as the base names, so none is R, O or P. */
  lemma ChosenNamesLong(taken: set<string>, names: seq<string>)
    requires ChosenNames(taken, names)
    ensures forall k :: 0 <= k < 4 ==> |names[k]| >= 4
  {
    forall k | 0 <= k < 4 ensures |names[k]| >= 4 {
      var n :| names[k] == Candidate(BASE_NAMES[k], n) &&
               forall k': nat :: k' < n ==> Candidate(BASE_NAMES[k], k') in taken;
    }
  }

  /** A list in reverse order. */
  function Backwards(s: seq<GStmt>): (r: seq<GStmt>)
    ensures |r| == |s|
  {
    if s == [] then [] else [s[|s| - 1]] + Backwards(s[..|s| - 1])
  }

  /** The statements with those in [from, to) generalized. */
  function RewriteRange(s: seq<GStmt>, from: nat, to: nat, names: seq<string>): (r: seq<GStmt>)
    requires |names| == 4 && from <= to <= |s|
    ensures |r| == |s|
    ensures forall n :: 0 <= n < |s| ==> r[n] == (if from <= n < to then Generalize(s[n], names) else s[n])
  {
    s[..from] + GeneralizeEach(s[from..to], names) + s[to..]
  }

  /** Generalizing a concatenation generalizes each part. */
  lemma {:induction false} GeneralizeEachAppend(a: seq<GStmt>, b: seq<GStmt>, names: seq<string>)
    requires |names| == 4
    ensures GeneralizeEach(a + b, names) == GeneralizeEach(a, names) + GeneralizeEach(b, names)
    decreases |b|
  {
    if b != [] {
      var b' := b[..|b| - 1];
      assert (a + b)[..|a + b| - 1] == a + b';
      GeneralizeEachAppend(a, b', names);
    } else {
      assert a + b == a;
    }
  }

  /** Rewriting the range that holds inserted macros and then `mid` generalizes `mid` only. */
  lemma RewriteAfterInsert(head: seq<GStmt>, nm: seq<GStmt>, mid: seq<GStmt>, tail: seq<GStmt>, names: seq<string>)
    requires |names| == 4 && forall k :: 0 <= k < |nm| ==> nm[k].MacroDef?
    ensures RewriteRange(head + (nm + mid) + tail, |head|, |head| + |nm + mid|, names) ==
            head + (nm + GeneralizeEach(mid, names)) + tail
  {
    ThreeSlices(head, nm + mid, tail);
    MacrosThenGeneralized(nm, mid, names);
  }

  /** A list with `b` inserted at `i`, seen as the part before, `b` with the range [i, j), and the rest. */
  lemma Regroup<T>(s: seq<T>, b: seq<T>, i: nat, j: nat)
    requires i <= j <= |s|
    ensures s[..i] + b + s[i..] == s[..i] + (b + s[i..j]) + s[j..]
  {
    assert s[i..] == s[i..j] + s[j..];
  }

  lemma Reassociate<T>(a: seq<T>, b: seq<T>, c: seq<T>, d: seq<T>)
    ensures a + (b + c) + d == a + b + c + d
  {
  }

  /** The three parts of a concatenation, sliced back out. */
  lemma ThreeSlices<T>(a: seq<T>, b: seq<T>, c: seq<T>)
    ensures var w := a + b + c;
            w[..|a|] == a && w[|a|..|a| + |b|] == b && w[|a| + |b|..] == c
  {
    var w := a + b + c;
    assert w[..|a|] == a;
    assert w[|a|..|a| + |b|] == b;
  }

  /** Generalizing macros followed by `mid` leaves the macros and generalizes `mid`. */
  lemma MacrosThenGeneralized(nm: seq<GStmt>, mid: seq<GStmt>, names: seq<string>)
    requires |names| == 4 && forall k :: 0 <= k < |nm| ==> nm[k].MacroDef?
    ensures GeneralizeEach(nm + mid, names) == nm + GeneralizeEach(mid, names)
  {
    GeneralizeEachAppend(nm, mid, names);
    assert GeneralizeEach(nm, names) == nm;
  }

  /** Inserting the macros and then rewriting the shapes gives the generalized list. */
  lemma {:induction false} GeneralizedAssembly(base: seq<GStmt>, ip: nat, la: nat, names: seq<string>, units: Units)
    requires |names| == 4 && ScanAll(base).need
    requires ScanAll(base).insertPoint == ip && ScanAll(base).lastAperture == la
    ensures RewriteRange(base[..ip] + NewMacros(names, units) + base[ip..], ip, la + 5, names) ==
            Generalized(base, names, units)
  {
    PlacedAssembly(base, ip, la, names, units);
  }

  lemma PlacedAssembly(base: seq<GStmt>, ip: nat, la: nat, names: seq<string>, units: Units)
    requires |names| == 4 && ip <= la < |base|
    ensures RewriteRange(base[..ip] + NewMacros(names, units) + base[ip..], ip, la + 5, names) ==
            Placed(base, ip, la, names, units)
  {
    var nm, mid := NewMacros(names, units), base[ip..la + 1];
    Regroup(base, nm, ip, la + 1);
    RewriteAfterInsert(base[..ip], nm, mid, base[la + 1..], names);
    Reassociate(base[..ip], nm, GeneralizeEach(mid, names), base[la + 1..]);
  }

  /** Inserting at the front of the reversed part reverses one more element. */
  lemma InsertInFront(a: seq<GStmt>, made: seq<GStmt>, b: seq<GStmt>, m: GStmt)
    ensures var s := a + Backwards(made) + b;
            s[..|a|] + [m] + s[|a|..] == a + Backwards(made + [m]) + b
  {
    var s := a + Backwards(made) + b;
    assert (made + [m])[..|made|] == made;
    assert Backwards(made + [m]) == [m] + Backwards(made);
    assert s[..|a|] == a;
    assert s[|a|..] == Backwards(made) + b;
  }

  /** The kinds of the four inserted macros, in the order they are created. */
  const KINDS: seq<StdMacro> := [Rectangle, LandscapeObround, PortraitObround, Polygon]

  /** The macros created so far, in creation order, for the names chosen so far. */
  function MacrosMade(names: seq<string>, units: Units): seq<GStmt>
    requires |names| <= 4
  {
    if names == [] then []
    else MacrosMade(names[..|names| - 1], units) + [MacroDef(names[|names| - 1], Standard(KINDS[|names| - 1], units))]
  }

  /** Each insert goes in front of the previous ones, so the four end up reversed. */
  lemma NewMacrosMade(names: seq<string>, units: Units)
    requires |names| == 4
    ensures Backwards(MacrosMade(names, units)) == NewMacros(names, units)
  {
    var made := MacrosMade(names, units);
    assert names[..3][..2][..1][..0] == [];
    assert names[..3][..2] == names[..2] && names[..2][..1] == names[..1];
    assert MacrosMade(names[..1], units) == [MacroDef(names[0], Standard(Rectangle, units))];
    assert MacrosMade(names[..2], units) == [MacroDef(names[0], Standard(Rectangle, units)),
                                             MacroDef(names[1], Standard(LandscapeObround, units))];
    assert MacrosMade(names[..3], units) == MacrosMade(names[..2], units) + [MacroDef(names[2], Standard(PortraitObround, units))];
    assert made == MacrosMade(names[..3], units) + [MacroDef(names[3], Standard(Polygon, units))];
    assert made == [MacroDef(names[0], Standard(Rectangle, units)), MacroDef(names[1], Standard(LandscapeObround, units)),
                    MacroDef(names[2], Standard(PortraitObround, units)), MacroDef(names[3], Standard(Polygon, units))];
    BackwardsFour(made);
  }

  /** Backwards on four elements. */
  lemma BackwardsFour(s: seq<GStmt>)
    requires |s| == 4
    ensures Backwards(s) == [s[3], s[2], s[1], s[0]]
  {
    var s1, s2, s3 := [s[0]], [s[0], s[1]], [s[0], s[1], s[2]];
    assert s1[..0] == [] && s2[..1] == s1 && s3[..2] == s2 && s[..3] == s3;
    assert Backwards(s1) == [s[0]];
    assert Backwards(s2) == [s[1], s[0]];
    assert Backwards(s3) == [s[2], s[1], s[0]];
  }

  // ---------------------------------------------------------------------
  // GerberFile
  // ---------------------------------------------------------------------

  /** A Gerber file: its statement list and settings. */
  class GerberFile {
    var statements: seq<GStmt>
    var settings: Settings

    constructor (statements: seq<GStmt>, settings: Settings)
      ensures this.statements == statements && this.settings == settings
    {
      this.statements := statements;
      this.settings := settings;
    }

    /**
     * offset: coordinate statements move by (dx, dy); every other
     * statement goes through its own offset, which belongs to the drawing
     * library (`shift`). Rendering primitives are not modelled.
     */
    method Offset(dx: real, dy: real, shift: (GStmt, real, real) -> GStmt)
      modifies this
      ensures settings == old(settings) && |statements| == |old(statements)|
      ensures forall k :: 0 <= k < |statements| ==>
                statements[k] == (if old(statements)[k].Coord? then OffsetCoord(old(statements)[k], dx, dy)
                                  else shift(old(statements)[k], dx, dy))
    {
      for k := 0 to |statements|
        invariant settings == old(settings) && |statements| == |old(statements)|
        invariant forall n :: 0 <= n < k ==>
                    statements[n] == (if old(statements)[n].Coord? then OffsetCoord(old(statements)[n], dx, dy)
                                      else shift(old(statements)[n], dx, dy))
        invariant forall n :: k <= n < |statements| ==> statements[n] == old(statements)[n]
      {
        var s := statements[k];
        if s.Coord? {
          var x := if s.x.Some? then Some(s.x.value + dx) else s.x;
          var y := if s.y.Some? then Some(s.y.value + dy) else s.y;
          statements := statements[k := s.(x := x, y := y)];
        } else {
          statements := statements[k := shift(s, dx, dy)];
        }
      }
    }

    /**
     * _generalize_aperture: find the standard apertures, insert the four
     * macros under fresh names, and rewrite the apertures' shapes. The
     * names chosen are returned for the specification only.
     */
    method GeneralizeAperture() returns (ghost names: seq<string>)
      modifies this
      ensures settings == old(settings) && |names| == 4
      ensures ScanAll(old(statements)).need ==> ChosenNames(MacroNames(old(statements)), names)
      ensures statements == Generalized(old(statements), names, settings.units)
    {
      var need, insertPoint, lastAperture, macros := ScanStatements();
      names := ["", "", "", ""];
      if !need {
        return;
      }
      ghost var base := statements;
      ScanMacroNames(base);
      var chosen := InsertMacros(insertPoint, macros);
      names := chosen;
      RewriteShapes(insertPoint, lastAperture + 5, chosen);
      GeneralizedAssembly(base, insertPoint, lastAperture, chosen, settings.units);
    }

    /** The scanning loop of _generalize_aperture; it changes nothing. */
    method ScanStatements() returns (need: bool, insertPoint: nat, lastAperture: nat, macros: set<string>)
      ensures Scan(need, insertPoint, lastAperture, macros) == ScanAll(statements)
    {
      need := false;
      insertPoint, lastAperture := 0, 0;
      macros := {};
      for idx := 0 to |statements|
        invariant ScanAll(statements[..idx]) == Scan(need, insertPoint, lastAperture, macros)
      {
        var s := statements[idx];
        assert statements[..idx + 1][..idx] == statements[..idx];
        if s.MacroDef? {
          macros := macros + {s.name};
          if !need {
            insertPoint := idx + 1;
          }
        }
        if IsStdAperture(s) {
          need := true;
          lastAperture := idx;
        }
      }
      assert statements[..|statements|] == statements;
    }

    /**
     * The naming loop: each base name or its first free `_k` form against
     * the macros of the file, each macro inserted at the same point.
     */
    method InsertMacros(insertPoint: nat, macros: set<string>) returns (names: seq<string>)
      requires insertPoint <= |statements|
      modifies this
      ensures settings == old(settings)
      ensures ChosenNames(macros, names)
      ensures statements == old(statements)[..insertPoint] + NewMacros(names, settings.units) + old(statements)[insertPoint..]
    {
      var units := settings.units;
      names := [];
      for idx := 0 to 4
        invariant settings == old(settings) && |names| == idx
        invariant names == FirstFreeNames(macros, idx)
        invariant statements == old(statements)[..insertPoint] + Backwards(MacrosMade(names, units)) +
                                old(statements)[insertPoint..]
      {
        var name := FreshName(macros, BASE_NAMES[idx]);
        var m := MacroDef(name, Standard(KINDS[idx], units));
        InsertInFront(old(statements)[..insertPoint], MacrosMade(names, units), old(statements)[insertPoint..], m);
        Insert(insertPoint, m);
        assert (names + [name])[..idx] == names;
        names := names + [name];
      }
      NewMacrosMade(names, units);
      FirstFreeNamesChosen(macros);
    }

    /** list.insert on the statements. */
    method Insert(index: nat, s: GStmt)
      requires index <= |statements|
      modifies this
      ensures settings == old(settings)
      ensures statements == old(statements)[..index] + [s] + old(statements)[index..]
    {
      statements := statements[..index] + [s] + statements[index..];
    }

    /** The rewriting loop over the statements from `from` up to `to`. */
    method RewriteShapes(from: nat, to: nat, names: seq<string>)
      requires |names| == 4 && from <= to <= |statements|
      modifies this
      ensures settings == old(settings)
      ensures statements == RewriteRange(old(statements), from, to, names)
    {
      for idx := from to to
        invariant settings == old(settings) && |statements| == |old(statements)|
        invariant forall n :: 0 <= n < |statements| ==>
                    statements[n] == (if from <= n < idx then Generalize(old(statements)[n], names) else old(statements)[n])
      {
        statements := statements[idx := Generalize(statements[idx], names)];
      }
    }

    /**
     * rotate: a whole number of turns does nothing; otherwise the standard
     * apertures become macros and the rotation loop runs from the origin
     * pen over the result.
     */
    method Rotate(angle: real, center: Point, R: Rotation, rotMacro: (MacroBody, real, Point) -> MacroBody)
      modifies this
      ensures settings == old(settings)
      ensures IsFullTurn(angle) ==> statements == old(statements)
      ensures !IsFullTurn(angle) ==>
                exists names :: |names| == 4 &&
                  (ScanAll(old(statements)).need ==> ChosenNames(MacroNames(old(statements)), names)) &&
                  statements == RotateAll(Generalized(old(statements), names, settings.units), ORIGIN_PEN,
                                          angle, center, R, rotMacro)
    {
      if IsFullTurn(angle) {
        return;
      }
      ghost var names := GeneralizeAperture();
      RotateStatements(angle, center, R, rotMacro);
    }

    /** The loop of rotate, over the statements after the apertures were generalized. */
    method RotateStatements(angle: real, center: Point, R: Rotation, rotMacro: (MacroBody, real, Point) -> MacroBody)
      modifies this
      ensures settings == old(settings)
      ensures statements == RotateAll(old(statements), ORIGIN_PEN, angle, center, R, rotMacro)
    {
      ghost var base := statements;
      var lastX, lastY := 0.0, 0.0;
      var lastRX, lastRY := 0.0, 0.0;
      for k := 0 to |statements|
        invariant settings == old(settings) && base == old(statements)
        invariant |statements| == |base|
        invariant statements[k..] == base[k..]
        invariant RotateAll(base, ORIGIN_PEN, angle, center, R, rotMacro) ==
                  statements[..k] + RotateAll(base[k..], Pen(Point(lastX, lastY), Point(lastRX, lastRY)), angle, center, R, rotMacro)
      {
        var s := statements[k];
        ghost var pen := Pen(Point(lastX, lastY), Point(lastRX, lastRY));
        ghost var prefix := statements[..k];
        RotateAllUnfold(base[k..], pen, angle, center, R, rotMacro);
        assert base[k..][0] == s && base[k..][1..] == base[k + 1..];
        var t;
        t, lastX, lastY, lastRX, lastRY := RotateOne(s, lastX, lastY, lastRX, lastRY, angle, center, R, rotMacro);
        statements := statements[k := t];
        assert statements[..k + 1] == prefix + [t];
      }
      assert statements[..|statements|] == statements;
    }

    /** One pass of the rotation loop, on the pen kept as four numbers. */
    static method RotateOne(s: GStmt, lastX: real, lastY: real, lastRX: real, lastRY: real,
                            angle: real, center: Point, R: Rotation, rotMacro: (MacroBody, real, Point) -> MacroBody)
      returns (t: GStmt, x: real, y: real, rx: real, ry: real)
      ensures (t, Pen(Point(x, y), Point(rx, ry))) ==
              RotateStmt(s, Pen(Point(lastX, lastY), Point(lastRX, lastRY)), angle, center, R, rotMacro)
    {
      t, x, y, rx, ry := s, lastX, lastY, lastRX, lastRY;
      if s.MacroDef? {
        t := MacroDef(s.name, rotMacro(s.body, angle, center));
      } else if s.Coord? && s.x.Some? && s.y.Some? {
        var i, j := s.i, s.j;
        if s.i.Some? && s.j.Some? {
          var c := R(angle, center, Point(lastX + s.i.value, lastY + s.j.value));
          i := Some(c.x - lastRX);
          j := Some(c.y - lastRY);
        }
        x, y := s.x.value, s.y.value;
        var rp := R(angle, center, Point(s.x.value, s.y.value));
        rx, ry := rp.x, rp.y;
        t := Coord(Some(rp.x), Some(rp.y), i, j);
      }
    }

    /**
     * to_inch / to_metric of the drawing library, used by the composition:
     * only when the file is in the other units, every statement goes
     * through `convert` and the units flag flips.
     */
    method ConvertUnits(target: Units, convert: GStmt -> GStmt)
      modifies this
      ensures settings == old(settings).(units := target)
      ensures old(settings.units) == target ==> statements == old(statements)
      ensures old(settings.units) != target ==>
                |statements| == |old(statements)| &&
                forall k :: 0 <= k < |statements| ==> statements[k] == convert(old(statements)[k])
    {
      if settings.units == target {
        return;
      }
      for k := 0 to |statements|
        invariant |statements| == |old(statements)| && settings == old(settings)
        invariant forall n :: 0 <= n < k ==> statements[n] == convert(old(statements)[n])
        invariant forall n :: k <= n < |statements| ==> statements[n] == old(statements)[n]
      {
        statements := statements[k := convert(statements[k])];
      }
      settings := settings.(units := target);
    }
  }
}
